=== FILE: README.md ===
# cupa core, modelled in Dafny

This project models the core of the *cupa* utility collection. Each piece is stated as
pure Dafny functions over immutable values, and the promises the code makes are proved
about them.

* **TiddlyWiki save servers.**
  * The Java `Tw5Server` (`tiddlywiki/Tw5Server.java`) and the Python `tw5server`
    (`tiddlywiki/tw5server.py`) are each modelled as one request step from a server state
    to a new state and a response.
  * The state holds the files under the document root and the per-file backup archives.
  * This covers the client allow-list and the bind address it implies.
  * Java's lexical path sandbox is modelled, including where it leaks.
  * PUT overwrites the file and appends a timestamped backup entry.
  * The Python server can also render a spreadsheet as a TiddlyWiki or Jira table.
* **Spreadsheet to wiki table** (`tiddlywiki/xls2tw.py`):
  * merged-cell status;
  * the `~` steering prefixes that align a cell's text;
  * the TiddlyWiki and Jira table renderings.
* **Rule-set matcher** (`rsmatcher/ruleset_matcher.py`):
  * a rule matches a key when every field is either the wildcard or equal;
  * the highest priority among the candidates wins;
  * rules are read from and written to CSV.
* **Log reporter** (`logrep/logrep_server.py`, `logrep/logrep_client.py`, `logrep/tee.py`):
  * server: settings merged from a TOML document, the guards of `search_logs`, and the
    grep-like window of matches with trailing context lines;
  * client: the request URL and the aligned printout with `--` between separated
    windows;
  * tee: strips SGR colour codes from what goes to the log file.
* **SQLite helpers** (`sqlite/utils.py`):
  * identifier quoting by `qt`;
  * the statement plan of `recreate_table`: new table DDL, the original's indexes and
    triggers, and explicit unique indexes.
* **GitLab issue report** (`gitlab/gitlab_issues_report.py`):
  * ids from global ids and URLs;
  * the date filter for events;
  * the walk up the epic ancestry, with its memo;
  * inserting an issue, its epics, notes and events into a nested report tree.

The modules follow the programs:

* Shared building blocks:
  * `Wrap`: `Option`, `Result`;
  * `Text`: string operations of the runtimes;
  * `Http`;
  * `Archive`;
  * `AllowList`;
  * `JavaPath`: `java.nio.file.Path`.
* Programs:
  * `Tw5Java`, `Tw5Python`, `SideBySide` (the two servers compared);
  * `Xls2Tw`;
  * `RsMatcher`;
  * `LogrepServer`, `LogrepClient`, `Tee`;
  * `SqliteUtils`;
  * `GitlabTree`.

The environment enters as parameters, never as hidden effects:

* clock readings and formatted timestamps;
* the file system, as a map;
* a regex compiler, as an oracle;
* `Path.resolve` on the Python side;
* the GitLab fetches;
* the opened workbook.

## Model

| member | source | states |
|---|---|---|
| AllowList.Collect | tiddlywiki/Tw5Server.java:39-54 | the allow-list holds loopback plus exactly the trimmed lines that are neither blank nor `#` comments, whatever the trim function |
| AllowList.LoadJava | tiddlywiki/Tw5Server.java:39-54 | any IOException leaves exactly loopback; otherwise loopback plus every address line trimmed by `String.trim` |
| AllowList.LoadPython | tiddlywiki/tw5server.py:34-41 | a missing file gives loopback only; any other error propagates (Err iff the source is some other error); otherwise loopback plus every `strip()`ped address line |
| AllowList.BindHostLoopbackIff | tiddlywiki/tw5server.py:240 | the server binds to 127.0.0.1 iff every address line names 127.0.0.1, otherwise to 0.0.0.0 (both directions) |
| AllowList.SingleAddressFile | tiddlywiki/Tw5Server.java:27 | a file of one address admits that address and loopback and no other, and makes the server listen on all interfaces |
| Archive.Append | tiddlywiki/Tw5Server.java:166-181 | a backup appends exactly one entry at the end of one archive (creating it if absent); every other archive and every earlier entry is kept |
| JavaPath.Parse | tiddlywiki/Tw5Server.java:89 | `Paths.get` yields only non-empty names free of `/` |
| JavaPath.Normalize | tiddlywiki/Tw5Server.java:89 | `normalize()` keeps absoluteness, removes every `.`, and leaves an absolute path with no `.` or `..` at all |
| JavaPath.Target | tiddlywiki/Tw5Server.java:89-90 | the handler's target fails (raises) iff the request path holds NUL or normalizes to the empty string that `substring(1)` cannot cut (for paths of Basic Multilingual Plane characters) |
| JavaPath.NamesOfJoin | tiddlywiki/Tw5Server.java:89 | reading back the `/`-joined string of well-formed names gives the same names |
| JavaPath.ParseToString | tiddlywiki/Tw5Server.java:89 | `Paths.get(p.toString())` is `p` again |
| JavaPath.NormalizeClean | tiddlywiki/Tw5Server.java:89 | normalizing names free of `.` and `..` leaves them unchanged |
| JavaPath.NormalizeAppend | tiddlywiki/Tw5Server.java:89 | normalizing a concatenation is normalizing the second part from where the first left off |
| JavaPath.AbsoluteRequestStaysInside | tiddlywiki/Tw5Server.java:89-94 | for every request path starting with `/` the target passes `startsWith(DOC_ROOT)` and its canonical location lies inside the document root |
| JavaPath.OneCharRelativeRequestBecomesAbsolute | tiddlywiki/Tw5Server.java:89-90 | a relative request `c/rest` loses `c` to `substring(1)` and resolves to the absolute path `/rest`, replacing the document root (for `c` in the Basic Multilingual Plane) |
| JavaPath.DoubleDotRequestEscapesRoot | tiddlywiki/Tw5Server.java:89-94 | `../../rest` passes the lexical `startsWith` test, yet its canonical location is the root's parent joined with `rest` |
| Tw5Java.MimeTypeOfSuffix | tiddlywiki/Tw5Server.java:151-164 | a path `stem.ext` with a non-empty stem is typed by the table entry of `ext` lower-cased |
| Tw5Java.MimeTypeWithoutDot | tiddlywiki/Tw5Server.java:152-153 | a path with no dot after its first character is `application/octet-stream` |
| Tw5Java.MimeTypeIgnoresCase | tiddlywiki/Tw5Server.java:154 | upper-casing the extension does not change the content type, with the ASCII lower-casing of a non-Turkic locale |
| Tw5Java.FileStemOfSuffix | tiddlywiki/Tw5Server.java:167-170 | the archive stem of `stem.ext` is `stem` |
| Tw5Java.FileStemWithoutDot | tiddlywiki/Tw5Server.java:167-170 | a name with no dot after its first character is its own stem |
| Tw5Java.SendError | tiddlywiki/Tw5Server.java:183-192 | an error reply carries the given status, appends to the log and changes no file or archive |
| Tw5Java.CreateDirectories | tiddlywiki/Tw5Server.java:118 | `createDirectories` succeeds iff no prefix of the directory is a regular file; then the directory exists, no file changes and no directory is lost |
| Tw5Java.WriteFile | tiddlywiki/Tw5Server.java:120 | `Files.write` succeeds iff the target is not a directory and its parent is one; then exactly that file's bytes are replaced |
| Tw5Java.AppendEntry | tiddlywiki/Tw5Server.java:166-181 | the backup succeeds iff no directory has the archive's name, and then appends exactly the one entry to `<stem>-tw5.zip` |
| Tw5Java.HandleGet | tiddlywiki/Tw5Server.java:86-107 | GET replies 200 iff the target passes the sandbox test and is a file, with the file's bytes and its content type; 403 iff the target is outside the root; the only statuses are 200, 403 and 404; nothing changes but the log |
| Tw5Java.ServeFile | tiddlywiki/Tw5Server.java:91-106 | once the target is known: 403 iff outside the root, 200 iff inside and present (with its bytes and type), 404 otherwise |
| Tw5Java.HandleHead | tiddlywiki/Tw5Server.java:136-149 | HEAD replies 200 with an empty body iff the target is a file (no sandbox test), 404 otherwise; nothing changes but the log |
| Tw5Java.HandleOptions | tiddlywiki/Tw5Server.java:126-134 | OPTIONS answers 200 with `Allow: GET,HEAD,OPTIONS,PUT`, `x-api-access-type: file`, `dav: tw5/put` and no body, whatever the path |
| Tw5Java.HandlePut | tiddlywiki/Tw5Server.java:109-124 | PUT replies 403 iff outside the root, changing nothing; a 200 means the file now holds the body and its archive gained exactly the entry `<timestamp>~<name>`; archives only grow |
| Tw5Java.StoreFile | tiddlywiki/Tw5Server.java:111-123 | once the target is known: 403 iff outside the root; a 200 means overwrite plus one backup entry; archives only grow |
| Tw5Java.Dispatch | tiddlywiki/Tw5Server.java:71-77 | 501 iff the method is not GET, PUT, OPTIONS or HEAD; only PUT changes files or archives |
| Tw5Java.Handle | tiddlywiki/Tw5Server.java:62-84 | an unlisted client gets 403 before anything else, with nothing changed; every reply is 200/403/404/500/501; 500 iff the handler raised; only PUT changes state and archives only grow |
| Tw5Java.InternalError | tiddlywiki/Tw5Server.java:78-80 | a raised exception is logged and answered with 500, changing no file or archive |
| Tw5Java.PutReplied | tiddlywiki/Tw5Server.java:62-84 | a PUT answered 200 came from an allowed client and is exactly `handlePut`'s reply |
| Tw5Java.PutThenGet | tiddlywiki/Tw5Server.java:86-124 | a GET after a successful PUT of the same path returns 200 and exactly the bytes put |
| Tw5Java.TwoPutsArchiveBoth | tiddlywiki/Tw5Server.java:109-124 | two successful PUTs of one path leave both payloads in its archive, in order, after what it held before |
| Tw5Java.PutArchives | tiddlywiki/Tw5Server.java:121 | a successful PUT appends exactly its own backup entry to its file's archive |
| Tw5Java.HeadSkipsSandbox | tiddlywiki/Tw5Server.java:86-149 | for a one-character relative path naming a file outside the root, GET answers 403 and HEAD answers 200 |
| Tw5Java.AbsoluteGetReadsInsideRoot | tiddlywiki/Tw5Server.java:86-107 | a GET of a path starting with `/` answers 200 or 404, and a 200 returns the bytes of a file at or below the document root |
| Tw5Java.DoubleDotGetReadsAboveRoot | tiddlywiki/Tw5Server.java:86-107 | a GET of `../../rest` answers 200 with the bytes of the file `rest` beside the document root |
| Tw5Java.OptionsAnswer | tiddlywiki/Tw5Server.java:126-134 | OPTIONS from an allowed client always gets the capability answer and changes no file or archive |
| Tw5Python.RemoveTimestampOfSuffix | tiddlywiki/tw5server.py:136-138 | a `?timestamp=` or `&timestamp=` query of exactly thirteen digits at the end of a path is removed, giving the path back |
| Tw5Python.RemoveTimestampNoMatch | tiddlywiki/tw5server.py:50 | a path that does not end in such a query (and does not end in a newline) is left unchanged |
| Tw5Python.TwelveDigitsKept | tiddlywiki/tw5server.py:50 | a twelve-digit stamp is not a timestamp query and stays in the path |
| Tw5Python.TableText | tiddlywiki/tw5server.py:115-134 | a worksheet beyond 12 columns or 70 rows yields the "too many columns and/or rows" table; otherwise the flavour's conversion of the first worksheet, with the footer only in front of a TW5 table, failing iff the converter fails |
| Tw5Python.PlanGet | tiddlywiki/tw5server.py:165-187 | GET converts a table iff the spreadsheet modules loaded and the original path holds `?to-tw5-table` or `?to-jira-table` (TW5 iff the former), opening the file iff not converting and the de-timestamped path holds `?startfile`, otherwise serving the de-timestamped path |
| Tw5Python.ConvertAndSend | tiddlywiki/tw5server.py:143-163 | 404 iff the name is missing or cannot be opened; a non-workbook drops the connection; 200 with `text/plain` iff a workbook converts, carrying the table for GET and no body for HEAD |
| Tw5Python.TimestampIgnored | tiddlywiki/tw5server.py:165-187 | appending a thirteen-digit timestamp query gives the same plan, and the same outcome for every GET that is not a TW5 table |
| Tw5Python.JiraTableServed | tiddlywiki/tw5server.py:115-163 | a Jira table request for a workbook within the limits is answered 200 with the CRLF-joined Jira rows of its first worksheet and no footer |
| Tw5Python.Tw5TableServed | tiddlywiki/tw5server.py:115-163 | a TW5 table request for a workbook within the limits is answered with the footer followed by the converter's TW5 table, or dropped when the worksheet has no rows |
| Tw5Python.ReadBody | tiddlywiki/tw5server.py:205 | `rfile.read(size)` returns a prefix of the body, the whole body for a negative or large size, and exactly `size` bytes otherwise |
| Tw5Python.DoPut | tiddlywiki/tw5server.py:196-217 | 403 iff the resolved target is neither the root nor below it, changing nothing; files change only at the resolved target, to the body read with `int(Content-Length)`; a 200 means the overwrite plus one backup entry `<timestamp>~<name>` in `<stem>-tw5.zip`; archives only grow |
| Tw5Python.Handle | tiddlywiki/tw5server.py:62-107 | a request line over 65536 characters gives 414, an empty one closes the connection, one `parse_request` refuses gets that status, an unknown method gives 501 and only then an unlisted client gives 403, all with nothing changed; an allowed GET, HEAD, PUT or OPTIONS goes to its handler, so only an allowed PUT changes state and archives only grow |
| SideBySide.UnknownMethodFromUnlistedClient | tiddlywiki/tw5server.py:87-97 | an unlisted client sending an unknown method gets 403 from the Java server but 501 from the Python server; neither changes what it stores |
| Tw5Python.OptionsAnswer | tiddlywiki/tw5server.py:219-224 | an allowed OPTIONS request is answered 200 with `Allow: GET,HEAD,OPTIONS,PUT`, which lists exactly the methods the server has handlers for |
| SideBySide.OptionsAgree | tiddlywiki/Tw5Server.java:71-77 | both servers handle exactly the same methods and answer an allowed OPTIONS request with 200 and the same headers, changing nothing |
| Xls2Tw.MergedStatus | tiddlywiki/xls2tw.py:96-106 | a cell is outside iff no range starts at it or contains it; otherwise the first such range in workbook order classifies it |
| Xls2Tw.MergedStatusInOnlyRange | tiddlywiki/xls2tw.py:96-106 | for a cell in exactly one range: below iff its row is below the range's first row, to the right iff it is in the first row right of the first cell |
| Xls2Tw.ReplaceSteering | tiddlywiki/xls2tw.py:89-94 | the result never starts with `^` or `,`, keeps the rest of the value unchanged after its first character, and is the value itself when it starts with neither |
| Xls2Tw.CellValue | tiddlywiki/xls2tw.py:79-87 | no value gives empty text; a Jira value is the text stripped of spaces; the result is empty iff there is no value or it strips to nothing |
| Xls2Tw.CoveredIgnoresContent | tiddlywiki/xls2tw.py:65-70 | a cell covered by a merged range, other than its top-left cell, renders as a one-character marker, whatever value or alignment it has |
| Xls2Tw.PlainCellText | tiddlywiki/xls2tw.py:65-77 | an unmerged cell without alignment shows just its value with `<br/>` for line breaks |
| Xls2Tw.SteeringOnlyFromAlignment | tiddlywiki/xls2tw.py:71-76 | for an unmerged cell with a value, its text starts with `^` iff it is top-aligned and with `,` iff it is bottom-aligned |
| Xls2Tw.Tw5ValuesKeepAll | tiddlywiki/xls2tw.py:112-119 | on a first row, or where the row above is long enough and no cell renders `~`, every cell's text is kept, in order |
| Xls2Tw.Tw5Values | tiddlywiki/xls2tw.py:112-119 | the row's kept values extend what was kept before by at most one per remaining cell; Xls2Tw.Tw5ValuesFilter states which ones exactly |
| Xls2Tw.Tw5ValuesFrom | tiddlywiki/xls2tw.py:114-119 | from any cell on, the loop's comparison with the last value kept leaves out exactly the texts the positional rule leaves out: a `~` under a `<` right after another `~` |
| Xls2Tw.Tw5ValuesFilter | tiddlywiki/xls2tw.py:112-119 | a row fails with `IndexError` iff there is a row above shorter than this one; otherwise the kept texts are, in order, exactly those that are not a `~` standing under a `<` right after another `~` |
| Xls2Tw.LastKeptTilde | tiddlywiki/xls2tw.py:117 | the last value kept before a cell is `~` iff the cell to its left renders `~`, so comparing with the last kept value is comparing with the left neighbour |
| Xls2Tw.JiraValues | tiddlywiki/xls2tw.py:120-122 | a Jira row is every cell's stripped value, in order, without formatting |
| Xls2Tw.RenderRows | tiddlywiki/xls2tw.py:112-128 | rendering keeps the rows done, yields one line per row, and each new line is its row rendered against the line above |
| Xls2Tw.Convert | tiddlywiki/xls2tw.py:129-130 | a TW5 conversion of a sheet without rows fails, since there is no first row to mark with `h` |
| Xls2Tw.JiraRows | tiddlywiki/xls2tw.py:120-128 | each Jira row is its cells' stripped values between bars, the first row with double bars |
| Xls2Tw.RenderJiraRows | tiddlywiki/xls2tw.py:112-128 | Jira rendering never fails and yields every row's Jira markup in order |
| Xls2Tw.JiraTable | tiddlywiki/xls2tw.py:108-131 | a Jira table is every row's markup joined by CR LF, with no `h` and no merge markers |
| Xls2Tw.Tw5SingleRow | tiddlywiki/xls2tw.py:108-131 | a one-row TW5 sheet without merged ranges is its cells' texts between bars followed by `h`, nothing dropped |
| Xls2Tw.Tw5Table | tiddlywiki/xls2tw.py:108-131 | a successful TW5 conversion has rows, renders each row against the one above, and is the rows joined by CR LF with `h` after the first |
| RsMatcher.MaxStep | rsmatcher/ruleset_matcher.py:73 | an unset or zero running value is replaced by the priority; otherwise the step keeps the larger of the two |
| RsMatcher.Scan | rsmatcher/ruleset_matcher.py:64-74 | the loop ends unset iff it started unset and no rule applies |
| RsMatcher.MaxPrio | rsmatcher/ruleset_matcher.py:64-74 | `max_prio` is None iff no rule applies to the item |
| RsMatcher.HasTopKey | rsmatcher/ruleset_matcher.py:48-51 | true iff an applicable rule of the given priority names the item's key |
| RsMatcher.Matches | rsmatcher/ruleset_matcher.py:48-51 | true iff an applicable rule whose priority equals `max_prio` names the item's key |
| RsMatcher.NoCandidateNoMatch | rsmatcher/ruleset_matcher.py:48-51 | no applicable rule, no match |
| RsMatcher.ScanIsMaximum | rsmatcher/ruleset_matcher.py:64-74 | with non-negative priorities the loop ends on the greatest of its start and the applicable priorities, and that value is attained |
| RsMatcher.MaxPrioIsMaximum | rsmatcher/ruleset_matcher.py:64-74 | with non-negative priorities `max_prio` is the greatest applicable priority and some applicable rule has it |
| RsMatcher.MatchesIffTopKey | rsmatcher/ruleset_matcher.py:48-74 | with non-negative priorities, `matches` holds iff a top-priority applicable rule names the key (both directions) |
| RsMatcher.NegativePriorityQuirk | rsmatcher/ruleset_matcher.py:73 | with priorities -5, 0, -3 the running 0 counts as unset, `max_prio` ends at -3 and a rule that is not of top priority decides the match |
| RsMatcher.RuleFromCsv | rsmatcher/ruleset_matcher.py:20-33 | parsing succeeds only with a non-empty delimiter and no or the init fields; without fields the line has exactly five parts, with fields at least five; the priority is `int` of the first part |
| RsMatcher.RuleCsvRoundTrip | rsmatcher/ruleset_matcher.py:20-33 | a rule written as a delimited line is read back equal, with or without the header's fields |
| RsMatcher.ParseRules | rsmatcher/ruleset_matcher.py:83-86 | at most one rule per line |
| RsMatcher.NonEmpty | rsmatcher/ruleset_matcher.py:78 | exactly the non-empty lines are kept, in order, and all lines when none is empty |
| RsMatcher.NonEmptyAppend | rsmatcher/ruleset_matcher.py:78 | dropping blank lines works line by line and keeps the order: it distributes over concatenation |
| RsMatcher.RuleSetFromCsv | rsmatcher/ruleset_matcher.py:76-87 | without a header the rules are the non-empty lines of `splitlines`, comments skipped, each parsed with the given fields; with `fields_from_header` a text without a non-empty line raises `StopIteration`, an empty delimiter fails, and otherwise the first non-empty line, left-stripped of the comment characters and split at the delimiter, gives the fields for the remaining lines, so fewer rules than non-empty lines come back |
| RsMatcher.HeaderNamesRuleFields | rsmatcher/ruleset_matcher.py:79-81 | the header `#prio<d>combo<d>color<d>size<d>key` yields exactly the rule's init fields when the delimiter's first character is in none of the names |
| RsMatcher.RuleLineShape | rsmatcher/ruleset_matcher.py:84-85 | a written rule is a non-empty line without breaks starting with a digit or `-`, never a `#` comment |
| RsMatcher.ParseRuleLines | rsmatcher/ruleset_matcher.py:83-86 | written rules, one per line, are parsed back in order, with no fields or with the init fields |
| RsMatcher.RuleSetCsvRoundTrip | rsmatcher/ruleset_matcher.py:76-87 | a `#` header line followed by the written rules, newline-terminated, reads back as exactly those rules |
| RsMatcher.RuleSetHeaderRoundTrip | rsmatcher/ruleset_matcher.py:76-87 | the `#` header naming the fields followed by the written rules, read with `fields_from_header`, gives exactly those rules, whatever fields the caller passes |
| RsMatcher.FixtureScenario | rsmatcher/test_ruleset_matcher.py:11-46 | the test fixture's text reads back as its six rules, and red size 2 matches `p9` not `m2`, red size 31 matches `m2` not `p9` |
| RsMatcher.FixtureRed2 | rsmatcher/test_ruleset_matcher.py:33-38 | red size-2 items: `p9` matches, `m2` does not |
| RsMatcher.FixtureRed31 | rsmatcher/test_ruleset_matcher.py:41-46 | red size-31 items: `m2` matches, `p9` does not |
| LogrepServer.IsPossiblyComplex | logrep/logrep_server.py:127-131 | a pattern is possibly complex iff some character of `()[]{}.*+?^$\|` is not directly preceded by a backslash |
| LogrepServer.EscapesArePlain | logrep/logrep_server.py:125-131 | escaped specials keep a pattern plain, and so does an escaped backslash before a special character, whose dot stays live as a regex |
| LogrepServer.Window | logrep/logrep_server.py:92-110 | the report lists, in increasing order, exactly the lines that match or lie at most `after` lines below the nearest match above them, each right-stripped |
| LogrepServer.WindowNext | logrep/logrep_server.py:99-108 | the report up to line n is the report up to line n-1 plus line n exactly when line n is shown |
| LogrepServer.FileReader | logrep/logrep_server.py:92-110 | the one-pass loop with its last-match line and context counter reports exactly the lines of the nearest-match rule, a fractional context counting as the next integer |
| LogrepServer.CountBelowCeil | logrep/logrep_server.py:106 | comparing the integer counter with a float context is comparing it with the context's ceiling (both directions) |
| LogrepServer.NoContextOnlyMatches | logrep/logrep_server.py:102-108 | with no context exactly the matching lines are reported |
| LogrepServer.NothingBeforeFirstMatch | logrep/logrep_server.py:106 | no line above the first match is reported |
| LogrepServer.ContextIsContiguous | logrep/logrep_server.py:104-108 | a context line is reported only together with every line between it and its match |
| LogrepServer.Kwargs | logrep/logrep_server.py:52-63 | a profile's keyword arguments are the top-level entries that are no tables, `profile`, and the profile's own keys, nothing else |
| LogrepServer.SharedKeyInherited | logrep/logrep_server.py:57-63 | each keyword argument takes the profile's own value, else the profile's name for `profile`, else the top-level value, which is never a table |
| LogrepServer.MakeSettings | logrep/logrep_server.py:29-36 | `Settings(**kwargs)` succeeds iff every key is a field; it keeps the profile, defaults `after_context` to 0 and otherwise takes the given value |
| LogrepServer.ProfileToSettings | logrep/logrep_server.py:48-65 | the loading succeeds iff every profile's keys are fields; then there is one settings record per profile, `top-level` and every table not named with a leading `#`, built from its keyword arguments |
| LogrepServer.ProfileOverridesShared | logrep/logrep_server.py:59-63 | a profile's own `after_context` overrides the shared one, a shared one is inherited, and with neither the default 0 applies |
| LogrepServer.ProfileNamed | logrep/logrep_server.py:61-63 | the profile field is the table's name unless the table sets `profile` itself; a shared `profile` never survives |
| LogrepServer.HashTablesIgnored | logrep/logrep_server.py:55 | adding a table whose name starts with `#` changes nothing, not even whether loading fails |
| LogrepServer.SubstitutePrefix | logrep/logrep_server.py:134-151 | text without `<` in front of a template is copied as it is and the rest is expanded on its own, or the whole expansion fails with it |
| LogrepServer.SubstitutePlain | logrep/logrep_server.py:134-151 | a log path without `<` is used as it is |
| LogrepServer.EscapeTemplateRoundTrip | logrep/logrep_server.py:134-151 | a path with every `<` doubled expands back to the literal path, whatever the time |
| LogrepServer.InvalidPlaceholder | logrep/logrep_server.py:134-151 | a `<` that is neither doubled nor opens a non-empty field closed by `>` (as in `app<.log` or `x<>.log`) makes `substitute` raise |
| LogrepServer.FieldExpanded | logrep/logrep_server.py:134-151 | a field `<fmt>` is replaced by the current time in format `fmt`, and the rest of the path is expanded on its own |
| LogrepServer.BrokenTemplateIs500 | logrep/logrep_server.py:164 | a profile whose log path holds an invalid placeholder answers every search with 500, whatever files exist |
| LogrepServer.SearchLogs | logrep/logrep_server.py:154-207 | empty pattern gives 400; unknown profile gives 404; a log path with an invalid placeholder gives 500; 404 iff the profile is unknown or its expanded log path names no file; "Invalid regex pattern" iff all checks pass and a possibly complex pattern does not compile; matches are found iff all checks pass, the regex compiles and the log is readable, and they are then the nearest-match window; every error is 400, 404 or 500 |
| LogrepServer.NegativeContextBeforeRegex | logrep/logrep_server.py:170-177 | a negative request context is refused with 400 before compilation, whatever the compiler would say |
| LogrepServer.MissingLogBeforeContext | logrep/logrep_server.py:164-166 | a log path naming no file gives 404 before the context and the pattern are looked at |
| LogrepServer.PlainPatternNotCompiled | logrep/logrep_server.py:173-179 | a plain pattern is never compiled: the reply does not depend on the compiler |
| LogrepServer.FoundIsWindow | logrep/logrep_server.py:181 | a found reply lists each line at most once in increasing order, and a line is reported iff the nearest-match rule shows it |
| LogrepClient.TrimSlashes | logrep/logrep_client.py:16 | `rstrip('/')` keeps a prefix that does not end in `/` and drops only slashes |
| LogrepClient.SearchUrl | logrep/logrep_client.py:15-16 | the URL is the trimmed base, `/search?pattern=` and the pattern as given, ending in `&after_context=<n>` exactly when `-A` is not -1 |
| LogrepClient.SlashesIgnored | logrep/logrep_client.py:16 | any number of trailing slashes on the base gives the same URL |
| LogrepClient.PatternNotEncoded | logrep/logrep_client.py:16 | a pattern carrying its own `&after_context=3` gives the same URL as `-A 3` |
| LogrepClient.Rows | logrep/logrep_client.py:24-29 | the rows printed for the first n matches hold every match once, in order, plus one separator per jump |
| LogrepClient.PrintMatches | logrep/logrep_client.py:21-29 | the printing loop with its previous number (0 at first) prints exactly the rendered rows, padded to the width of the last number |
| LogrepClient.RowsNext | logrep/logrep_client.py:26-28 | each match adds its own line, preceded by `--` exactly when the previous number is set and not directly before it |
| LogrepClient.Grep | logrep/logrep_client.py:21-31 | a non-empty `matches` prints the match rows; otherwise one line holding `details`, or `None` when it is missing |
| LogrepClient.PrintedMatches | logrep/logrep_client.py:21-29 | the printout has one line per match plus one per jump, and every line is `--` or a formatted match |
| LogrepClient.LastRow | logrep/logrep_client.py:26-28 | the rows end with the latest match, with `--` right above it exactly when its number jumps |
| LogrepClient.GapPlacement | logrep/logrep_client.py:26-28 | every match sits at a known row, and the row above it is `--` exactly when its number jumps |
| LogrepClient.ColonsAligned | logrep/logrep_client.py:22-28 | with positive increasing numbers the `:` of every printed match is in the same column |
| LogrepClient.FormatIsNoSeparator | logrep/logrep_client.py:28 | a formatted match never reads as a `--` separator |
| LogrepClient.SeparatorExample | logrep/logrep_client.py:26-28 | matches 3, 4, 9 print as 3, 4, `--`, 9 |
| Tee.ParamsEnd | logrep/tee.py:10 | `\d+(;\d+)*` starting at j matches iff a digit stands there, and ends after a digit where no further `;digit` group follows |
| Tee.SgrLength | logrep/tee.py:10 | a recognised sequence is ESC, `[`, digits and `;digit` groups, and `m`, at least four characters |
| Tee.StripSgr | logrep/tee.py:35 | the stripped text is never longer than the input |
| Tee.ParamsEndOfJoin | logrep/tee.py:10 | parameters joined by `;` before an `m` are matched to their end |
| Tee.SgrLengthOfSgr | logrep/tee.py:10 | an SGR sequence at the front is recognised whole, whatever follows it |
| Tee.StripSgrSequence | logrep/tee.py:35 | a leading SGR sequence is removed and the rest is processed as if it were not there |
| Tee.StripNoEsc | logrep/tee.py:35 | text without ESC is left unchanged |
| Tee.OtherSequencesKept | logrep/tee.py:10 | `ESC[m` and `ESC[2J` are not SGR sequences of the pattern and are kept |
| Tee.EscBeforeSequence | logrep/tee.py:35 | an ESC right before a sequence is kept while the sequence goes |
| Tee.SinglePass | logrep/tee.py:35 | one pass is not idempotent: `ESC ESC[1m [1m` leaves a new `ESC[1m` |
| Tee.StripPrefixNoEsc | logrep/tee.py:35 | a prefix without ESC passes unchanged ahead of the rest's output |
| Tee.Write | logrep/tee.py:34-36 | a write appends the stripped text to the file and the text unchanged to the stream |
| Tee.WritePlainToBoth | logrep/tee.py:34-36 | text without ESC reaches both sinks alike |
| Tee.ColouredWord | logrep/tee.py:34-36 | a word in bold red reaches the file bare and the stream with its codes |
| SqliteUtils.KeywordsShaped | sqlite/utils.py:7-24 | every listed SQLite keyword consists of upper-case ASCII letters and `_`, so `name.upper()` is the only case folding the membership test needs |
| SqliteUtils.Qt | sqlite/utils.py:30-47 | None raises; the empty name gives `""`; a name matching the unquoted pattern and no keyword is returned as it is when at most 64 characters long and refused otherwise; every success is at most 64 characters |
| SqliteUtils.QtQuotedRoundTrip | sqlite/utils.py:43-44 | a quoted name is `"` around the name with inner `"` doubled, and halving the inside gives the name back |
| SqliteUtils.QuotedLengthCounts | sqlite/utils.py:45-46 | the limit applies after quoting: a 63-character name needing quotes is refused |
| SqliteUtils.KeywordQuoted | sqlite/utils.py:40-44 | a keyword in any case is quoted, with nothing inside doubled |
| SqliteUtils.NewlineKeywordUnquoted | sqlite/utils.py:26 | the pattern's `$` matches before a final newline, so an identifier followed by a newline, keyword or not, is returned unquoted |
| SqliteUtils.DefaultClause | sqlite/utils.py:87-92 | no default adds nothing; a default adds a ` DEFAULT ` clause, the value as given unless the type is `TEXT` in any case and the value is not quoted, and then quoted with its quotes doubled |
| SqliteUtils.ColumnDef | sqlite/utils.py:74-94 | a column definition succeeds iff its name can be quoted; it starts with the quoted name and the type, has ` PRIMARY KEY` iff the column is a key and no table-level key is given, has ` NOT NULL` iff the column is not null, and ends with its default clause |
| SqliteUtils.NewKeyDropsColumnKey | sqlite/utils.py:82-83 | with new primary key columns the old column-level key flag is ignored |
| SqliteUtils.TextDefaultRoundTrip | sqlite/utils.py:89-90 | an unquoted TEXT default is wrapped in `'` with inner quotes doubled, and halving the inside gives it back |
| SqliteUtils.ColumnDefs | sqlite/utils.py:74-94 | all column definitions succeed iff every column name can be quoted, and then each is its column's definition, in order |
| SqliteUtils.QtAll | sqlite/utils.py:153 | quoting a list succeeds iff every name can be quoted, and then each element is its name quoted, in order |
| SqliteUtils.PkClause | sqlite/utils.py:152-154 | the key clause succeeds iff every key column can be quoted, and starts with `,` newline `PRIMARY KEY (` |
| SqliteUtils.IsStrict | sqlite/utils.py:139-144 | a table is strict iff its SQL exists and `RX_STRICT` matches somewhere in it |
| SqliteUtils.StrictDetected | sqlite/utils.py:27 | a definition ending in `) STRICT` is strict |
| SqliteUtils.StrictAnyCase | sqlite/utils.py:27 | the keyword matches in any case, without a space before it |
| SqliteUtils.StrictWholeWord | sqlite/utils.py:27 | `) STRICTLY` is not strict |
| SqliteUtils.StrictLastParenthesis | sqlite/utils.py:27 | a `)` later on the same line rules the match out |
| SqliteUtils.StrictUnicodeFold | sqlite/utils.py:27 | a line break may sit between `)` and the keyword, and `re.IGNORECASE` accepts the long s and the dotless i, so `)` newline `ſtrıct` is strict |
| SqliteUtils.ScanStep | sqlite/utils.py:111-136 | one `sqlite_master` row: the table's row sets its SQL, a trigger is appended, a plain index is restored, a unique index is restored iff its column set is not covered yet; the covered sets only grow and stay tracked |
| SqliteUtils.ScanMaster | sqlite/utils.py:111-136 | the loop keeps the covered column sets tracked, each kept once, and only grows them |
| SqliteUtils.ScanKeepsTriggers | sqlite/utils.py:134-136 | every trigger is restored, in `sqlite_master` order |
| SqliteUtils.ScanFindsOriginal | sqlite/utils.py:112-113 | the original SQL is that of the last `table` row with the table's name |
| SqliteUtils.ScanKeepsPlainIndex | sqlite/utils.py:114-133 | an index `PRAGMA index_list` does not call unique is always restored |
| SqliteUtils.ScanWithoutIndexes | sqlite/utils.py:111-136 | rows that are not indexes leave the indexes and the unique bookkeeping alone |
| SqliteUtils.ExplicitUnique | sqlite/utils.py:167-183 | requested unique column lists add one statement per newly covered set, keep the bookkeeping and never drop what was planned |
| SqliteUtils.UniqueIndexStmt | sqlite/utils.py:173-181 | the index statement fails iff a column or the `idx_u_<table>_<cols>` name cannot be quoted; otherwise it is `CREATE UNIQUE INDEX` on the quoted table with the quoted columns in request order |
| SqliteUtils.ExplicitUniqueCovers | sqlite/utils.py:167-183 | afterwards the covered sets are those covered before plus every requested set |
| SqliteUtils.ExplicitUniqueStatements | sqlite/utils.py:167-183 | every added statement is the index statement of a request whose column set was not yet covered, and is recorded with that set |
| SqliteUtils.UncoveredGetsIndex | sqlite/utils.py:170-183 | every requested column set that was not covered before is recorded anew, so it gets its index statement |
| SqliteUtils.CreateTable | sqlite/utils.py:147-161 | the statement is the header, the column definitions joined by `,` newline, the key clause and the closing parenthesis, ending in ` STRICT` iff the original was strict |
| SqliteUtils.Collect | sqlite/utils.py:67-136 | the scan starts from the key's column set when key columns are given, restores every trigger and finds the original SQL |
| SqliteUtils.TableDdl | sqlite/utils.py:74-161 | the new table's DDL has one name per column, starts with the column definitions, carries the key clause iff key columns are given, and ends in ` STRICT` iff the original was strict |
| SqliteUtils.PlanRecreate | sqlite/utils.py:55-183 | an unquotable table name or a table without columns fails; a plan keeps every unique column set once, starts with the key's set, lists every column and every trigger, and is strict iff the original is |
| SqliteUtils.InlineUniqueNotRestored | sqlite/utils.py:51-53 | contrary to the docstring, a table whose `sqlite_master` rows hold no index (as with an in-line UNIQUE, whose index has no SQL) gets no index and no unique constraint when none are requested |
| SqliteUtils.ReorderedKeyNotRepeated | sqlite/utils.py:170-172 | a requested unique constraint over the key's columns in any order adds no index |
| GitlabTree.IdFromGid | gitlab/gitlab_issues_report.py:254-255 | the issue id is a single path component, free of `/` |
| GitlabTree.IdOfGlobalId | gitlab/gitlab_issues_report.py:254-255 | the id of `gid://gitlab/<Type>/<n>` is the number `n` |
| GitlabTree.IdOfGid | gitlab/gitlab_issues_report.py:254-255 | the id of `gid://gitlab/<type>/<num>` is `num` for every plain last component |
| GitlabTree.UrlPathOfUrl | gitlab/gitlab_issues_report.py:254 | `urlparse` of `<scheme>://<host><path>`, with no tab or line break, has the path `path`, without its last segment's `;` parameters when the scheme is one that uses parameters |
| GitlabTree.HttpParamsSplit | gitlab/gitlab_issues_report.py:254 | the path of `http://<host>/<seg>;<params>` is `/<seg>` |
| GitlabTree.NoSchemeParamsSplit | gitlab/gitlab_issues_report.py:254-255 | a text without a scheme also loses its parameters: the id of `<seg>;<params>` is `seg` |
| GitlabTree.LineBreakDropped | gitlab/gitlab_issues_report.py:254 | a line break inside a URL is removed before the URL is split |
| GitlabTree.LineBreakInGidRemoved | gitlab/gitlab_issues_report.py:254-255 | the id of `gid://gitlab/<typ>/<a>` LF `<b>` is `<a><b>` |
| GitlabTree.GidKeepsParams | gitlab/gitlab_issues_report.py:254 | `gid` is not a scheme that uses parameters, so a global id keeps any `;` in its path |
| GitlabTree.RemoveUnsafeAppend | gitlab/gitlab_issues_report.py:254 | removing tabs and line breaks goes character by character and keeps the other characters in order |
| GitlabTree.LastComponent | gitlab/gitlab_issues_report.py:255 | `Path(dir/last).name` is `last` |
| GitlabTree.FilterEvents | gitlab/gitlab_issues_report.py:428-440 | the kept events are exactly the repackaged events that have an iteration starting within the range, ends included |
| GitlabTree.FilterAppend | gitlab/gitlab_issues_report.py:428-435 | filtering a concatenation filters each part, keeping the order |
| GitlabTree.EndsIncluded | gitlab/gitlab_issues_report.py:438-440 | an iteration starting exactly at either end of the range is kept |
| GitlabTree.NoIterationDropped | gitlab/gitlab_issues_report.py:431-432 | an event without an iteration is dropped |
| GitlabTree.Climb | gitlab/gitlab_issues_report.py:396-414 | the walk keeps every cached epic, caches each one it visits, ends with the starting epic, links each epic to its cached parent, stops at an epic without a parent or whose parent is not found, and is empty only when the first lookup finds nothing; a failed query raises |
| GitlabTree.CycleNeverEnds | gitlab/gitlab_issues_report.py:396-414 | two cached epics naming each other as parents make the walk fail for every fuel, as the `while True` loop never ends |
| GitlabTree.Ancestry | gitlab/gitlab_issues_report.py:391-416 | a non-empty memo entry for the starting global id is returned unchanged; otherwise the result is memoised under one key and nothing else in the memo changes |
| GitlabTree.AncestryShape | gitlab/gitlab_issues_report.py:391-416 | a walked ancestry ends with the starting epic and each epic is the cached parent of the next; it is empty only when the starting epic is not found |
| GitlabTree.MemoUnderFinalGid | gitlab/gitlab_issues_report.py:415 | the memo is keyed where the walk ended: a child whose parent is not found is stored under the parent's id, and a later walk from the parent returns the child's ancestry |
| GitlabTree.WithClosed | gitlab/gitlab_issues_report.py:475-479 | a closed item, epic or issue alike, gains the formatted `closedAt` attribute and the style `!NextAction.Closed` if it closed before the report's end, `!WaitingFor.Closed` otherwise; an open one keeps its attributes and gets no style |
| GitlabTree.CoreTextRoundTrip | gitlab/gitlab_issues_report.py:449 | the iid and the title come back from the core text `&iid title` or `#iid title` |
| GitlabTree.EpicNode | gitlab/gitlab_issues_report.py:448-460 | a new epic node has `@core` `&iid title`, attributes, and a style iff the epic is closed |
| GitlabTree.ActionIcon | gitlab/gitlab_issues_report.py:52-56 | `add` shows sparkles, `remove` a cross mark, any other action the sunflower |
| GitlabTree.Children | gitlab/gitlab_issues_report.py:481-501 | the merged mapping has the old keys and every item's key; the last item with a key wins and untouched keys keep their value |
| GitlabTree.Folder | gitlab/gitlab_issues_report.py:489 | a folder is folded and keeps every child other than `@props` |
| GitlabTree.IssueBase | gitlab/gitlab_issues_report.py:463-479 | the issue node has `@core` `#iid title` and a style iff the issue is closed |
| GitlabTree.IssueNode | gitlab/gitlab_issues_report.py:462-505 | the issue node holds its core text, the props (minimized iff it has a description), a style iff closed, and the comments and iteration-events folders |
| GitlabTree.NotesFolder | gitlab/gitlab_issues_report.py:481-489 | the comments folder is folded and holds each note under its id, the last note with an id winning |
| GitlabTree.EventsFolder | gitlab/gitlab_issues_report.py:491-503 | the events folder is folded and holds each event under `str(id)`, the last event with an id winning |
| GitlabTree.EventKeysNotProps | gitlab/gitlab_issues_report.py:492 | an event key is decimal and never clashes with `@props` |
| GitlabTree.Existing | gitlab/gitlab_issues_report.py:447-461 | a present epic entry is reused; a missing one becomes a new epic node |
| GitlabTree.Place | gitlab/gitlab_issues_report.py:443-463 | the walk adds only the top key, keeps every other top entry and every other field of the first epic node, and lands the leaf at the epic ids followed by the issue id |
| GitlabTree.Insert | gitlab/gitlab_issues_report.py:443-505 | the issue node lands below its epics under the issue id, nothing else at the top changes, and the insertion fails iff a value on the path is not an object |
| GitlabTree.PlaceFails | gitlab/gitlab_issues_report.py:445-461 | the walk fails exactly when a value on the issue's path is not an object (both directions) |
| GitlabTree.InsertErrors | gitlab/gitlab_issues_report.py:445-461 | a failure below the first epic node is a failure one step down inside it |
| Text.ParseInt | tiddlywiki/tw5server.py:204 | `int(s)` succeeds only on text that is not blank after stripping |
| Text.ParseIntRoundTrip | rsmatcher/ruleset_matcher.py:33 | `int(str(i)) == i` for every integer |
| Text.Split | rsmatcher/ruleset_matcher.py:32 | `split` yields at least one part and no part but the last contains the separator |
| Text.JoinSplit | rsmatcher/ruleset_matcher.py:32 | joining the parts of a split with the separator gives the text back |
| Text.SplitLines | rsmatcher/ruleset_matcher.py:78 | no line of `splitlines` contains a line boundary |
| Text.SplitLinesJoin | rsmatcher/ruleset_matcher.py:78 | lines written one per entry, each ended by a newline, split back into those lines |
| Text.PadLeft | logrep/logrep_client.py:28 | right alignment yields the width or the text's length, whichever is more, ends with the text and pads with spaces |
| Wrap.MapAll | sqlite/utils.py:153 | a loop raising at the first bad element succeeds iff every element succeeds, and then maps each in order; a failure is some element's failure |

## Left out

- Tw5Java.State, Tw5Java.Handle and Tw5Python.PyState keep the backup archives in a map apart from the served files. This is a deliberate simplification. In the source the backup directory is the document root, so `<stem>-tw5.zip` is an ordinary file there (tiddlywiki/Tw5Server.java:19-22, tiddlywiki/tw5server.py:242-244). The model therefore does not show three things:
  - a GET of an archive's name returns the archive; the model answers 404;
  - a PUT of an archive's name overwrites its whole history before appending to `<stem>-tw5-tw5.zip`;
  - `AppendOnly` on archives holds in the model only because of this separation.
- Archive.Append models a ZIP archive as its list of entries. Compression, the ZIP byte format and `zipfile`'s duplicate-name warning are not modelled.
- SqliteUtils.PlanRecreate takes the rows of the `sqlite_master` query and of `PRAGMA index_list`/`index_info` as given. The source builds two of these queries by pasting names inside single quotes (sqlite/utils.py:103, :119). A table or unique-index name containing `'` therefore makes the source raise `sqlite3.OperationalError`, or query a different name when the quote is doubled. The model does not raise there.
- SqliteUtils.PlanRecreate stops before execution. It plans the statements; running them in a transaction (sqlite/utils.py:185-216) needs a database engine.
- Text.ParseInt accepts only ASCII digits, with optional surrounding whitespace and a sign. Python's `int()` also accepts `_` between digits and every Unicode decimal digit. So a `Content-Length` such as `1_0` or one in Arabic-Indic digits gives `ValueError` in the model's Tw5Python.DoPut but a size in the source.
- Tw5Python.RemoveTimestamp recognises only ASCII digits for `\d`. Python's `\d` matches every Unicode decimal digit, so a stamp written in other digits is removed by the source and kept by the model.
- Tee.StripSgr recognises only ASCII digits for `\d`. A sequence with non-ASCII decimal digits is removed by the source and kept by the model.
- SqliteUtils.IsStrict uses ASCII letters, digits and `_` for the word boundary after `STRICT`. Python's `\w` is Unicode, so `) STRICTé` is strict in the model but not in the source. Likewise `\s` is modelled as the characters `str.isspace` accepts. Case folding is modelled for the letters of `STRICT`: either ASCII case, plus the extra equivalences of Python's `re` module (`ſ` for S, `ı` and `İ` for I).
- GitlabTree.Climb takes a `fuel` bound and fails when it runs out. The source's `while True` loop has no bound and never ends on a cycle of parent links (see GitlabTree.CycleNeverEnds).
- LogrepServer.Value models TOML floats as reals. `inf` and `nan` are not modelled, and neither are dates, times or arrays, which appear only as an opaque `Other` value. Parsing TOML text (`tomllib.loads`) and reading the configuration file are not modelled: the parsed document is the input.
- LogrepServer.SearchLogs takes three things as parameters of `Env`: the regex engine (`re.compile`, an oracle that fails or yields a line predicate), `datetime.now().strftime` (a total function from a format to the current time in that format), and the files on disk. The scan of `TimeTemplate` itself is modelled, including the ValueError for an invalid placeholder; its braced-identifier alternative is not, because any text it accepts is already taken by the plain `[^>]+>` field. Error details interpolated from the exception, the profile or the path are dropped; the model keeps the fixed part of each message. FastAPI's request parsing and validation, the compression middleware and logging are left out.
- LogrepClient.Grep starts from the decoded JSON answer. It does not model argparse, the HTTP request, `raise_for_status`, or the print of the response headers.
- Tee is modelled through `write` only. `open`, `close`, `flush`, the context manager and text encoding errors are I/O.
- Tw5Python.ConvertAndSend models the reply's status, content type and body. The `Content-Length` and `Last-Modified` headers and the `os.stat` call behind them are not modelled.
- Tw5Python.Handle leaves three things to the standard library and models them as outcomes: parsing the request line (an `Unparsable` outcome carrying the status `parse_request` sends), the static file handler (`StaticFile`), and opening a file on the desktop (`OpenFile`). The socket timeout and logging are left out.
- Xls2Tw.Convert starts from a worksheet whose cell values are already text. How openpyxl reads the workbook, and `str()` of non-text cell values, are not modelled.
- Tw5Java.Handle records log lines as events. The log file, the JDK HTTP server, the thread pool and the `Content-Length` header are left out.
- JavaPath.Canonical resolves paths lexically. Symbolic links, which the file system follows on the real server, are not modelled.
- GitlabTree starts from fetched records. The GraphQL and REST fetches, their JSON caches on disk, `format_date`, and the date parsing and comparison (given as `Env` functions) are outside the model, and so are the report's command-line flows and the Freeplane file writing.
- Clock readings, including the timestamps of backup entries, are caller-supplied parameters.
- JavaPath.Target works on Unicode scalar values, while Java strings are UTF-16. When the normalized request path is relative and starts with a character outside the Basic Multilingual Plane, `substring(1)` splits that character's surrogate pair. The resulting path then makes `resolve` throw `InvalidPathException` and the server answers 500, where the model returns a target.
- JavaPath.OneCharRelativeRequestBecomesAbsolute has the same gap: for a first name that is one character outside the Basic Multilingual Plane, the source strips only half of it and fails as above.
- Tw5Java.MimeTypeIgnoresCase lowers ASCII letters only. Java's `toLowerCase()` follows the default locale; under a Turkish or Azerbaijani locale `ICO` lowers to `ıco` with a dotless i, which maps to `application/octet-stream`. The lemma holds for locales whose lower-casing of ASCII letters is the ASCII one.
- Tw5Java.AppendEntry models the archive as its list of entries. The source opens the ZIP file in append mode and writes a whole new ZIP stream, with its own central directory, for each backup (tiddlywiki/Tw5Server.java:172-178). A ZIP reader sees only the last central directory, so it lists only the latest entry. Tw5Java.TwoPutsArchiveBoth therefore holds for the entry lists, not for what an unzip tool shows.
- GitlabTree.IdFromGid follows `urlparse` as current Python versions define it: leading control characters and spaces are stripped, tabs and line breaks removed, and `;` parameters split off. Two checks of `urlsplit` on the network location are not modelled, because both raise `ValueError` and the model has no error for them: brackets that are unbalanced or do not enclose a valid IPv6 address, and characters that change under NFKC normalization. Global ids `gid://gitlab/<Type>/<n>` have neither.
- GitlabTree.Insert and GitlabTree.Children model JSON objects as maps. The insertion order of Python dicts, which `json.dump` keeps in the Freeplane file and so decides the order of sibling nodes, is not modelled.

## Quirks

Each of these behaviours follows from the code as written. The model keeps the behaviour and a lemma exhibits it:

- **Tw5Java.HeadSkipsSandbox.** The Java HEAD handler has no `startsWith(DOC_ROOT)` test. A path that GET refuses with 403 is reported present by HEAD.
- **JavaPath.OneCharRelativeRequestBecomesAbsolute.** A request path without a leading `/` loses its first character to `substring(1)`. When the first name has one character, the remainder is absolute, and resolving it replaces the document root.
- **JavaPath.DoubleDotRequestEscapesRoot and Tw5Java.DoubleDotGetReadsAboveRoot.** `normalize()` keeps leading `..` in a relative path, and `substring(1)` turns `../../x` into `./../x`. That path passes the lexical `startsWith` test, yet the file system reads the file `x` beside the document root.
- **SideBySide.UnknownMethodFromUnlistedClient.** The two servers check in opposite orders. Java tests the client address first and answers 403; Python dispatches on the method first and answers 501.
- **GitlabTree.MemoUnderFinalGid.** `epic_to_ancestry` is keyed by the global id the walk ended on, not the one it started from. An ancestry can be stored under an epic that is not in it and be returned for that epic.
- **GitlabTree.CycleNeverEnds.** A cycle of cached parent links keeps the `while True` loop running forever.
- **SqliteUtils.NewlineKeywordUnquoted.** `re.match` with a pattern ending in `$` accepts a final newline. An identifier followed by `\n`, even a keyword, is therefore returned unquoted.
- **SqliteUtils.InlineUniqueNotRestored.** The docstring promises that in-line UNIQUE constraints become stand-alone indexes. Their indexes have no SQL, so the query never returns them and they are lost.
- **RsMatcher.NegativePriorityQuirk.** `max(max_prio, prio) if max_prio else prio` treats a running priority of 0 as unset. With negative priorities the computed maximum can be wrong.
- **Tee.SinglePass.** Removing SGR sequences in one pass is not idempotent: removing an inner sequence can join its neighbours into a new one.

=== FILE: allow_list.dfy ===
/** The client-address allow-list of both save servers (tiddlywiki/Tw5Server.java and
    tiddlywiki/tw5server.py) and the bind-address choice that depends on it. */
module AllowList {
  import opened Wrap
  import opened Text

  const Loopback := "127.0.0.1"
  const AllInterfaces := "0.0.0.0"

  /** A trimmed line that names an address: neither blank nor a `#` comment. */
  predicate IsAddressLine(t: string) {
    t != "" && !("#" <= t)
  }

  /** `a` is named by some line of the file, trimmed with `trim`. */
  ghost predicate Listed(lines: seq<string>, trim: string -> string, a: string) {
    exists i :: 0 <= i < |lines| && IsAddressLine(trim(lines[i])) && trim(lines[i]) == a
  }

  /** Loopback plus every trimmed address line, read in file order. */
  method Collect(lines: seq<string>, trim: string -> string) returns (allowed: set<string>)
    ensures Loopback in allowed
    ensures forall a :: a in allowed <==> a == Loopback || Listed(lines, trim, a)
  {
    allowed := {Loopback};
    var k := 0;
    while k < |lines|
      invariant 0 <= k <= |lines|
      invariant Loopback in allowed
      invariant forall a :: a in allowed <==> a == Loopback || Listed(lines[..k], trim, a)
    {
      var t := trim(lines[k]);
      if IsAddressLine(t) {
        allowed := allowed + {t};
      }
      assert forall i :: 0 <= i < k ==> lines[..k + 1][i] == lines[..k][i];
      assert lines[..k + 1][k] == lines[k];
      k := k + 1;
    }
    assert lines[..k] == lines;
  }

  /** What `Files.readAllLines` hands back: the lines, or an `IOException` of any kind
      (missing file, unreadable file, malformed UTF-8). */
  datatype JavaSource = JavaLines(lines: seq<string>) | JavaIoError

  /** `loadAllowedClientAddresses`: every I/O failure is reported and leaves loopback only. */
  method LoadJava(src: JavaSource) returns (allowed: set<string>)
    ensures Loopback in allowed
    ensures src.JavaIoError? ==> allowed == {Loopback}
    ensures src.JavaLines? ==> forall a :: a in allowed <==> a == Loopback || Listed(src.lines, JavaTrim, a)
  {
    match src
    case JavaIoError =>
      allowed := {Loopback};
    case JavaLines(lines) =>
      allowed := Collect(lines, JavaTrim);
  }

  /** What opening and iterating the file gives Python: the lines, a missing file, or some
      other error (permission, decoding, a directory in the file's place). */
  datatype PySource = PyLines(lines: seq<string>) | PyNotFound | PyOtherError(name: string)

  /** `load_allowed_client_addresses`: only `FileNotFoundError` is suppressed; any other
      error propagates out of the loader. */
  method LoadPython(src: PySource) returns (r: Result<set<string>>)
    ensures src.PyOtherError? <==> r.Err?
    ensures src.PyNotFound? ==> r == Ok({Loopback})
    ensures r.Ok? ==> Loopback in r.value
    ensures src.PyLines? ==> r.Ok? && forall a :: a in r.value <==> a == Loopback || Listed(src.lines, PyStrip, a)
  {
    match src
    case PyNotFound =>
      r := Ok({Loopback});
    case PyOtherError(name) =>
      r := Err(name);
    case PyLines(lines) =>
      var allowed := Collect(lines, PyStrip);
      r := Ok(allowed);
  }

  /** The bind address both servers choose at start-up. */
  function BindHost(allowed: set<string>): string {
    if allowed == {Loopback} then Loopback else AllInterfaces
  }

  /** The server binds to loopback only exactly when every address line of the file names
      loopback itself (in particular when the file is missing, empty or all comments). */
  lemma BindHostLoopbackIff(lines: seq<string>, trim: string -> string, allowed: set<string>)
    requires forall a :: a in allowed <==> a == Loopback || Listed(lines, trim, a)
    ensures BindHost(allowed) == Loopback
        <==> forall i :: 0 <= i < |lines| && IsAddressLine(trim(lines[i])) ==> trim(lines[i]) == Loopback
  {
    if forall i :: 0 <= i < |lines| && IsAddressLine(trim(lines[i])) ==> trim(lines[i]) == Loopback {
      assert allowed == {Loopback};
    } else {
      var i :| 0 <= i < |lines| && IsAddressLine(trim(lines[i])) && trim(lines[i]) != Loopback;
      assert trim(lines[i]) in allowed;
    }
  }

  /** A file holding one address line admits that address and loopback, nothing else,
      and makes the server listen on all interfaces. */
  lemma SingleAddressFile(addr: string, other: string, allowed: set<string>)
    requires |addr| > 0 && !PyWhitespace(addr[0]) && !PyWhitespace(addr[|addr| - 1]) && addr[0] != '#'
    requires addr != Loopback && other != addr && other != Loopback
    requires forall a :: a in allowed <==> a == Loopback || Listed([addr + "\n"], PyStrip, a)
    ensures addr in allowed && Loopback in allowed && other !in allowed
    ensures BindHost(allowed) == AllInterfaces
  {
    var lines := [addr + "\n"];
    PyStripLine(addr);
    assert PyStrip(lines[0]) == addr;
    assert IsAddressLine(addr) by { assert addr[0] == addr[..1][0]; }
    assert Listed(lines, PyStrip, addr);
    forall i | 0 <= i < |lines| ensures PyStrip(lines[i]) != other {
      assert i == 0;
    }
    assert addr in allowed;
  }
}

=== FILE: archive.dfy ===
/** The backup archives both save servers keep: each archive file is a sequence of entries
    that only ever grows at its end. */
module Archive {
  import opened Http

  /** One stored version: the entry name and the file's bytes. */
  datatype Entry = Entry(name: string, data: Bytes)

  /** The entries of the archive named `zip`; an archive not yet created holds none. */
  function Entries(archives: map<string, seq<Entry>>, zip: string): seq<Entry> {
    if zip in archives then archives[zip] else []
  }

  /** `b` extends `a` by at most one entry, appended to at most one archive. */
  predicate AppendOnly(a: map<string, seq<Entry>>, b: map<string, seq<Entry>>) {
    (forall z :: z in a ==> z in b && a[z] <= b[z])
    && (forall z :: z in b ==> Entries(a, z) <= b[z] && |b[z]| <= |Entries(a, z)| + 1)
    && (forall z, y :: z in b && y in b && b[z] != Entries(a, z) && b[y] != Entries(a, y) ==> z == y)
  }

  /** Appending one entry to one archive keeps every earlier entry of every archive. */
  function Append(archives: map<string, seq<Entry>>, zip: string, e: Entry): (r: map<string, seq<Entry>>)
    ensures AppendOnly(archives, r)
    ensures zip in r && r[zip] == Entries(archives, zip) + [e]
    ensures forall z :: z != zip ==> Entries(r, z) == Entries(archives, z)
  {
    archives[zip := Entries(archives, zip) + [e]]
  }

  lemma AppendOnlyReflexive(a: map<string, seq<Entry>>)
    ensures AppendOnly(a, a)
  {
  }
}

=== FILE: compare.dfy ===
/** The two save servers side by side, where their checks come in a different order. */
module SideBySide {
  import Tw5Java
  import Tw5Python

  /** A client missing from the allow-list that sends a method neither server knows is
      refused with 403 by the Java server, which checks the address first, and answered
      501 by the Python server, which dispatches on the method first. Neither changes
      anything it stores. */
  lemma UnknownMethodFromUnlistedClient(
    jcfg: Tw5Java.Config, jst: Tw5Java.State, jreq: Tw5Java.Request,
    pcfg: Tw5Python.PyConfig, pst: Tw5Python.PyState, preq: Tw5Python.PyRequest)
    requires Tw5Java.ValidConfig(jcfg)
    requires jreq.remote !in jcfg.allowed && !Tw5Java.IsHandled(jreq.verb)
    requires preq.remote !in pcfg.allowed
    requires 0 < preq.rawLength <= Tw5Python.MaxRequestLine
    requires preq.line == Tw5Python.RequestLine(jreq.verb, jreq.path) && !Tw5Python.HasHandler(jreq.verb)
    ensures var r := Tw5Java.Handle(jcfg, jst, jreq);
            r.resp.status == 403 && r.st.fs == jst.fs && r.st.archives == jst.archives
    ensures Tw5Python.Handle(pcfg, pst, preq) == (pst, Tw5Python.ErrorPage(501))
  {
  }

  /** Both servers know the same four methods, and an allowed OPTIONS request gets the same
      200 answer with the same capability headers from either, changing nothing. */
  lemma OptionsAgree(
    jcfg: Tw5Java.Config, jst: Tw5Java.State, jreq: Tw5Java.Request,
    pcfg: Tw5Python.PyConfig, pst: Tw5Python.PyState, preq: Tw5Python.PyRequest)
    requires Tw5Java.ValidConfig(jcfg)
    requires jreq.verb == "OPTIONS" && jreq.remote in jcfg.allowed
    requires 0 < preq.rawLength <= Tw5Python.MaxRequestLine
    requires preq.line == Tw5Python.RequestLine(jreq.verb, jreq.path) && preq.remote in pcfg.allowed
    ensures forall m :: Tw5Java.IsHandled(m) <==> Tw5Python.HasHandler(m)
    ensures var r := Tw5Java.Handle(jcfg, jst, jreq);
            r.resp.status == 200 && r.resp.headers == Tw5Java.OptionsHeaders
            && r.st.fs == jst.fs && r.st.archives == jst.archives
    ensures Tw5Python.Handle(pcfg, pst, preq) == (pst, Tw5Python.Reply(200, Tw5Java.OptionsHeaders, ""))
  {
    Tw5Java.OptionsAnswer(jcfg, jst, jreq);
  }
}

=== FILE: gitlab_tree.dfy ===
/** The pure parts of the GitLab issues report (gitlab/gitlab_issues_report.py): the id of
    a global id, the date-range filter on iteration events, the walk up an epic's
    ancestry with its caches, and the insertion of an issue into the nested Freeplane
    JSON tree under its ancestry. */
module GitlabTree {
  import opened Wrap
  import opened Text

  // ---------------------------------------------------------------------------
  // JSON values and Freeplane keys

  /** A JSON value as `json.dump` writes it. */
  datatype Json = Null | Bool(b: bool) | Num(n: int) | Str(s: string) | Arr(items: seq<Json>) | Obj(fields: map<string, Json>)

  const Attributes := "@attributes"
  const Core := "@core"
  const Details := "@details"
  const Icons := "@icons"
  const Props := "@props"
  const Style := "@style"
  const Folded := "folded"
  const IterationEvents := "iteration events"
  const Comments := "comments"
  const DetailsContentType := "detailsContentType"
  const Markdown := "markdown"
  const Minimized := "minimized"

  const IssueIcon := "emoji-2139"
  const FallbackActionIcon := "emoji-1F33B"
  const ActionToIcon: map<string, string> := map["add" := "emoji-2728", "remove" := "emoji-274C"]

  const NextActionClosed := "!NextAction.Closed"
  const WaitingForClosed := "!WaitingFor.Closed"

  // ---------------------------------------------------------------------------
  // Records

  datatype Note = Note(id: string, body: string, authorName: string, createdAt: string)

  datatype IterationEvent = IterationEvent(id: int, userName: string, createdAt: string, action: string, startDate: string, dueDate: string)

  datatype Issue = Issue(id: string, iid: string, title: string, description: Option<string>, labels: seq<string>,
                         closedAt: Option<string>, assignees: seq<string>, iterationEvents: seq<IterationEvent>, notes: seq<Note>)

  /** An epic; the parent fields are `None` for an epic without a parent. */
  datatype Epic = Epic(gid: string, iid: string, closedAt: Option<string>, title: string, groupId: int, groupPath: string,
                       labels: seq<string>, parentGid: Option<string>, parentIid: Option<string>, parentGroupPath: Option<string>)

  /** Python's truth value of an optional string: present and not empty. */
  predicate Truthy(o: Option<string>) {
    o.Some? && o.value != ""
  }

  /** The parts of the run that lie outside this model, as functions: `json.dumps` of a
      list of strings, `format_date`, the comparison of a date with `END_DATE_UTC`, and a
      date's instant (`fromisoformat(...).astimezone(timezone.utc)`) on a common scale. */
  datatype Env = Env(dumps: seq<string> -> string, formatDate: string -> string, beforeEnd: string -> bool, instant: string -> int)

  // ---------------------------------------------------------------------------
  // Ids from global ids

  /** The prefix of `s` before the first character satisfying `stop`. */
  function CutAt(s: string, stop: char -> bool): (r: string)
    ensures r <= s
    ensures forall i :: 0 <= i < |r| ==> !stop(r[i])
    ensures r == s || stop(s[|r|])
    decreases |s|
  {
    if |s| == 0 || stop(s[0]) then "" else [s[0]] + CutAt(s[1..], stop)
  }

  /** A prefix free of stop characters is kept whole. */
  lemma {:induction false} CutAtAppend(a: string, b: string, stop: char -> bool)
    requires forall i :: 0 <= i < |a| ==> !stop(a[i])
    ensures CutAt(a + b, stop) == a + CutAt(b, stop)
    decreases |a|
  {
    if |a| > 0 {
      assert (a + b)[0] == a[0] && !stop(a[0]);
      assert (a + b)[1..] == a[1..] + b;
      assert CutAt(a + b, stop) == [a[0]] + CutAt(a[1..] + b, stop);
      CutAtAppend(a[1..], b, stop);
      assert a == [a[0]] + a[1..];
    } else {
      assert a + b == b;
    }
  }

  predicate SchemeChar(c: char) {
    IsAsciiLetter(c) || IsDigit(c) || c == '+' || c == '-' || c == '.'
  }

  predicate PathStop(c: char) { c == '?' || c == '#' }
  predicate NetlocStop(c: char) { c == '/' || c == '?' || c == '#' }

  /** A scheme `urlparse` accepts: a letter, then letters, digits, `+`, `-` and `.`. */
  predicate ValidScheme(scheme: string) {
    |scheme| > 0 && IsAsciiLetter(scheme[0]) && forall i :: 0 <= i < |scheme| ==> SchemeChar(scheme[i])
  }

  /** What follows a valid scheme and its `:`; the whole text when there is none. */
  function AfterScheme(s: string): string {
    var scheme := CutAt(s, c => c == ':');
    if |scheme| < |s| && ValidScheme(scheme) then s[|scheme| + 1..] else s
  }

  /** What follows a `//`-introduced network location. */
  function AfterNetloc(rest: string): string {
    if "//" <= rest then rest[2 + |CutAt(rest[2..], NetlocStop)|..] else rest
  }

  /** What `urlsplit` strips from the front of a URL: C0 control characters and space. */
  predicate C0OrSpace(c: char) { c <= ' ' }

  /** What `urlsplit` removes from anywhere in a URL: tab, CR and LF. */
  predicate Unsafe(c: char) { c == '\t' || c == '\r' || c == '\n' }

  /** `s.lstrip(...)` of the C0 controls and space: the longest suffix not starting with one. */
  function StripLeading(s: string): (r: string)
    ensures |r| <= |s|
    ensures r == "" || !C0OrSpace(r[0])
    ensures |s| > 0 && !C0OrSpace(s[0]) ==> r == s
    decreases |s|
  {
    if |s| > 0 && C0OrSpace(s[0]) then StripLeading(s[1..]) else s
  }

  /** The text with every tab, CR and LF removed, the other characters kept in order. */
  function RemoveUnsafe(s: string): (r: string)
    ensures |r| <= |s|
    ensures forall i :: 0 <= i < |r| ==> !Unsafe(r[i])
    ensures (forall i :: 0 <= i < |s| ==> !Unsafe(s[i])) ==> r == s
    decreases |s|
  {
    if |s| == 0 then ""
    else (if Unsafe(s[0]) then "" else [s[0]]) + RemoveUnsafe(s[1..])
  }

  /** The schemes whose URLs `urlparse` splits `;` parameters from; the empty one is a
      URL without a scheme. */
  const UsesParams: set<string> := {"", "ftp", "hdl", "prospero", "http", "imap", "https", "shttp",
    "rtsp", "rtsps", "rtspu", "sip", "sips", "mms", "sftp", "tel"}

  predicate UsesParamsScheme(scheme: string) { scheme in UsesParams }

  /** The scheme `urlsplit` finds, lower-cased; empty when there is none. */
  function SchemeOf(s: string): string {
    var scheme := CutAt(s, c => c == ':');
    if |scheme| < |s| && ValidScheme(scheme) then AsciiLower(scheme) else ""
  }

  /** `_splitparams`: the path up to the first `;` at or after its last `/`, or up to its
      first `;` when it has no `/`. */
  function WithoutParams(p: string): (r: string)
    ensures r <= p
    ensures (forall i :: 0 <= i < |p| ==> p[i] != ';') ==> r == p
  {
    match LastIndexOf(p, '/')
    case Some(j) => p[..j] + CutAt(p[j..], c => c == ';')
    case None => CutAt(p, c => c == ';')
  }

  /** The path component of `urlparse(s)`: once the front is stripped and tabs and line
      breaks are removed, what follows a valid scheme and its `:` and a `//`-introduced
      network location, up to the query or fragment; for the schemes that use
      parameters, without the last segment's `;` parameters. */
  function UrlPath(s: string): (r: string)
  {
    CleanPath(RemoveUnsafe(StripLeading(s)))
  }

  /** The path component of an already cleaned URL. */
  function CleanPath(u: string): (r: string)
  {
    var p := CutAt(AfterNetloc(AfterScheme(u)), PathStop);
    if UsesParamsScheme(SchemeOf(u)) && ';' in p then WithoutParams(p) else p
  }

  /** `Path(p).name`: the last component, ignoring trailing slashes and `.` components. */
  function PathName(p: string): (r: string)
    ensures forall i :: 0 <= i < |r| ==> r[i] != '/'
    decreases |p|
  {
    if |p| == 0 then ""
    else if p[|p| - 1] == '/' then PathName(p[..|p| - 1])
    else
      match LastIndexOf(p, '/')
      case None => if p == "." then "" else p
      case Some(i) => if p[i + 1..] == "." then PathName(p[..i]) else p[i + 1..]
  }

  /** `Path(urlparse(gid).path).name`, the issue id `IssueRecord.of` keeps. */
  function IdFromGid(gid: string): (r: string)
    ensures forall i :: 0 <= i < |r| ==> r[i] != '/'
  {
    PathName(UrlPath(gid))
  }

  /** A GitLab global id `gid://gitlab/<Type>/<n>` yields the number. */
  lemma IdOfGlobalId(typ: string, n: nat)
    requires forall i :: 0 <= i < |typ| ==> IsAsciiLetter(typ[i])
    ensures IdFromGid("gid://gitlab/" + typ + "/" + NatToString(n)) == NatToString(n)
  {
    var num := NatToString(n);
    assert forall i :: 0 <= i < |typ| ==> !PathStop(typ[i]) && !Unsafe(typ[i]);
    assert forall i :: 0 <= i < |num| ==> num[i] != '/' && !PathStop(num[i]) && !Unsafe(num[i]);
    assert num[0] != '.';
    IdOfGid(typ, num);
  }

  /** The last component of a global id's path is the id. */
  lemma IdOfGid(typ: string, num: string)
    requires forall i :: 0 <= i < |typ| ==> !PathStop(typ[i]) && !Unsafe(typ[i])
    requires |num| > 0 && num != "." && forall i :: 0 <= i < |num| ==> num[i] != '/' && !PathStop(num[i]) && !Unsafe(num[i])
    ensures IdFromGid("gid://gitlab/" + typ + "/" + num) == num
  {
    var dir := "/" + typ;
    var path := dir + "/" + num;
    StopFreeAppend(dir, "/" + num);
    var scheme, host := "gid", "gitlab";
    assert ValidScheme(scheme);
    assert "gid://gitlab/" + typ + "/" + num == scheme + "://" + host + path;
    UrlPathOfUrl(scheme, host, path);
    GidKeepsParams();
    LastComponent(dir, num);
  }

  /** An `http` URL's path loses its last segment's `;` parameters: the path of
      `http://<host>/<seg>;<params>` is `/<seg>`. */
  lemma HttpParamsSplit(host: string, seg: string, params: string)
    requires forall i :: 0 <= i < |host| ==> !NetlocStop(host[i]) && !Unsafe(host[i])
    requires forall i :: 0 <= i < |seg| ==> seg[i] != '/' && seg[i] != ';' && !PathStop(seg[i]) && !Unsafe(seg[i])
    requires forall i :: 0 <= i < |params| ==> params[i] != '/' && !PathStop(params[i]) && !Unsafe(params[i])
    ensures UrlPath("http://" + host + "/" + seg + ";" + params) == "/" + seg
  {
    var path := "/" + seg + ";" + params;
    HttpSplit(host, seg, params);
    PathChars(seg, params);
    UrlPathOfUrl("http", host, path);
    HttpUsesParams();
    SegmentParams("/" + seg, params);
  }

  /** `http://<host>/<seg>;<params>` read as the `http` scheme, `://`, the host and the
      path. */
  lemma HttpSplit(host: string, seg: string, params: string)
    ensures "http://" + host + "/" + seg + ";" + params == "http" + "://" + host + ("/" + seg + ";" + params)
  {
  }

  lemma HttpUsesParams()
    ensures ValidScheme("http") && UsesParamsScheme(AsciiLower("http"))
  {
    assert AsciiLower("http") == "http";
  }

  /** A path with one `/`, at its start, loses the `;` parameters after it. */
  lemma SegmentParams(head: string, params: string)
    requires |head| > 0 && head[0] == '/'
    requires forall i :: 0 <= i < |head| ==> head[i] != ';' && (i > 0 ==> head[i] != '/')
    requires forall i :: 0 <= i < |params| ==> params[i] != '/'
    ensures var p := head + ";" + params; ';' in p && WithoutParams(p) == head
  {
    var p := head + ";" + params;
    assert p[|head|] == ';';
    SlashOnlyFirst(head, params);
    assert p[..0] + p[0..] == p;
    CutAtAppend(head, ";" + params, c => c == ';');
    assert head + (";" + params) == p;
  }

  /** A path whose only `/` is its first character has its last `/` there. */
  lemma SlashOnlyFirst(head: string, params: string)
    requires |head| > 0 && head[0] == '/'
    requires forall i :: 0 < i < |head| ==> head[i] != '/'
    requires forall i :: 0 <= i < |params| ==> params[i] != '/'
    ensures LastIndexOf(head + ";" + params, '/') == Some(0)
  {
    var p := head + ";" + params;
    forall j | 0 < j < |p| ensures p[j] != '/' {
      if j < |head| { assert p[j] == head[j]; }
      else if j > |head| { assert p[j] == params[j - |head| - 1]; }
    }
    assert p[0] == '/';
  }

  /** What `/<seg>;<params>` is made of, character by character. */
  lemma PathChars(seg: string, params: string)
    requires forall i :: 0 <= i < |seg| ==> seg[i] != '/' && seg[i] != ';' && !PathStop(seg[i]) && !Unsafe(seg[i])
    requires forall i :: 0 <= i < |params| ==> params[i] != '/' && !PathStop(params[i]) && !Unsafe(params[i])
    ensures var path := "/" + seg + ";" + params;
      && |path| > 0 && path[0] == '/'
      && (forall i :: 0 <= i < |path| ==> !PathStop(path[i]) && !Unsafe(path[i]))
      && (forall i :: 0 <= i < |"/" + seg| ==> ("/" + seg)[i] != ';' && (i > 0 ==> ("/" + seg)[i] != '/'))
  {
    var path := "/" + seg + ";" + params;
    forall i | 0 <= i < |path| ensures !PathStop(path[i]) && !Unsafe(path[i]) {
      if 0 < i <= |seg| {
        assert path[i] == seg[i - 1];
      } else if i > |seg| + 1 {
        assert path[i] == params[i - |seg| - 2];
      }
    }
    forall i | 0 <= i < |"/" + seg| ensures ("/" + seg)[i] != ';' && (i > 0 ==> ("/" + seg)[i] != '/') {
      if i > 0 { assert ("/" + seg)[i] == seg[i - 1]; }
    }
  }

  /** A character `urlsplit` passes through inside a path segment: no scheme or path
      separator, no query or fragment mark, no tab or line break. */
  predicate SegmentChar(c: char) {
    c != ':' && c != '/' && !PathStop(c) && !Unsafe(c)
  }

  /** A text without a scheme also loses its `;` parameters: the id of `<seg>;<params>` is
      `seg`. */
  lemma NoSchemeParamsSplit(seg: string, params: string)
    requires |seg| > 0 && seg != "." && !C0OrSpace(seg[0])
    requires forall i :: 0 <= i < |seg| ==> SegmentChar(seg[i]) && seg[i] != ';'
    requires forall i :: 0 <= i < |params| ==> SegmentChar(params[i])
    ensures IdFromGid(seg + ";" + params) == seg
  {
    var u := seg + ";" + params;
    SegmentText(seg, params);
    NoSchemePath(u);
    SegmentParamsBare(seg, params);
    BareName(seg);
  }

  /** `<seg>;<params>` is made of segment characters and starts like `seg`. */
  lemma SegmentText(seg: string, params: string)
    requires |seg| > 0
    requires forall i :: 0 <= i < |seg| ==> SegmentChar(seg[i])
    requires forall i :: 0 <= i < |params| ==> SegmentChar(params[i])
    ensures var u := seg + ";" + params; u[0] == seg[0] && forall i :: 0 <= i < |u| ==> SegmentChar(u[i])
  {
    var u := seg + ";" + params;
    forall i | 0 <= i < |u| ensures SegmentChar(u[i]) {
      if i < |seg| { assert u[i] == seg[i]; }
      else if i > |seg| { assert u[i] == params[i - |seg| - 1]; }
    }
  }

  /** A text of segment characters is its own cleaned form, has no scheme, network
      location, query or fragment, and so is its own path up to its parameters. */
  lemma NoSchemePath(u: string)
    requires |u| > 0 && !C0OrSpace(u[0])
    requires forall i :: 0 <= i < |u| ==> SegmentChar(u[i])
    ensures UrlPath(u) == if ';' in u then WithoutParams(u) else u
  {
    assert RemoveUnsafe(StripLeading(u)) == u;
    CutAtAppend(u, "", c => c == ':');
    CutAtAppend(u, "", PathStop);
    assert u + "" == u;
    assert SchemeOf(u) == "" && AfterScheme(u) == u;
    assert !("//" <= u) by { assert u[0] != '/'; }
    assert UsesParamsScheme("");
  }

  /** A text without `/` loses what follows its first `;`. */
  lemma SegmentParamsBare(seg: string, params: string)
    requires forall i :: 0 <= i < |seg| ==> seg[i] != '/' && seg[i] != ';'
    requires forall i :: 0 <= i < |params| ==> params[i] != '/'
    ensures var u := seg + ";" + params; ';' in u && WithoutParams(u) == seg
  {
    var u := seg + ";" + params;
    assert u[|seg|] == ';';
    forall j | 0 <= j < |u| ensures u[j] != '/' {
      if j < |seg| { assert u[j] == seg[j]; }
      else if j > |seg| { assert u[j] == params[j - |seg| - 1]; }
    }
    assert LastIndexOf(u, '/') == None;
    CutAtAppend(seg, ";" + params, c => c == ';');
    assert seg + (";" + params) == u;
  }

  /** A single component other than `.` is its own name. */
  lemma BareName(seg: string)
    requires |seg| > 0 && seg != "."
    requires forall i :: 0 <= i < |seg| ==> seg[i] != '/'
    ensures PathName(seg) == seg
  {
    assert seg[|seg| - 1] != '/' && LastIndexOf(seg, '/') == None;
  }

  /** A line break inside a global id disappears before the id is read: the id of
      `gid://gitlab/<typ>/<a>` LF `<b>` is `<a><b>`. */
  lemma LineBreakInGidRemoved(typ: string, a: string, b: string)
    requires forall i :: 0 <= i < |typ| ==> !PathStop(typ[i]) && !Unsafe(typ[i])
    requires |a + b| > 0 && a + b != "."
    requires forall i :: 0 <= i < |a| ==> a[i] != '/' && !PathStop(a[i]) && !Unsafe(a[i])
    requires forall i :: 0 <= i < |b| ==> b[i] != '/' && !PathStop(b[i]) && !Unsafe(b[i])
    ensures IdFromGid("gid://gitlab/" + typ + "/" + a + "\n" + b) == a + b
  {
    var head := "gid://gitlab/" + typ + "/";
    assert "gid://gitlab/" + typ + "/" + a + "\n" + b == head + a + "\n" + b;
    assert forall i :: 0 <= i < |head| ==> !Unsafe(head[i]) by {
      SafeAppend("gid://gitlab/", typ);
      SafeAppend("gid://gitlab/" + typ, "/");
    }
    SafeAppend(head, a);
    assert (head + a)[0] == 'g';
    LineBreakDropped(head + a, b);
    forall i | 0 <= i < |a + b| ensures (a + b)[i] != '/' && !PathStop((a + b)[i]) && !Unsafe((a + b)[i]) {
      if i >= |a| { assert (a + b)[i] == b[i - |a|]; }
    }
    Associative(head, a, b);
    IdOfGid(typ, a + b);
  }

  /** A line break between two clean parts of a URL is dropped before the URL is read. */
  lemma LineBreakDropped(pre: string, b: string)
    requires |pre| > 0 && !C0OrSpace(pre[0])
    requires forall i :: 0 <= i < |pre| ==> !Unsafe(pre[i])
    requires forall i :: 0 <= i < |b| ==> !Unsafe(b[i])
    ensures UrlPath(pre + "\n" + b) == UrlPath(pre + b)
  {
    var url := pre + "\n" + b;
    var clean := pre + b;
    RemoveUnsafeAppend(pre + "\n", b);
    RemoveUnsafeAppend(pre, "\n");
    assert RemoveUnsafe("\n") == "";
    assert RemoveUnsafe(pre) == pre && RemoveUnsafe(b) == b;
    assert pre + "" == pre;
    assert RemoveUnsafe(url) == clean;
    SafeAppend(pre, b);
    assert RemoveUnsafe(clean) == clean;
    assert url[0] == pre[0] && StripLeading(url) == url;
    assert clean[0] == pre[0] && StripLeading(clean) == clean;
    assert UrlPath(url) == CleanPath(clean);
  }

  /** Removing tabs and line breaks works character by character, keeping the order of
      the rest: it distributes over concatenation. */
  lemma {:induction false} RemoveUnsafeAppend(a: string, b: string)
    ensures RemoveUnsafe(a + b) == RemoveUnsafe(a) + RemoveUnsafe(b)
    decreases |a|
  {
    if |a| == 0 {
      assert a + b == b;
    } else {
      var h := if Unsafe(a[0]) then "" else [a[0]];
      assert (a + b)[0] == a[0];
      assert (a + b)[1..] == a[1..] + b;
      assert RemoveUnsafe(a + b) == h + RemoveUnsafe(a[1..] + b);
      RemoveUnsafeAppend(a[1..], b);
      Associative(h, RemoveUnsafe(a[1..]), RemoveUnsafe(b));
    }
  }

  /** `gid` is not among the schemes that use parameters, so a global id's path keeps
      any `;`. */
  lemma GidKeepsParams()
    ensures !UsesParamsScheme(AsciiLower("gid"))
  {
    assert AsciiLower("gid") == "gid";
  }

  /** Two texts free of query and fragment marks, tabs and line breaks concatenate to
      one. */
  lemma StopFreeAppend(a: string, b: string)
    requires forall i :: 0 <= i < |a| ==> !PathStop(a[i]) && !Unsafe(a[i])
    requires forall i :: 0 <= i < |b| ==> !PathStop(b[i]) && !Unsafe(b[i])
    ensures forall i :: 0 <= i < |a + b| ==> !PathStop((a + b)[i]) && !Unsafe((a + b)[i])
  {
    forall i | 0 <= i < |a + b| ensures !PathStop((a + b)[i]) && !Unsafe((a + b)[i]) {
      if i >= |a| { assert (a + b)[i] == b[i - |a|]; }
    }
  }

  /** A valid scheme and its `:` are dropped. */
  lemma AfterSchemeOf(scheme: string, tail: string)
    requires ValidScheme(scheme)
    requires |tail| > 0 && tail[0] == ':'
    ensures AfterScheme(scheme + tail) == tail[1..]
  {
    CutAtAppend(scheme, tail, c => c == ':');
    assert CutAt(tail, c => c == ':') == "";
    assert scheme + "" == scheme;
  }

  /** A `//`-introduced host is dropped up to the path's `/`. */
  lemma AfterNetlocOf(host: string, path: string)
    requires forall i :: 0 <= i < |host| ==> !NetlocStop(host[i])
    requires |path| > 0 && path[0] == '/'
    ensures AfterNetloc("//" + host + path) == path
  {
    var rest := "//" + host + path;
    assert rest[2..] == host + path;
    CutAtAppend(host, path, NetlocStop);
    assert CutAt(path, NetlocStop) == "";
    assert host + "" == host;
    assert rest[2 + |host|..] == path;
  }

  /** For `<scheme>://<host><path>` free of tabs and line breaks, the URL path is `path`
      up to a query or a fragment, its last segment's `;` parameters split off when the
      scheme uses parameters. */
  lemma UrlPathOfUrl(scheme: string, host: string, path: string)
    requires ValidScheme(scheme)
    requires forall i :: 0 <= i < |host| ==> !NetlocStop(host[i]) && !Unsafe(host[i])
    requires |path| > 0 && path[0] == '/'
    requires forall i :: 0 <= i < |path| ==> !PathStop(path[i]) && !Unsafe(path[i])
    ensures UrlPath(scheme + "://" + host + path) ==
      if UsesParamsScheme(AsciiLower(scheme)) && ';' in path then WithoutParams(path) else path
  {
    var url := scheme + "://" + host + path;
    CleanUrl(scheme, host, path);
    assert UrlPath(url) == CleanPath(url);
    CleanPathOfUrl(scheme, host, path);
  }

  /** The path of a cleaned `<scheme>://<host><path>`. */
  lemma CleanPathOfUrl(scheme: string, host: string, path: string)
    requires ValidScheme(scheme)
    requires forall i :: 0 <= i < |host| ==> !NetlocStop(host[i])
    requires |path| > 0 && path[0] == '/'
    requires forall i :: 0 <= i < |path| ==> !PathStop(path[i])
    ensures CleanPath(scheme + "://" + host + path) ==
      if UsesParamsScheme(AsciiLower(scheme)) && ';' in path then WithoutParams(path) else path
  {
    var url := scheme + "://" + host + path;
    var rest := "//" + host + path;
    var tail := ":" + rest;
    assert url == scheme + tail;
    SchemeOfValid(scheme, tail);
    AfterSchemeOf(scheme, tail);
    assert tail[1..] == rest;
    AfterNetlocOf(host, path);
    CutAtAppend(path, "", PathStop);
    assert path + "" == path;
    assert CutAt(AfterNetloc(AfterScheme(url)), PathStop) == path;
    CleanPathOf(url, path);
  }

  /** The path of a cleaned URL, given what lies between its network location and its
      query or fragment. */
  lemma CleanPathOf(u: string, p: string)
    requires CutAt(AfterNetloc(AfterScheme(u)), PathStop) == p
    ensures CleanPath(u) == if UsesParamsScheme(SchemeOf(u)) && ';' in p then WithoutParams(p) else p
  {
  }

  /** A URL starting with a scheme and free of tabs and line breaks is left as it is by
      the cleaning `urlsplit` does first. */
  lemma CleanUrl(scheme: string, host: string, path: string)
    requires ValidScheme(scheme)
    requires forall i :: 0 <= i < |host| ==> !Unsafe(host[i])
    requires forall i :: 0 <= i < |path| ==> !Unsafe(path[i])
    ensures RemoveUnsafe(StripLeading(scheme + "://" + host + path)) == scheme + "://" + host + path
  {
    SchemeFirst(scheme, "://" + host + path);
    UrlSafe(scheme, host, path);
  }

  /** A text starting with a scheme has no leading control character or space. */
  lemma SchemeFirst(scheme: string, tail: string)
    requires ValidScheme(scheme)
    ensures StripLeading(scheme + tail) == scheme + tail
  {
    assert (scheme + tail)[0] == scheme[0];
  }

  /** A scheme, `://`, a host and a path, none holding a tab or line break, make a URL
      holding none. */
  lemma UrlSafe(scheme: string, host: string, path: string)
    requires ValidScheme(scheme)
    requires forall i :: 0 <= i < |host| ==> !Unsafe(host[i])
    requires forall i :: 0 <= i < |path| ==> !Unsafe(path[i])
    ensures var url := scheme + "://" + host + path; forall i :: 0 <= i < |url| ==> !Unsafe(url[i])
  {
    assert forall i :: 0 <= i < |scheme| ==> !Unsafe(scheme[i]);
    SafeAppend(scheme, "://");
    SafeAppend(scheme + "://", host);
    SafeAppend(scheme + "://" + host, path);
  }

  /** Two texts free of tabs and line breaks concatenate to one. */
  lemma SafeAppend(a: string, b: string)
    requires forall i :: 0 <= i < |a| ==> !Unsafe(a[i])
    requires forall i :: 0 <= i < |b| ==> !Unsafe(b[i])
    ensures forall i :: 0 <= i < |a + b| ==> !Unsafe((a + b)[i])
  {
    forall i | 0 <= i < |a + b| ensures !Unsafe((a + b)[i]) {
      if i >= |a| { assert (a + b)[i] == b[i - |a|]; }
    }
  }

  /** The scheme found before a `:` is the valid scheme, lower-cased. */
  lemma SchemeOfValid(scheme: string, tail: string)
    requires ValidScheme(scheme)
    requires |tail| > 0 && tail[0] == ':'
    ensures SchemeOf(scheme + tail) == AsciiLower(scheme)
  {
    CutAtAppend(scheme, tail, c => c == ':');
    assert CutAt(tail, c => c == ':') == "";
    assert scheme + "" == scheme;
  }

  /** The name of `dir/last` is `last` when `last` is a plain component. */
  lemma LastComponent(dir: string, last: string)
    requires |last| > 0 && last != "." && forall i :: 0 <= i < |last| ==> last[i] != '/'
    ensures PathName(dir + "/" + last) == last
  {
    var p := dir + "/" + last;
    var k := |dir|;
    assert p[k] == '/';
    assert p[k + 1..] == last;
    assert p[|p| - 1] == last[|last| - 1];
    var r := LastIndexOf(p, '/');
    assert r.Some? && r.value >= k;
    assert r.value == k;
  }

  // ---------------------------------------------------------------------------
  // Iteration events in range

  datatype Iteration = Iteration(startDate: string, dueDate: string)

  /** An iteration event as the REST API returns it; `iteration` is absent for some. */
  datatype RawEvent = RawEvent(id: int, userName: string, createdAt: string, action: string, iteration: Option<Iteration>)

  /** `IterationEventRecord.of`. */
  function EventRecord(e: RawEvent): IterationEvent
    requires e.iteration.Some?
  {
    IterationEvent(e.id, e.userName, e.createdAt, e.action, e.iteration.value.startDate, e.iteration.value.dueDate)
  }

  /** `is_iteration_in_range`, both ends included. */
  predicate InRange(e: RawEvent, start: int, end: int, env: Env) {
    e.iteration.Some? && start <= env.instant(e.iteration.value.startDate) <= end
  }

  /** `filter_itr_events_to_range_and_repackage`. */
  function FilterEvents(events: seq<RawEvent>, start: int, end: int, env: Env): (r: seq<IterationEvent>)
    ensures |r| <= |events|
    ensures forall x :: x in r <==> exists e :: e in events && InRange(e, start, end, env) && x == EventRecord(e)
    decreases |events|
  {
    if |events| == 0 then []
    else
      var rest := FilterEvents(events[1..], start, end, env);
      assert forall e :: e in events <==> e == events[0] || e in events[1..];
      if InRange(events[0], start, end, env) then [EventRecord(events[0])] + rest else rest
  }

  /** Filtering a concatenation filters each part: the kept events stay in their order. */
  lemma {:induction false} FilterAppend(a: seq<RawEvent>, b: seq<RawEvent>, start: int, end: int, env: Env)
    ensures FilterEvents(a + b, start, end, env) == FilterEvents(a, start, end, env) + FilterEvents(b, start, end, env)
    decreases |a|
  {
    if |a| > 0 {
      assert (a + b)[0] == a[0];
      assert (a + b)[1..] == a[1..] + b;
      FilterAppend(a[1..], b, start, end, env);
    } else {
      assert a + b == b;
    }
  }

  /** An iteration starting exactly at either end of the range is kept. */
  lemma EndsIncluded(e: RawEvent, start: int, end: int, env: Env)
    requires e.iteration.Some? && start <= end
    requires env.instant(e.iteration.value.startDate) == start || env.instant(e.iteration.value.startDate) == end
    ensures FilterEvents([e], start, end, env) == [EventRecord(e)]
  {
  }

  /** An event without an iteration is dropped. */
  lemma NoIterationDropped(e: RawEvent, start: int, end: int, env: Env)
    requires e.iteration.None?
    ensures FilterEvents([e], start, end, env) == []
  {
  }

  // ---------------------------------------------------------------------------
  // The epic ancestry

  /** What the `epic_with_parent` query gives: a failed query (`run_graphql_query`
      returns `None` and `.get` on it raises), no epic, or the epic's record. */
  datatype Fetched = QueryFailed | NotFound | Found(epic: Epic)

  /** The query, by group path and iid. */
  type Fetch = (string, string) -> Fetched

  /** The module's `epic_cache` (by global id) and `epic_to_ancestry` (by the global id
      the walk ended on, which is `None` after an epic without a parent). */
  datatype Caches = Caches(epics: map<string, Epic>, ancestry: map<Option<string>, seq<Epic>>)

  /** The walk's outcome: the caches after it, the ancestry root first, and the global id
      the walk ended on. */
  datatype Climbed = Climbed(epics: map<string, Epic>, chain: seq<Epic>, last: Option<string>)

  /** The epic a walk step looks at: the cached record, else the fetched one. */
  function Lookup(epics: map<string, Epic>, fetch: Fetch, groupPath: string, iid: string, gid: string): Fetched {
    if gid in epics then Found(epics[gid]) else fetch(groupPath, iid)
  }

  /** The parent the walk continues with, when all three parent fields are truthy. */
  predicate HasParent(e: Epic) {
    Truthy(e.parentGid) && Truthy(e.parentIid) && Truthy(e.parentGroupPath)
  }

  /** The `while True` loop of `build_epic_rec_ancestry`, at most `fuel` steps. */
  function Climb(epics: map<string, Epic>, fetch: Fetch, groupPath: string, iid: string, gid: string, fuel: nat): (r: Result<Climbed>)
    ensures r.Ok? ==> epics.Keys <= r.value.epics.Keys && forall k :: k in epics ==> r.value.epics[k] == epics[k]
    ensures r.Ok? && r.value.chain != [] ==> Lookup(epics, fetch, groupPath, iid, gid) == Found(r.value.chain[|r.value.chain| - 1])
    ensures r.Ok? && r.value.chain != [] ==> gid in r.value.epics && r.value.epics[gid] == r.value.chain[|r.value.chain| - 1]
    ensures r.Ok? ==> forall i :: 0 <= i < |r.value.chain| - 1 ==> Linked(r.value.epics, r.value.chain[i], r.value.chain[i + 1])
    ensures r.Ok? && r.value.chain == [] ==> Lookup(epics, fetch, groupPath, iid, gid) == NotFound && r.value.last == Some(gid)
    ensures r.Ok? && r.value.chain != [] ==> r.value.last == r.value.chain[0].parentGid
    ensures r.Ok? && r.value.chain == [] ==> r.value.epics == epics
    ensures r.Ok? && r.value.chain != [] ==>
      var top := r.value.chain[0];
      !HasParent(top) || Lookup(r.value.epics, fetch, top.parentGroupPath.value, top.parentIid.value, top.parentGid.value) == NotFound
    decreases fuel
  {
    match Lookup(epics, fetch, groupPath, iid, gid)
    case QueryFailed => Err("AttributeError: 'NoneType' object has no attribute 'get'")
    case NotFound => Ok(Climbed(epics, [], Some(gid)))
    case Found(e) =>
      var cached := epics[gid := e];
      if !HasParent(e) then Ok(Climbed(cached, [e], e.parentGid))
      else if fuel == 0 then Err("fuel exhausted")
      else
        var up :- Climb(cached, fetch, e.parentGroupPath.value, e.parentIid.value, e.parentGid.value, fuel - 1);
        ClimbLinks(cached, e, up);
        Ok(up.(chain := up.chain + [e]))
  }

  /** Two cached epics that name each other as parents: the `while True` loop never
      ends on them, and the walk fails whatever its fuel. */
  lemma {:induction false} CycleNeverEnds(epics: map<string, Epic>, fetch: Fetch, a: string, b: string, groupPath: string, iid: string, fuel: nat)
    requires a in epics && b in epics
    requires HasParent(epics[a]) && epics[a].parentGid == Some(b)
    requires HasParent(epics[b]) && epics[b].parentGid == Some(a)
    ensures Climb(epics, fetch, groupPath, iid, a, fuel).Err?
    decreases fuel
  {
    assert epics[a := epics[a]] == epics;
    if fuel > 0 {
      CycleNeverEnds(epics, fetch, b, a, epics[a].parentGroupPath.value, epics[a].parentIid.value, fuel - 1);
    }
  }

  /** `parent` is `child`'s parent as the cache records it. */
  predicate Linked(epics: map<string, Epic>, parent: Epic, child: Epic) {
    child.parentGid.Some? && child.parentGid.value in epics && epics[child.parentGid.value] == parent
  }

  lemma ClimbLinks(cached: map<string, Epic>, e: Epic, up: Climbed)
    requires forall i :: 0 <= i < |up.chain| - 1 ==> Linked(up.epics, up.chain[i], up.chain[i + 1])
    requires up.chain != [] ==> e.parentGid.Some? && e.parentGid.value in up.epics && up.epics[e.parentGid.value] == up.chain[|up.chain| - 1]
    ensures var c := up.chain + [e]; forall i :: 0 <= i < |c| - 1 ==> Linked(up.epics, c[i], c[i + 1])
  {
    var c := up.chain + [e];
    forall i | 0 <= i < |c| - 1 ensures Linked(up.epics, c[i], c[i + 1]) {
      if i < |up.chain| - 1 {
        assert c[i] == up.chain[i] && c[i + 1] == up.chain[i + 1];
      }
    }
  }

  /** `build_epic_rec_ancestry`: a non-empty memo entry for the starting global id is
      returned as it is; otherwise the walk runs and its result is memoised under the
      global id the walk ended on. */
  function Ancestry(caches: Caches, fetch: Fetch, groupPath: string, iid: string, gid: string, fuel: nat): (r: Result<(Caches, seq<Epic>)>)
    ensures Some(gid) in caches.ancestry && caches.ancestry[Some(gid)] != [] ==> r == Ok((caches, caches.ancestry[Some(gid)]))
    ensures r.Ok? && !(Some(gid) in caches.ancestry && caches.ancestry[Some(gid)] != []) ==>
      exists last :: last in r.value.0.ancestry && r.value.0.ancestry == caches.ancestry[last := r.value.1]
  {
    if Some(gid) in caches.ancestry && caches.ancestry[Some(gid)] != [] then Ok((caches, caches.ancestry[Some(gid)]))
    else
      var c :- Climb(caches.epics, fetch, groupPath, iid, gid, fuel);
      var after := Caches(c.epics, caches.ancestry[c.last := c.chain]);
      assert c.last in after.ancestry && after.ancestry == caches.ancestry[c.last := c.chain];
      Ok((after, c.chain))
  }

  /** A walked ancestry ends with the starting epic, and each epic is the cached parent
      of the next. */
  lemma AncestryShape(caches: Caches, fetch: Fetch, groupPath: string, iid: string, gid: string, fuel: nat)
    requires !(Some(gid) in caches.ancestry && caches.ancestry[Some(gid)] != [])
    requires Ancestry(caches, fetch, groupPath, iid, gid, fuel).Ok?
    ensures var (after, chain) := Ancestry(caches, fetch, groupPath, iid, gid, fuel).value;
            (chain != [] ==> gid in after.epics && after.epics[gid] == chain[|chain| - 1])
            && (forall i :: 0 <= i < |chain| - 1 ==> Linked(after.epics, chain[i], chain[i + 1]))
            && (chain == [] ==> Lookup(caches.epics, fetch, groupPath, iid, gid) == NotFound)
  {
  }

  /** The memo is keyed by where the walk ended, not where it started: when an epic's
      parent cannot be found, the child's ancestry is stored under the parent's global
      id, and a later walk from the parent returns the child's ancestry. */
  lemma MemoUnderFinalGid(child: Epic, fetch: Fetch, fuel: nat)
    requires child.gid == "gid://gitlab/Epic/2" && child.parentGid == Some("gid://gitlab/Epic/1")
    requires child.parentIid == Some("1") && child.parentGroupPath == Some("g")
    requires fetch("g", "2") == Found(child) && fetch("g", "1") == NotFound
    requires fuel > 0
    ensures var first := Ancestry(Caches(map[], map[]), fetch, "g", "2", child.gid, fuel);
            first.Ok? && first.value.1 == [child]
            && first.value.0.ancestry == map[Some("gid://gitlab/Epic/1") := [child]]
            && Ancestry(first.value.0, fetch, "g", "1", "gid://gitlab/Epic/1", fuel) == Ok((first.value.0, [child]))
  {
    var parent := "gid://gitlab/Epic/1";
    assert parent != child.gid;
    var cached := map[child.gid := child];
    assert Lookup(cached, fetch, "g", "1", parent) == NotFound;
    assert Climb(cached, fetch, "g", "1", parent, fuel - 1) == Ok(Climbed(cached, [], Some(parent)));
  }

  // ---------------------------------------------------------------------------
  // Freeplane nodes

  /** The style of a closed item: by whether it closed before the report's end date. */
  function ClosedStyle(closedAt: Option<string>, env: Env): (r: Option<Json>)
    ensures r.Some? <==> Truthy(closedAt)
    ensures r.Some? ==> r.value == Obj(map["name" := Str(if env.beforeEnd(closedAt.value) then NextActionClosed else WaitingForClosed)])
  {
    if Truthy(closedAt) then
      Some(Obj(map["name" := Str(if env.beforeEnd(closedAt.value) then NextActionClosed else WaitingForClosed)]))
    else None
  }

  /** Adds `closedAt` to an attribute map and the style to a node when the item is closed. */
  function WithClosed(attrs: map<string, Json>, fields: map<string, Json>, closedAt: Option<string>, env: Env): (r: map<string, Json>)
    ensures r.Keys == fields.Keys + {Attributes} + (if Truthy(closedAt) then {Style} else {})
    ensures forall k :: k in fields && k != Attributes && k != Style ==> r[k] == fields[k]
    ensures Truthy(closedAt) && env.beforeEnd(closedAt.value) ==> r[Style] == Obj(map["name" := Str(NextActionClosed)])
    ensures Truthy(closedAt) && !env.beforeEnd(closedAt.value) ==> r[Style] == Obj(map["name" := Str(WaitingForClosed)])
    ensures Truthy(closedAt) ==> r[Attributes] == Obj(attrs["closedAt" := Str(env.formatDate(closedAt.value))])
    ensures !Truthy(closedAt) ==> r[Attributes] == Obj(attrs)
  {
    if Truthy(closedAt) then
      fields[Attributes := Obj(attrs["closedAt" := Str(env.formatDate(closedAt.value))])][Style := ClosedStyle(closedAt, env).value]
    else fields[Attributes := Obj(attrs)]
  }

  /** `&<iid> <title>` for an epic, `#<iid> <title>` for an issue. */
  function CoreText(mark: char, iid: string, title: string): string {
    [mark] + iid + " " + title
  }

  /** The iid and the title come back from the core text: the iid is the text between
      the mark and the first space, the title the rest. */
  lemma CoreTextRoundTrip(mark: char, iid: string, title: string)
    requires forall i :: 0 <= i < |iid| ==> iid[i] != ' '
    ensures var t := CoreText(mark, iid, title);
            t[0] == mark && CutAt(t[1..], c => c == ' ') == iid && t[|iid| + 2..] == title
  {
    var t := CoreText(mark, iid, title);
    assert t[1..] == iid + (" " + title);
    CutAtAppend(iid, " " + title, c => c == ' ');
    assert CutAt(" " + title, c => c == ' ') == "";
  }

  /** The node created for an epic not yet in the tree. */
  function EpicNode(e: Epic, env: Env): (r: map<string, Json>)
    ensures r.Keys == {Core, Attributes} + (if Truthy(e.closedAt) then {Style} else {})
    ensures Core in r && r[Core] == Str(CoreText('&', e.iid, e.title))
  {
    var attrs := map["group_path" := Str(e.groupPath), "group_id" := Num(e.groupId), "preStashTags" := Str(env.dumps(e.labels))];
    WithClosed(attrs, map[Core := Str(CoreText('&', e.iid, e.title))], e.closedAt, env)
  }

  /** `ACTION_TO_ICON.get(action, FALLBACK_ACTION_ICON)`. */
  function ActionIcon(action: string): (r: string)
    ensures action == "add" ==> r == "emoji-2728"
    ensures action == "remove" ==> r == "emoji-274C"
    ensures action != "add" && action != "remove" ==> r == FallbackActionIcon
  {
    if action in ActionToIcon then ActionToIcon[action] else FallbackActionIcon
  }

  function NoteNode(n: Note, env: Env): Json {
    Obj(map[Core := Str(env.formatDate(n.createdAt) + " | " + n.authorName),
            Details := Str(n.body),
            Props := Obj(map[DetailsContentType := Str(Markdown), Minimized := Bool(true)])])
  }

  function EventNode(e: IterationEvent, env: Env): Json {
    Obj(map[Core := Str(e.startDate + " - " + e.dueDate),
            Icons := Arr([Str(ActionIcon(e.action))]),
            Attributes := Obj(map["user" := Str(e.userName), "created_at" := Str(env.formatDate(e.createdAt)), "action" := Str(e.action)])])
  }

  /** `d |= {key(x): node(x) for x in items}`: later items overwrite earlier ones with
      the same key. */
  function Children<T>(d: map<string, Json>, items: seq<T>, key: T -> string, node: T -> Json): (r: map<string, Json>)
    ensures forall k :: k in r <==> k in d || exists j :: 0 <= j < |items| && key(items[j]) == k
    ensures forall k :: k in d && (forall j :: 0 <= j < |items| ==> key(items[j]) != k) ==> r[k] == d[k]
    ensures forall i :: 0 <= i < |items| && LastWithKey(items, key, i) ==> r[key(items[i])] == node(items[i])
    decreases |items|
  {
    if |items| == 0 then d
    else
      var r := Children(d[key(items[0]) := node(items[0])], items[1..], key, node);
      ChildrenStep(d, items, key, node, r);
      r
  }

  /** No later item has the same key as item `i`. */
  predicate LastWithKey<T>(items: seq<T>, key: T -> string, i: int)
    requires 0 <= i < |items|
  {
    forall j :: i < j < |items| ==> key(items[j]) != key(items[i])
  }

  lemma ChildrenStep<T>(d: map<string, Json>, items: seq<T>, key: T -> string, node: T -> Json, r: map<string, Json>)
    requires |items| > 0
    requires var d1 := d[key(items[0]) := node(items[0])]; var tl := items[1..];
      (forall k :: k in r <==> k in d1 || exists j :: 0 <= j < |tl| && key(tl[j]) == k)
      && (forall k :: k in d1 && (forall j :: 0 <= j < |tl| ==> key(tl[j]) != k) ==> r[k] == d1[k])
      && (forall i :: 0 <= i < |tl| && LastWithKey(tl, key, i) ==> r[key(tl[i])] == node(tl[i]))
    ensures forall k :: k in r <==> k in d || exists j :: 0 <= j < |items| && key(items[j]) == k
    ensures forall k :: k in d && (forall j :: 0 <= j < |items| ==> key(items[j]) != k) ==> r[k] == d[k]
    ensures forall i :: 0 <= i < |items| && LastWithKey(items, key, i) ==> r[key(items[i])] == node(items[i])
  {
    var tl := items[1..];
    forall k ensures k in r <==> k in d || exists j :: 0 <= j < |items| && key(items[j]) == k {
      if exists j :: 0 <= j < |tl| && key(tl[j]) == k {
        var j :| 0 <= j < |tl| && key(tl[j]) == k;
        assert key(items[j + 1]) == k;
      }
      if exists j :: 0 <= j < |items| && key(items[j]) == k {
        var j :| 0 <= j < |items| && key(items[j]) == k;
        if j > 0 {
          assert key(tl[j - 1]) == k;
        }
      }
    }
    forall k | k in d && (forall j :: 0 <= j < |items| ==> key(items[j]) != k) ensures r[k] == d[k] {
      assert key(items[0]) != k;
      forall j | 0 <= j < |tl| ensures key(tl[j]) != k {
        assert tl[j] == items[j + 1];
      }
    }
    forall i | 0 <= i < |items| && LastWithKey(items, key, i) ensures r[key(items[i])] == node(items[i]) {
      if i == 0 {
        forall j | 0 <= j < |tl| ensures key(tl[j]) != key(items[0]) {
          assert tl[j] == items[j + 1];
        }
      } else {
        assert items[i] == tl[i - 1];
        assert LastWithKey(tl, key, i - 1) by {
          forall j | i - 1 < j < |tl| ensures key(tl[j]) != key(tl[i - 1]) {
            assert tl[j] == items[j + 1];
          }
        }
      }
    }
  }

  /** The key of a note: its id. */
  function NoteKey(n: Note): string { n.id }

  /** The key of an iteration event: `str(id)`. */
  function EventKey(e: IterationEvent): string { IntToString(e.id) }

  /** Different ids give different keys. */
  lemma DecimalKeysDistinct(a: int, b: int)
    requires a != b
    ensures IntToString(a) != IntToString(b)
  {
    ParseIntRoundTrip(a);
    ParseIntRoundTrip(b);
  }

  /** A container of child nodes, folded. */
  function Folder(children: map<string, Json>): (r: Json)
    ensures r.Obj? && Props in r.fields && r.fields[Props] == Obj(map[Folded := Bool(true)])
    ensures forall k :: k in children && k != Props ==> k in r.fields && r.fields[k] == children[k]
  {
    Obj(children[Props := Obj(map[Folded := Bool(true)])])
  }

  /** The issue node's `@props`: markdown details, minimized iff there is a description. */
  function IssueProps(issue: Issue): Json {
    Obj(map[DetailsContentType := Str(Markdown), Minimized := Bool(Truthy(issue.description)), Folded := Bool(true)])
  }

  /** The issue node before its children and `@props` are filled in. */
  function IssueBase(issue: Issue, env: Env): (r: map<string, Json>)
    ensures Core in r && r[Core] == Str(CoreText('#', issue.iid, issue.title))
    ensures Style in r <==> Truthy(issue.closedAt)
  {
    var attrs := map["assignees" := Str(env.dumps(issue.assignees)), "preStashTags" := Str(env.dumps(issue.labels))];
    var base := map[Core := Str(CoreText('#', issue.iid, issue.title)),
                    Details := if issue.description.Some? then Str(issue.description.value) else Null,
                    Icons := Arr([Str(IssueIcon)]),
                    Comments := Obj(map[]),
                    IterationEvents := Obj(map[])];
    assert Style !in base;
    WithClosed(attrs, base, issue.closedAt, env)
  }

  /** The node written for an issue. */
  function IssueNode(issue: Issue, env: Env): (r: Json)
    ensures r.Obj? && Core in r.fields && Props in r.fields && Comments in r.fields && IterationEvents in r.fields
    ensures r.fields[Core] == Str(CoreText('#', issue.iid, issue.title))
    ensures r.fields[Props] == IssueProps(issue)
    ensures Style in r.fields <==> Truthy(issue.closedAt)
    ensures r.fields[Comments] == NotesFolder(issue.notes, env)
    ensures r.fields[IterationEvents] == EventsFolder(issue.iterationEvents, env)
  {
    Obj(WithChildren(IssueBase(issue, env), NotesFolder(issue.notes, env), EventsFolder(issue.iterationEvents, env), IssueProps(issue)))
  }

  /** An issue's fields with its two folders and its `@props` written over them. */
  function WithChildren(base: map<string, Json>, notes: Json, events: Json, props: Json): (r: map<string, Json>)
    ensures r.Keys == base.Keys + {Comments, IterationEvents, Props}
    ensures r[Comments] == notes && r[IterationEvents] == events && r[Props] == props
    ensures forall k :: k in base && k != Comments && k != IterationEvents && k != Props ==> r[k] == base[k]
  {
    base[Comments := notes][IterationEvents := events][Props := props]
  }

  /** The comments folder: one node per note id, the last note with an id winning. */
  function NotesFolder(notes: seq<Note>, env: Env): (r: Json)
    ensures r.Obj? && Props in r.fields && r.fields[Props] == Obj(map[Folded := Bool(true)])
    ensures forall i :: 0 <= i < |notes| && LastWithKey(notes, NoteKey, i) && notes[i].id != Props ==>
      notes[i].id in r.fields && r.fields[notes[i].id] == NoteNode(notes[i], env)
  {
    Folder(Children(map[], notes, NoteKey, n => NoteNode(n, env)))
  }

  /** The iteration-events folder: one node per event key, the last event with a key winning. */
  function EventsFolder(events: seq<IterationEvent>, env: Env): (r: Json)
    ensures r.Obj? && Props in r.fields && r.fields[Props] == Obj(map[Folded := Bool(true)])
    ensures forall i :: 0 <= i < |events| && LastWithKey(events, EventKey, i) ==>
      EventKey(events[i]) in r.fields && r.fields[EventKey(events[i])] == EventNode(events[i], env)
  {
    EventKeysNotProps(events);
    Folder(Children(map[], events, EventKey, e => EventNode(e, env)))
  }

  /** An event key is a decimal number, never `@props`. */
  lemma EventKeysNotProps(events: seq<IterationEvent>)
    ensures forall i :: 0 <= i < |events| ==> EventKey(events[i]) != Props
  {
    forall i | 0 <= i < |events| ensures EventKey(events[i]) != Props {
      var k := EventKey(events[i]);
      assert k[0] == '-' || IsDigit(k[0]);
    }
  }

  // ---------------------------------------------------------------------------
  // Insertion into the tree

  /** The key the insertion writes at the top of `tree`: the first epic's global id,
      or the issue id when the chain is empty. */
  function TopKey(chain: seq<Epic>, id: string): string {
    if chain == [] then id else chain[0].gid
  }

  /** The global ids of the chain followed by the issue id: where the issue lands. */
  function IssuePath(chain: seq<Epic>, id: string): (p: seq<string>)
    ensures |p| == |chain| + 1 && p[0] == TopKey(chain, id)
    decreases |chain|
  {
    if chain == [] then [id] else [chain[0].gid] + IssuePath(chain[1..], id)
  }

  /** The node at `path`, when every step lands on an object. */
  function At(tree: map<string, Json>, path: seq<string>): Option<Json>
    requires |path| > 0
    decreases |path|
  {
    if path[0] !in tree then None
    else if |path| == 1 then Some(tree[path[0]])
    else if tree[path[0]].Obj? then At(tree[path[0]].fields, path[1..])
    else None
  }

  /** Below a key the walk goes on in the object stored there. */
  lemma AtStep(tree: map<string, Json>, key: string, fields: map<string, Json>, path: seq<string>)
    requires |path| > 0
    ensures At(tree[key := Obj(fields)], [key] + path) == At(fields, path)
  {
    assert ([key] + path)[1..] == path;
  }

  /** The value under an epic's global id: the present one, else a new epic node. */
  function Existing(tree: map<string, Json>, e: Epic, env: Env): (r: Json)
    ensures e.gid in tree ==> r == tree[e.gid]
    ensures e.gid !in tree ==> r.Obj? && r.fields == EpicNode(e, env)
  {
    if e.gid in tree then tree[e.gid] else Obj(EpicNode(e, env))
  }

  /** The walk of `insert_into_freeplane_json_dct` with the node to write given: down the
      epic global ids, creating missing epic nodes and reusing present ones, then `leaf`
      under `id`. A value on the way that is not an object makes Python raise
      `TypeError`. */
  function Place(tree: map<string, Json>, chain: seq<Epic>, id: string, leaf: Json, env: Env): (r: Result<map<string, Json>>)
    ensures r.Ok? ==> r.value.Keys == tree.Keys + {TopKey(chain, id)}
    ensures r.Ok? ==> forall k :: k in tree && k != TopKey(chain, id) ==> r.value[k] == tree[k]
    ensures r.Ok? ==> At(r.value, IssuePath(chain, id)) == Some(leaf)
    ensures r.Ok? && chain != [] ==>
      var before := Existing(tree, chain[0], env);
      before.Obj? && r.value[chain[0].gid].Obj?
      && r.value[chain[0].gid].fields.Keys == before.fields.Keys + {TopKey(chain[1..], id)}
      && forall k :: k in before.fields && k != TopKey(chain[1..], id) ==> r.value[chain[0].gid].fields[k] == before.fields[k]
    decreases |chain|
  {
    if chain == [] then Ok(tree[id := leaf])
    else
      var e := chain[0];
      var node := Existing(tree, e, env);
      if !node.Obj? then Err("TypeError: not a dict")
      else
        var inner := Place(node.fields, chain[1..], id, leaf, env);
        if inner.Err? then Err(inner.msg)
        else
          AtStep(tree, e.gid, inner.value, IssuePath(chain[1..], id));
          Ok(tree[e.gid := Obj(inner.value)])
  }

  /** `insert_into_freeplane_json_dct`: the issue's node lands under the issue id below
      the chain's epic nodes, and nothing else at the top changes. */
  function Insert(tree: map<string, Json>, chain: seq<Epic>, issue: Issue, env: Env): (r: Result<map<string, Json>>)
    ensures r.Ok? ==> r.value.Keys == tree.Keys + {TopKey(chain, issue.id)}
    ensures r.Ok? ==> forall k :: k in tree && k != TopKey(chain, issue.id) ==> r.value[k] == tree[k]
    ensures r.Ok? ==> At(r.value, IssuePath(chain, issue.id)) == Some(IssueNode(issue, env))
    ensures r.Ok? && chain != [] ==>
      var before := Existing(tree, chain[0], env);
      before.Obj? && r.value[chain[0].gid].Obj?
      && r.value[chain[0].gid].fields.Keys == before.fields.Keys + {TopKey(chain[1..], issue.id)}
      && forall k :: k in before.fields && k != TopKey(chain[1..], issue.id) ==> r.value[chain[0].gid].fields[k] == before.fields[k]
    ensures r.Err? <==> exists i :: 0 <= i < |chain| && NotAnObject(tree, chain, i, env)
  {
    PlaceFails(tree, chain, issue.id, IssueNode(issue, env), env);
    Place(tree, chain, issue.id, IssueNode(issue, env), env)
  }

  /** The walk fails exactly when a value on the issue's path is not an object. */
  lemma {:induction false} PlaceFails(tree: map<string, Json>, chain: seq<Epic>, id: string, leaf: Json, env: Env)
    ensures Place(tree, chain, id, leaf, env).Err? <==> exists i :: 0 <= i < |chain| && NotAnObject(tree, chain, i, env)
    decreases |chain|
  {
    if chain != [] {
      var e := chain[0];
      var node := Existing(tree, e, env);
      if !node.Obj? {
        assert NotAnObject(tree, chain, 0, env);
        assert exists i :: 0 <= i < |chain| && NotAnObject(tree, chain, i, env);
      } else {
        var tl := chain[1..];
        assert Place(tree, chain, id, leaf, env).Err? <==> Place(node.fields, tl, id, leaf, env).Err?;
        PlaceFails(node.fields, tl, id, leaf, env);
        InsertErrors(tree, chain, node.fields, env);
      }
    }
  }

  /** Following the chain's global ids from `tree`, epic nodes created along the way
      included, the `i`-th one is a present value that is not an object. */
  predicate NotAnObject(tree: map<string, Json>, chain: seq<Epic>, i: nat, env: Env)
    requires i < |chain|
    decreases i
  {
    var node := Existing(tree, chain[0], env);
    if i == 0 then !node.Obj?
    else node.Obj? && NotAnObject(node.fields, chain[1..], i - 1, env)
  }

  /** Past an object, the failure `i` steps down is the failure `i - 1` steps down
      inside it. */
  lemma NotAnObjectStep(tree: map<string, Json>, chain: seq<Epic>, fields: map<string, Json>, env: Env, i: nat)
    requires 0 < i < |chain| && Existing(tree, chain[0], env) == Obj(fields)
    ensures NotAnObject(tree, chain, i, env) <==> NotAnObject(fields, chain[1..], i - 1, env)
  {
  }

  /** A failure below the first epic node is a failure one step down inside it. */
  lemma InsertErrors(tree: map<string, Json>, chain: seq<Epic>, fields: map<string, Json>, env: Env)
    requires chain != [] && Existing(tree, chain[0], env) == Obj(fields)
    ensures (exists i :: 0 <= i < |chain| && NotAnObject(tree, chain, i, env)) <==> (exists i :: 0 <= i < |chain| - 1 && NotAnObject(fields, chain[1..], i, env))
  {
    var tl := chain[1..];
    if exists i :: 0 <= i < |chain| && NotAnObject(tree, chain, i, env) {
      var i :| 0 <= i < |chain| && NotAnObject(tree, chain, i, env);
      assert i != 0;
      NotAnObjectStep(tree, chain, fields, env, i);
      assert 0 <= i - 1 < |chain| - 1 && NotAnObject(fields, tl, i - 1, env);
    }
    if exists i :: 0 <= i < |chain| - 1 && NotAnObject(fields, tl, i, env) {
      var i :| 0 <= i < |chain| - 1 && NotAnObject(fields, tl, i, env);
      NotAnObjectStep(tree, chain, fields, env, i + 1);
      assert 0 <= i + 1 < |chain| && NotAnObject(tree, chain, i + 1, env);
    }
  }

}

=== FILE: http.dfy ===
/** The HTTP exchange as plain values: a response is its status, its headers and its body. */
module Http {

  newtype Byte = x: int | 0 <= x < 256

  type Bytes = seq<Byte>

  datatype Header = Header(name: string, value: string)

  datatype Response = Response(status: nat, headers: seq<Header>, body: Bytes)

  predicate IsAscii(s: string) {
    forall i :: 0 <= i < |s| ==> s[i] < 128 as char
  }

  /** The UTF-8 bytes of an ASCII string: one byte per character. */
  function AsciiBytes(s: string): (b: Bytes)
    requires IsAscii(s)
    ensures |b| == |s| && forall i :: 0 <= i < |s| ==> b[i] as int == s[i] as int
  {
    seq(|s|, i requires 0 <= i < |s| => s[i] as int as Byte)
  }
}

=== FILE: logrep_client.dfy ===
/** The pure parts of the log grep client (logrep/logrep_client.py): the search URL it
    requests and the lines it prints for the server's answer. */
module LogrepClient {
  import opened Wrap
  import opened Text

  /** `-A` when not given. */
  const NoContext := -1

  function TrimSlashes(base: string): (r: string)
    ensures r <= base && (|r| > 0 ==> r[|r| - 1] != '/')
    ensures forall i :: |r| <= i < |base| ==> base[i] == '/'
  {
    RStrip(base, c => c == '/')
  }

  /** The URL `grep` requests: the base without trailing slashes, the search path with
      the pattern as given (not percent-encoded), and the context only when `-A` was set
      to something other than -1. */
  function SearchUrl(base: string, pattern: string, afterContext: int): (url: string)
    ensures TrimSlashes(base) <= url
    ensures afterContext == NoContext ==> url == TrimSlashes(base) + "/search?pattern=" + pattern
    ensures afterContext != NoContext ==>
      EndsWith(url, "&after_context=" + IntToString(afterContext))
  {
    TrimSlashes(base) + "/search?pattern=" + pattern
    + if afterContext != NoContext then "&after_context=" + IntToString(afterContext) else ""
  }

  /** Trailing slashes on the base make no difference. */
  lemma SlashesIgnored(base: string, pattern: string, afterContext: int, n: nat)
    ensures SearchUrl(base + seq(n, _ => '/'), pattern, afterContext) == SearchUrl(base, pattern, afterContext)
  {
    SlashRunStripped(base, n);
  }

  lemma {:induction false} SlashRunStripped(base: string, n: nat)
    ensures TrimSlashes(base + seq(n, _ => '/')) == TrimSlashes(base)
    decreases n
  {
    if n > 0 {
      var s := base + seq(n, _ => '/');
      assert s[..|s| - 1] == base + seq(n - 1, _ => '/');
      SlashRunStripped(base, n - 1);
    } else {
      assert base + seq(n, _ => '/') == base;
    }
  }

  /** Since the pattern is not encoded, a pattern carrying its own `&after_context=`
      yields the very URL that the option would. */
  lemma PatternNotEncoded(base: string)
    ensures SearchUrl(base, "x&after_context=3", NoContext) == SearchUrl(base, "x", 3)
  {
    var t := TrimSlashes(base) + "/search?pattern=";
    var option := "&after_context=" + "3";
    assert IntToString(3) == "3";
    assert "x&after_context=3" == "x" + option;
    assert t + ("x" + option) + "" == t + ("x" + option);
    Associative(t, "x", option);
  }

  // ---------------------------------------------------------------------------
  // Printing

  /** One element of the `matches` list: the line number and the line. */
  datatype Numbered = Numbered(num: int, line: string)

  /** The decoded JSON answer: the `matches` and `details` members, when present. */
  datatype Answer = Answer(matches: Option<seq<Numbered>>, details: Option<string>)

  /** `f"{num:{size}d}:{line}"`. */
  function Format(m: Numbered, size: nat): string {
    PadLeft(IntToString(m.num), size) + ":" + m.line
  }

  /** A printed line: a `--` separator or a match. */
  datatype Row = Gap | Hit(m: Numbered)

  function RowText(row: Row, size: nat): string {
    match row
    case Gap => "--"
    case Hit(m) => Format(m, size)
  }

  /** The printed text of the rows, line by line. */
  function Render(rows: seq<Row>, size: nat): (out: seq<string>)
    ensures |out| == |rows|
    ensures forall i :: 0 <= i < |rows| ==> out[i] == RowText(rows[i], size)
  {
    seq(|rows|, i requires 0 <= i < |rows| => RowText(rows[i], size))
  }

  /** A `--` goes before match i when the previous number is set (non-zero) and not
      directly before it. */
  predicate GapBefore(ms: seq<Numbered>, i: int) {
    0 < i < |ms| && ms[i - 1].num != 0 && ms[i - 1].num + 1 != ms[i].num
  }

  /** The number of separators among the first n matches. */
  function Gaps(ms: seq<Numbered>, n: nat): nat
    requires n <= |ms|
  {
    if n == 0 then 0 else Gaps(ms, n - 1) + if GapBefore(ms, n - 1) then 1 else 0
  }

  /** The matches among the rows, in order. */
  function Hits(rows: seq<Row>): (ms: seq<Numbered>)
    ensures |ms| <= |rows|
  {
    if |rows| == 0 then []
    else Hits(rows[..|rows| - 1]) + match rows[|rows| - 1] case Gap => [] case Hit(m) => [m]
  }

  lemma {:induction false} HitsAppend(a: seq<Row>, b: seq<Row>)
    ensures Hits(a + b) == Hits(a) + Hits(b)
    decreases |b|
  {
    if |b| == 0 {
      assert a + b == a;
    } else {
      assert (a + b)[..|a + b| - 1] == a + b[..|b| - 1];
      HitsAppend(a, b[..|b| - 1]);
    }
  }

  /** What is printed for match i: its separator, if any, then the match. */
  function Block(ms: seq<Numbered>, i: nat): seq<Row>
    requires i < |ms|
  {
    (if GapBefore(ms, i) then [Gap] else []) + [Hit(ms[i])]
  }

  /** The rows printed for the first n matches: every match once, in order, with a
      separator exactly before each match that does not follow its predecessor. */
  function Rows(ms: seq<Numbered>, n: nat): (rows: seq<Row>)
    requires n <= |ms|
    ensures |rows| == n + Gaps(ms, n)
    ensures Hits(rows) == ms[..n]
    decreases n
  {
    if n == 0 then []
    else
      var front := Rows(ms, n - 1);
      var rows := front + Block(ms, n - 1);
      HitsAppend(front, Block(ms, n - 1));
      HitsAppend([Gap], [Hit(ms[n - 1])]);
      assert [Hit(ms[n - 1])][..0] == [];
      assert ms[..n] == ms[..n - 1] + [ms[n - 1]];
      rows
  }

  /** A formatted match holds a `:`, so it never reads as a separator. */
  lemma FormatIsNoSeparator(m: Numbered, size: nat)
    ensures Format(m, size) != "--"
  {
    var pad := PadLeft(IntToString(m.num), size);
    var f := pad + ":" + m.line;
    assert f[|pad|] == ':';
    assert ':' in f && ':' !in "--";
  }

  /** The width of the last number. */
  function Width(ms: seq<Numbered>): nat
    requires |ms| > 0
  {
    |IntToString(ms[|ms| - 1].num)|
  }

  /** The lines `grep` prints for the matches. */
  function Printed(ms: seq<Numbered>): seq<string>
    requires |ms| > 0
  {
    Render(Rows(ms, |ms|), Width(ms))
  }

  /** `grep`'s printing loop, keeping the previous number (0 before the first). */
  method PrintMatches(ms: seq<Numbered>) returns (out: seq<string>)
    requires |ms| > 0
    ensures out == Printed(ms)
  {
    var size := Width(ms);
    var prevNum := 0;
    var rows: seq<Row> := [];
    var i := 0;
    while i < |ms|
      invariant 0 <= i <= |ms|
      invariant rows == Rows(ms, i)
      invariant prevNum == if i == 0 then 0 else ms[i - 1].num
    {
      var num := ms[i].num;
      if prevNum != 0 && prevNum + 1 != num {
        rows := rows + [Gap];
      }
      rows := rows + [Hit(ms[i])];
      RowsNext(ms, i + 1);
      prevNum := num;
      i := i + 1;
    }
    out := Render(rows, size);
  }

  /** The rows for matches 1..n extend those for 1..n-1 by match n, after a separator
      exactly when its number jumps. */
  lemma RowsNext(ms: seq<Numbered>, n: nat)
    requires 0 < n <= |ms|
    ensures GapBefore(ms, n - 1) ==> Rows(ms, n) == Rows(ms, n - 1) + [Gap] + [Hit(ms[n - 1])]
    ensures !GapBefore(ms, n - 1) ==> Rows(ms, n) == Rows(ms, n - 1) + [Hit(ms[n - 1])]
  {
    var front := Rows(ms, n - 1);
    assert [] + [Hit(ms[n - 1])] == [Hit(ms[n - 1])];
    assert front + ([Gap] + [Hit(ms[n - 1])]) == front + [Gap] + [Hit(ms[n - 1])];
  }

  /** What `grep` prints after the headers: the matches, or, when there are none, the
      `details` member, shown as `None` when it is missing. */
  method Grep(answer: Answer) returns (out: seq<string>)
    ensures answer.matches.Some? && |answer.matches.value| > 0 ==>
      out == Render(Rows(answer.matches.value, |answer.matches.value|), Width(answer.matches.value))
    ensures !(answer.matches.Some? && |answer.matches.value| > 0) ==>
      out == [if answer.details.Some? then answer.details.value else "None"]
  {
    if answer.matches.Some? && |answer.matches.value| > 0 {
      out := PrintMatches(answer.matches.value);
    } else {
      out := [if answer.details.Some? then answer.details.value else "None"];
    }
  }

  /** The printed lines are the formatted matches in order, with `--` lines exactly
      where numbers jump. */
  lemma PrintedMatches(ms: seq<Numbered>)
    requires |ms| > 0
    ensures var out := Render(Rows(ms, |ms|), Width(ms));
            |out| == |ms| + Gaps(ms, |ms|)
            && forall i :: 0 <= i < |out| ==> out[i] == "--" || exists k :: 0 <= k < |ms| && out[i] == Format(ms[k], Width(ms))
  {
    var rows := Rows(ms, |ms|);
    var out := Render(rows, Width(ms));
    forall i | 0 <= i < |out| && out[i] != "--"
      ensures exists k :: 0 <= k < |ms| && out[i] == Format(ms[k], Width(ms))
    {
      var k := HitIndex(ms, |ms|, i);
      assert out[i] == RowText(rows[i], Width(ms));
    }
  }

  lemma {:induction false} RowsPrefix(ms: seq<Numbered>, m: nat, n: nat)
    requires m <= n <= |ms|
    ensures Rows(ms, m) <= Rows(ms, n)
    decreases n
  {
    if m < n {
      RowsPrefix(ms, m, n - 1);
    }
  }

  /** The rows for matches 1..n end with match n, with a separator right above it
      exactly when its number does not follow the previous one. */
  lemma LastRow(ms: seq<Numbered>, n: nat)
    requires 0 < n <= |ms|
    ensures var rows := Rows(ms, n);
            rows[|rows| - 1] == Hit(ms[n - 1])
            && (GapBefore(ms, n - 1) <==> |rows| > 1 && rows[|rows| - 2] == Gap)
  {
    var front := Rows(ms, n - 1);
    var rows := Rows(ms, n);
    assert rows == front + Block(ms, n - 1);
    if n > 1 && !GapBefore(ms, n - 1) {
      assert front == Rows(ms, n - 2) + Block(ms, n - 2);
      assert rows[|rows| - 2] == front[|front| - 1];
    }
  }

  /** Match k sits at row `k + Gaps(ms, k + 1)`, and the row above it is a separator
      exactly when its number does not follow the previous one. */
  lemma GapPlacement(ms: seq<Numbered>, k: nat)
    requires k < |ms|
    ensures var rows := Rows(ms, |ms|);
            var p := k + Gaps(ms, k + 1);
            p < |rows| && rows[p] == Hit(ms[k]) && (GapBefore(ms, k) <==> p > 0 && rows[p - 1] == Gap)
  {
    var upto := Rows(ms, k + 1);
    LastRow(ms, k + 1);
    RowsPrefix(ms, k + 1, |ms|);
    var p := |upto| - 1;
    assert p == k + Gaps(ms, k + 1);
    assert Rows(ms, |ms|)[p] == upto[p];
    assert p > 0 ==> Rows(ms, |ms|)[p - 1] == upto[p - 1];
  }

  /** A non-separator row is the formatted form of some match. */
  lemma {:induction false} HitIndex(ms: seq<Numbered>, n: nat, i: nat) returns (k: nat)
    requires n <= |ms| && i < |Rows(ms, n)|
    ensures Rows(ms, n)[i].Hit? ==> k < n && Rows(ms, n)[i].m == ms[k]
    decreases n
  {
    var front := Rows(ms, n - 1);
    if i < |front| {
      k := HitIndex(ms, n - 1, i);
      assert Rows(ms, n)[i] == front[i];
    } else {
      k := n - 1;
      assert Rows(ms, n)[i] == Block(ms, n - 1)[i - |front|];
    }
  }

  /** Digit counts grow with the number. */
  lemma {:induction false} WidthMonotonic(a: nat, b: nat)
    requires a <= b
    ensures |NatToString(a)| <= |NatToString(b)|
    decreases b
  {
    if a >= 10 {
      WidthMonotonic(a / 10, b / 10);
    }
  }

  /** With the server's numbering (positive, increasing), every number is padded to the
      width of the last one, so the `:` lines up in one column. */
  lemma ColonsAligned(ms: seq<Numbered>)
    requires |ms| > 0
    requires forall i :: 0 <= i < |ms| ==> 1 <= ms[i].num <= ms[|ms| - 1].num
    ensures forall i :: 0 <= i < |ms| ==> Format(ms[i], Width(ms))[Width(ms)] == ':'
  {
    forall i | 0 <= i < |ms| ensures Format(ms[i], Width(ms))[Width(ms)] == ':' {
      WidthMonotonic(ms[i].num, ms[|ms| - 1].num);
      assert |PadLeft(IntToString(ms[i].num), Width(ms))| == Width(ms);
    }
  }

  /** Consecutive numbers print without separators; a jump prints one. */
  lemma SeparatorExample(a: string, b: string, c: string)
    ensures Rows([Numbered(3, a), Numbered(4, b), Numbered(9, c)], 3)
            == [Hit(Numbered(3, a)), Hit(Numbered(4, b)), Gap, Hit(Numbered(9, c))]
  {
    var ms := [Numbered(3, a), Numbered(4, b), Numbered(9, c)];
    assert !GapBefore(ms, 0) && !GapBefore(ms, 1) && GapBefore(ms, 2);
    RowsNext(ms, 1);
    RowsNext(ms, 2);
    RowsNext(ms, 3);
  }
}

=== FILE: logrep_server.dfy ===
/** The log grep server (logrep/logrep_server.py): per-profile settings merged from a
    parsed TOML document, the validation of a search request, the "possibly complex"
    pattern test and the after-context line selection. */
module LogrepServer {
  import opened Wrap
  import opened Text

  // ---------------------------------------------------------------------------
  // Pattern classification

  const RegexSpecials := "()[]{}.*+?^$|"

  /** `p[i]` is a regex special character not directly preceded by a backslash. */
  predicate UnescapedSpecial(p: string, i: int) {
    0 <= i < |p| && p[i] in RegexSpecials && (i == 0 || p[i - 1] != '\\')
  }

  /** The scan from index `k` on. */
  function ComplexFrom(p: string, k: nat): (b: bool)
    requires k <= |p|
    ensures b <==> exists i :: k <= i < |p| && UnescapedSpecial(p, i)
    decreases |p| - k
  {
    if k == |p| then false
    else if UnescapedSpecial(p, k) then true
    else
      var b := ComplexFrom(p, k + 1);
      assert forall i :: k <= i < |p| && UnescapedSpecial(p, i) ==> i == k || k + 1 <= i;
      b
  }

  /** `is_possibly_complex_pattern`: a search for `(?<!\\)[()\[\]{}.*+?^$|]`. */
  function IsPossiblyComplex(p: string): (b: bool)
    ensures b <==> exists i :: UnescapedSpecial(p, i)
  {
    ComplexFrom(p, 0)
  }

  /** Escaping every special character keeps a pattern plain; an escaped backslash in
      front of one does not count as escaping it either, so `\\.` is plain too although
      as a regex its dot is live. */
  lemma EscapesArePlain()
    ensures !IsPossiblyComplex("a\\.b\\*")
    ensures !IsPossiblyComplex("\\\\.")
    ensures IsPossiblyComplex("a.b") && IsPossiblyComplex("^x")
  {
    var p := "a\\.b\\*";
    forall i | 0 <= i < |p| ensures !UnescapedSpecial(p, i) {
      assert p[i] in RegexSpecials ==> i == 2 || i == 5;
    }
    var q := "\\\\.";
    forall i | 0 <= i < |q| ensures !UnescapedSpecial(q, i) {
      assert q[i] in RegexSpecials ==> i == 2;
    }
    assert UnescapedSpecial("a.b", 1);
    assert UnescapedSpecial("^x", 0);
  }

  // ---------------------------------------------------------------------------
  // Line selection

  /** One reported line: its 1-based number and its text right-stripped. */
  datatype Match = Match(num: nat, line: string)

  /** The test `file_reader` applies to a line: the compiled pattern (when there is one)
      finds it, or the pattern text occurs in it. */
  predicate LineMatches(regex: Option<string -> bool>, pattern: string, line: string) {
    (regex.Some? && regex.value(line)) || Contains(line, pattern)
  }

  /** Line `k` (1-based) exists and matches. */
  predicate MatchLine(lines: seq<string>, isMatch: string -> bool, k: int) {
    1 <= k <= |lines| && isMatch(lines[k - 1])
  }

  /** The number of the last matching line among lines 1..n. */
  function LastMatch(lines: seq<string>, isMatch: string -> bool, n: nat): (m: Option<nat>)
    requires n <= |lines|
    ensures m.Some? ==> 1 <= m.value <= n && MatchLine(lines, isMatch, m.value)
    ensures m.Some? ==> forall k :: m.value < k <= n ==> !MatchLine(lines, isMatch, k)
    ensures m.None? ==> forall k :: 1 <= k <= n ==> !MatchLine(lines, isMatch, k)
  {
    if n == 0 then None
    else if isMatch(lines[n - 1]) then Some(n)
    else LastMatch(lines, isMatch, n - 1)
  }

  /** Line `n` is reported: it matches, or the nearest matching line above it is at most
      `after` lines up. */
  predicate Shown(lines: seq<string>, isMatch: string -> bool, after: int, n: int) {
    1 <= n <= |lines|
    && (isMatch(lines[n - 1])
        || match LastMatch(lines, isMatch, n - 1)
           case Some(m) => n - m <= after
           case None => false)
  }

  /** Line `k` has a report in `r`. */
  predicate Reported(r: seq<Match>, k: int) {
    exists i :: 0 <= i < |r| && r[i].num == k
  }

  /** The reported lines among lines 1..n, by the nearest-match rule. */
  function Window(lines: seq<string>, isMatch: string -> bool, after: int, n: nat): (r: seq<Match>)
    requires n <= |lines|
    ensures forall i :: 0 <= i < |r| ==> 1 <= r[i].num <= n && Shown(lines, isMatch, after, r[i].num)
    ensures forall i :: 0 <= i < |r| ==> r[i].line == PyRStrip(lines[r[i].num - 1])
    ensures forall i, j :: 0 <= i < j < |r| ==> r[i].num < r[j].num
    ensures forall k :: 1 <= k <= n && Shown(lines, isMatch, after, k) ==> Reported(r, k)
  {
    if n == 0 then []
    else
      var front := Window(lines, isMatch, after, n - 1);
      var r := front + if Shown(lines, isMatch, after, n) then [Match(n, PyRStrip(lines[n - 1]))] else [];
      WindowStep(lines, isMatch, after, n, front, r);
      r
  }

  /** Extending the report of lines 1..n-1 by line n when it is shown keeps the
      report's properties. */
  lemma WindowStep(lines: seq<string>, isMatch: string -> bool, after: int, n: nat, front: seq<Match>, r: seq<Match>)
    requires 1 <= n <= |lines|
    requires forall i :: 0 <= i < |front| ==> 1 <= front[i].num <= n - 1 && Shown(lines, isMatch, after, front[i].num)
    requires forall i :: 0 <= i < |front| ==> front[i].line == PyRStrip(lines[front[i].num - 1])
    requires forall i, j :: 0 <= i < j < |front| ==> front[i].num < front[j].num
    requires forall k :: 1 <= k <= n - 1 && Shown(lines, isMatch, after, k) ==> Reported(front, k)
    requires r == front + if Shown(lines, isMatch, after, n) then [Match(n, PyRStrip(lines[n - 1]))] else []
    ensures forall i :: 0 <= i < |r| ==> 1 <= r[i].num <= n && Shown(lines, isMatch, after, r[i].num)
    ensures forall i :: 0 <= i < |r| ==> r[i].line == PyRStrip(lines[r[i].num - 1])
    ensures forall i, j :: 0 <= i < j < |r| ==> r[i].num < r[j].num
    ensures forall k :: 1 <= k <= n && Shown(lines, isMatch, after, k) ==> Reported(r, k)
  {
    assert forall i :: 0 <= i < |front| ==> r[i] == front[i];
    forall k | 1 <= k <= n && Shown(lines, isMatch, after, k) ensures Reported(r, k) {
      if k < n {
        var i :| 0 <= i < |front| && front[i].num == k;
        assert r[i].num == k;
      } else {
        assert r[|front|].num == n;
      }
    }
  }

  /** The report of lines 1..n extends that of lines 1..n-1 by line n exactly when it
      is shown. */
  lemma WindowNext(lines: seq<string>, isMatch: string -> bool, after: int, n: nat)
    requires 1 <= n <= |lines|
    ensures Shown(lines, isMatch, after, n) ==>
      Window(lines, isMatch, after, n) == Window(lines, isMatch, after, n - 1) + [Match(n, PyRStrip(lines[n - 1]))]
    ensures !Shown(lines, isMatch, after, n) ==>
      Window(lines, isMatch, after, n) == Window(lines, isMatch, after, n - 1)
  {
    var front := Window(lines, isMatch, after, n - 1);
    assert front + [] == front;
  }

  /** `last_match_line` of the loop: the last match so far, or -1. */
  function LastOrMinus(lines: seq<string>, isMatch: string -> bool, n: nat): int
    requires n <= |lines|
  {
    match LastMatch(lines, isMatch, n) case Some(m) => m as int case None => -1
  }

  function Min(a: int, b: int): int { if a <= b then a else b }
  function Max(a: int, b: int): int { if a >= b then a else b }

  /** `lines_after` of the loop after line n: the context lines printed since the last
      match, capped by `after`. */
  function ContextCount(lines: seq<string>, isMatch: string -> bool, after: int, n: nat): int
    requires n <= |lines|
  {
    var last := LastOrMinus(lines, isMatch, n);
    if last == -1 then 0 else Min(n - last, Max(after, 0))
  }

  /** The loop's test for line n agrees with the nearest-match rule, and its counters
      move as the definitions say. */
  lemma ReaderStep(lines: seq<string>, isMatch: string -> bool, after: int, n: nat)
    requires 1 <= n <= |lines|
    ensures var last := LastOrMinus(lines, isMatch, n - 1);
            var count := ContextCount(lines, isMatch, after, n - 1);
            && (Shown(lines, isMatch, after, n) <==> isMatch(lines[n - 1]) || (count < after && last != -1))
            && LastOrMinus(lines, isMatch, n) == (if isMatch(lines[n - 1]) then n else last)
            && ContextCount(lines, isMatch, after, n)
               == if isMatch(lines[n - 1]) then 0 else if count < after && last != -1 then count + 1 else count
  {
  }

  /** The smallest integer not below `x`. */
  function Ceil(x: real): (c: int)
    ensures c as real >= x && (c - 1) as real < x
  {
    -((-x).Floor)
  }

  /** `lines_after < after_context` for an integer count is `lines_after < ceil(after_context)`:
      a fractional context allows as many lines as the next integer. */
  lemma CountBelowCeil(count: int, x: real)
    ensures (count as real) < x <==> count < Ceil(x)
  {
  }

  /** `file_reader`: one pass keeping the last matching line and the count of context
      lines printed since; the context may be a float, as a TOML setting can be. */
  method FileReader(lines: seq<string>, isMatch: string -> bool, after: real) returns (matches: seq<Match>)
    ensures matches == Window(lines, isMatch, Ceil(after), |lines|)
  {
    matches := [];
    var lineNum := 0;
    var linesAfter := 0;
    var lastMatchLine := -1;
    while lineNum < |lines|
      invariant 0 <= lineNum <= |lines|
      invariant matches == Window(lines, isMatch, Ceil(after), lineNum)
      invariant lastMatchLine == LastOrMinus(lines, isMatch, lineNum)
      invariant linesAfter == ContextCount(lines, isMatch, Ceil(after), lineNum)
    {
      var line := lines[lineNum];
      lineNum := lineNum + 1;
      ReaderStep(lines, isMatch, Ceil(after), lineNum);
      WindowNext(lines, isMatch, Ceil(after), lineNum);
      CountBelowCeil(linesAfter, after);
      if isMatch(line) {
        matches := matches + [Match(lineNum, PyRStrip(line))];
        linesAfter := 0;
        lastMatchLine := lineNum;
      } else if (linesAfter as real) < after && lastMatchLine != -1 {
        matches := matches + [Match(lineNum, PyRStrip(line))];
        linesAfter := linesAfter + 1;
      }
    }
  }

  /** With no context only the matching lines are reported, each of them. */
  lemma NoContextOnlyMatches(lines: seq<string>, isMatch: string -> bool, after: int)
    requires after <= 0
    ensures var r := Window(lines, isMatch, after, |lines|);
            (forall i :: 0 <= i < |r| ==> MatchLine(lines, isMatch, r[i].num))
            && forall k :: MatchLine(lines, isMatch, k) ==> Reported(r, k)
  {
  }

  /** Nothing above the first matching line is reported. */
  lemma NothingBeforeFirstMatch(lines: seq<string>, isMatch: string -> bool, after: int, first: nat)
    requires first <= |lines| && forall k :: 1 <= k <= first ==> !MatchLine(lines, isMatch, k)
    ensures forall i :: 0 <= i < |Window(lines, isMatch, after, |lines|)| ==> Window(lines, isMatch, after, |lines|)[i].num > first
  {
    var r := Window(lines, isMatch, after, |lines|);
    forall i | 0 <= i < |r| ensures r[i].num > first {
      ShownAfterFirst(lines, isMatch, after, r[i].num, first);
    }
  }

  lemma ShownAfterFirst(lines: seq<string>, isMatch: string -> bool, after: int, n: int, first: nat)
    requires first <= |lines| && forall k :: 1 <= k <= first ==> !MatchLine(lines, isMatch, k)
    requires Shown(lines, isMatch, after, n)
    ensures n > first
  {
    NoMatchUpTo(lines, isMatch, Min(n - 1, first), first);
    assert n <= first ==> !MatchLine(lines, isMatch, n);
  }

  lemma NoMatchUpTo(lines: seq<string>, isMatch: string -> bool, n: nat, first: nat)
    requires n <= first <= |lines| && forall k :: 1 <= k <= first ==> !MatchLine(lines, isMatch, k)
    ensures LastMatch(lines, isMatch, n).None?
  {
  }

  /** A context line is reported only together with every line between it and its
      match. */
  lemma ContextIsContiguous(lines: seq<string>, isMatch: string -> bool, after: int, n: nat, k: nat)
    requires 1 <= k <= n <= |lines| && Shown(lines, isMatch, after, n) && !isMatch(lines[n - 1])
    requires LastMatch(lines, isMatch, n - 1).Some? && LastMatch(lines, isMatch, n - 1).value <= k
    ensures Shown(lines, isMatch, after, k)
  {
    var m := LastMatch(lines, isMatch, n - 1).value;
    if k < n && !isMatch(lines[k - 1]) {
      assert m < k;
      LastMatchBetween(lines, isMatch, m, k - 1, n - 1);
    }
  }

  /** The last match up to a later line is the last match up to an earlier one when
      nothing in between matches. */
  lemma {:induction false} LastMatchBetween(lines: seq<string>, isMatch: string -> bool, m: nat, a: nat, b: nat)
    requires 1 <= m <= a <= b <= |lines|
    requires LastMatch(lines, isMatch, b) == Some(m)
    ensures LastMatch(lines, isMatch, a) == Some(m)
    decreases b - a
  {
    if a < b {
      assert !MatchLine(lines, isMatch, b);
      LastMatchBetween(lines, isMatch, m, a, b - 1);
    }
  }

  // ---------------------------------------------------------------------------
  // Settings

  /** A value of the parsed TOML document: finite floats as reals; `Other` stands for
      dates, times and arrays. */
  datatype Value = Int(i: int) | Float(f: real) | Bool(b: bool) | Str(s: string) | Table(entries: map<string, Value>) | Other(kind: string)

  /** The `Settings` dataclass, fields untyped as in Python. */
  datatype Settings = Settings(profile: Value, logPath: Value, afterContext: Value, host: Value, port: Value, uuid: Value)

  const TopLevel := "top-level"
  const SettingsFields := {"profile", "log_path", "after_context", "host", "port", "uuid"}

  /** The top-level entries that are not tables: the settings every profile shares. */
  function Common(toml: map<string, Value>): (c: map<string, Value>)
    ensures forall k :: k in c <==> k in toml && !toml[k].Table?
    ensures forall k :: k in c ==> c[k] == toml[k]
  {
    map k | k in toml && !toml[k].Table? :: toml[k]
  }

  /** The profiles: `top-level` and every table whose name does not start with `#`. */
  function Profiles(toml: map<string, Value>): (ps: set<string>)
    ensures TopLevel in ps
    ensures forall p :: p in ps <==> p == TopLevel || (p in toml && toml[p].Table? && !("#" <= p))
  {
    {TopLevel} + set k | k in toml && toml[k].Table? && !("#" <= k)
  }

  /** The table of a profile; `top-level` has an empty one unless the document has it. */
  function ProfileTable(toml: map<string, Value>, p: string): map<string, Value> {
    if p in toml && toml[p].Table? && !("#" <= p) then toml[p].entries else map[]
  }

  /** The keyword arguments for one profile: shared values, then the profile's name,
      then the profile's own keys, each overriding what came before. */
  function Kwargs(toml: map<string, Value>, p: string): (kw: map<string, Value>)
    ensures "profile" in kw
    ensures forall k :: k in kw <==> k in Common(toml) || k == "profile" || k in ProfileTable(toml, p)
  {
    Common(toml)["profile" := Str(p)] + ProfileTable(toml, p)
  }

  /** Every key's value: the profile's own wins, then the profile's name for `profile`,
      then a top-level value that is no table, which every profile not setting the key
      inherits. */
  lemma SharedKeyInherited(toml: map<string, Value>, p: string, k: string)
    requires k in Kwargs(toml, p)
    ensures k in ProfileTable(toml, p) ==> Kwargs(toml, p)[k] == ProfileTable(toml, p)[k]
    ensures k !in ProfileTable(toml, p) && k == "profile" ==> Kwargs(toml, p)[k] == Str(p)
    ensures k !in ProfileTable(toml, p) && k != "profile" ==> k in toml && !toml[k].Table? && Kwargs(toml, p)[k] == toml[k]
  {
  }

  function Get(kw: map<string, Value>, key: string, default: Value): Value {
    if key in kw then kw[key] else default
  }

  /** `Settings(**kwargs)`, with the dataclass defaults; `defaultUuid` is the random
      identifier drawn once when the class was defined. */
  function MakeSettings(kw: map<string, Value>, defaultUuid: string): (r: Result<Settings>)
    requires "profile" in kw
    ensures r.Ok? <==> kw.Keys <= SettingsFields
    ensures r.Ok? ==> r.value.profile == kw["profile"]
    ensures r.Ok? && "after_context" !in kw ==> r.value.afterContext == Int(0)
    ensures r.Ok? && "after_context" in kw ==> r.value.afterContext == kw["after_context"]
  {
    if kw.Keys <= SettingsFields then
      Ok(Settings(
        kw["profile"],
        Get(kw, "log_path", Str("/__not_set__")),
        Get(kw, "after_context", Int(0)),
        Get(kw, "host", Str("0.0.0.0")),
        Get(kw, "port", Int(8000)),
        Get(kw, "uuid", Str(defaultUuid))))
    else Err("TypeError: unexpected keyword argument")
  }

  /** `make_profile_to_settings_from_toml_text` on an already parsed document. */
  function ProfileToSettings(toml: map<string, Value>, defaultUuid: string): (r: Result<map<string, Settings>>)
    ensures r.Ok? <==> forall p :: p in Profiles(toml) ==> Kwargs(toml, p).Keys <= SettingsFields
    ensures r.Ok? ==> r.value.Keys == Profiles(toml)
    ensures r.Ok? ==> forall p :: p in r.value ==> Ok(r.value[p]) == MakeSettings(Kwargs(toml, p), defaultUuid)
  {
    if forall p :: p in Profiles(toml) ==> Kwargs(toml, p).Keys <= SettingsFields then
      Ok(map p | p in Profiles(toml) :: MakeSettings(Kwargs(toml, p), defaultUuid).value)
    else Err("TypeError: unexpected keyword argument")
  }

  /** A profile's own key overrides the shared one; a key only shared is inherited; a
      key set nowhere takes the default. */
  lemma ProfileOverridesShared(toml: map<string, Value>, defaultUuid: string, p: string)
    requires ProfileToSettings(toml, defaultUuid).Ok? && p in Profiles(toml)
    ensures var s := ProfileToSettings(toml, defaultUuid).value[p];
            && ("after_context" in ProfileTable(toml, p) ==> s.afterContext == ProfileTable(toml, p)["after_context"])
            && ("after_context" !in ProfileTable(toml, p) && "after_context" in toml && !toml["after_context"].Table?
                ==> s.afterContext == toml["after_context"])
            && ("after_context" !in ProfileTable(toml, p) && "after_context" !in toml ==> s.afterContext == Int(0))
  {
    var kw := Kwargs(toml, p);
    assert "after_context" in ProfileTable(toml, p) ==> kw["after_context"] == ProfileTable(toml, p)["after_context"];
    assert "after_context" !in ProfileTable(toml, p) && "after_context" in Common(toml) ==> kw["after_context"] == toml["after_context"];
  }

  /** The profile field is the table's name unless the table sets `profile` itself; a
      shared `profile` value never survives. */
  lemma ProfileNamed(toml: map<string, Value>, defaultUuid: string, p: string)
    requires ProfileToSettings(toml, defaultUuid).Ok? && p in Profiles(toml)
    ensures "profile" !in ProfileTable(toml, p) ==> ProfileToSettings(toml, defaultUuid).value[p].profile == Str(p)
    ensures "profile" in ProfileTable(toml, p) ==>
      ProfileToSettings(toml, defaultUuid).value[p].profile == ProfileTable(toml, p)["profile"]
  {
    var kw := Kwargs(toml, p);
    assert "profile" !in ProfileTable(toml, p) ==> kw["profile"] == Str(p);
  }

  /** Tables named with a leading `#` are no profiles; their keys are not checked either. */
  lemma HashTablesIgnored(toml: map<string, Value>, defaultUuid: string, name: string, t: map<string, Value>)
    requires |name| > 0 && name[0] == '#'
    ensures ProfileToSettings(toml[name := Table(t)], defaultUuid) == ProfileToSettings(toml - {name}, defaultUuid)
  {
    var a := toml[name := Table(t)];
    var b := toml - {name};
    SameKwargs(a, b, name);
    SameSettings(a, b, defaultUuid);
  }

  /** Documents with the same profiles and the same keyword arguments for each give the
      same settings, or fail alike. */
  lemma SameSettings(a: map<string, Value>, b: map<string, Value>, defaultUuid: string)
    requires Profiles(a) == Profiles(b)
    requires forall p :: p in Profiles(a) ==> Kwargs(a, p) == Kwargs(b, p)
    ensures ProfileToSettings(a, defaultUuid) == ProfileToSettings(b, defaultUuid)
  {
    if ProfileToSettings(a, defaultUuid).Ok? {
      var ra := ProfileToSettings(a, defaultUuid).value;
      var rb := ProfileToSettings(b, defaultUuid).value;
      forall p | p in ra ensures ra[p] == rb[p] {
        assert Ok(ra[p]) == MakeSettings(Kwargs(a, p), defaultUuid) == Ok(rb[p]);
      }
      assert ra == rb;
    }
  }

  lemma SameKwargs(a: map<string, Value>, b: map<string, Value>, name: string)
    requires |name| > 0 && name[0] == '#'
    requires name in a && a[name].Table? && name !in b && b == a - {name}
    ensures Profiles(a) == Profiles(b)
    ensures forall p :: p in Profiles(a) ==> Kwargs(a, p) == Kwargs(b, p)
  {
    assert "#" <= name;
    assert Common(a) == Common(b);
    forall p | p in Profiles(a) ensures Kwargs(a, p) == Kwargs(b, p) {
      assert ProfileTable(a, p) == ProfileTable(b, p);
    }
  }

  // ---------------------------------------------------------------------------
  // Time template

  /** `p` in front of an expansion that succeeded; a failure stays a failure. */
  function Prepend(p: string, r: Option<string>): Option<string> {
    match r
    case None => None
    case Some(t) => Some(p + t)
  }

  /** The index of the first `>` in `s`, if any. */
  function FirstClose(s: string): (r: Option<nat>)
    ensures r.Some? ==> r.value < |s| && s[r.value] == '>' && '>' !in s[..r.value]
    ensures r.None? ==> '>' !in s
  {
    if s == "" then None
    else if s[0] == '>' then Some(0)
    else
      match FirstClose(s[1..])
      case None => None
      case Some(k) => assert s[..k + 1] == [s[0]] + s[1..][..k]; Some(k + 1)
  }

  /** `TimeTemplate(s).substitute()`, with `now(f)` standing for
      `datetime.now().strftime(f)`. Template's pattern with delimiter `<` and identifier
      `[^>]+>` is scanned from the left: `<<` is a literal `<`; `<` followed by at least
      one character before the next `>` is replaced by the time in that format; any
      other `<` is an invalid placeholder, for which `substitute` raises ValueError
      (None). */
  function Substitute(s: string, now: string -> string): (r: Option<string>)
    decreases |s|
  {
    if s == "" then Some("")
    else if s[0] != '<' then Prepend([s[0]], Substitute(s[1..], now))
    else if |s| > 1 && s[1] == '<' then Prepend("<", Substitute(s[2..], now))
    else
      match FirstClose(s[1..])
      case None => None
      case Some(k) =>
        if k == 0 then None
        else Prepend(now(s[1..k + 1]), Substitute(s[k + 2..], now))
  }

  /** Text without `<` in front of a template is copied as it is, and the rest is
      expanded on its own. */
  lemma {:induction false} SubstitutePrefix(a: string, t: string, now: string -> string)
    requires '<' !in a
    ensures Substitute(a + t, now) == Prepend(a, Substitute(t, now))
    decreases |a|
  {
    if a == "" {
      assert a + t == t;
      PrependEmpty(Substitute(t, now));
    } else {
      var s := a + t;
      assert s[0] == a[0] != '<';
      assert s[1..] == a[1..] + t;
      assert '<' !in a[1..];
      SubstitutePrefix(a[1..], t, now);
      PrependAssociative([a[0]], a[1..], Substitute(t, now));
      assert [a[0]] + a[1..] == a;
    }
  }

  lemma PrependEmpty(r: Option<string>)
    ensures Prepend("", r) == r
  {
    if r.Some? {
      assert "" + r.value == r.value;
    }
  }

  lemma PrependAssociative(p: string, q: string, r: Option<string>)
    ensures Prepend(p, Prepend(q, r)) == Prepend(p + q, r)
  {
    if r.Some? {
      assert p + (q + r.value) == p + q + r.value;
    }
  }

  /** A path without `<` is used as it is. */
  lemma SubstitutePlain(s: string, now: string -> string)
    requires '<' !in s
    ensures Substitute(s, now) == Some(s)
  {
    SubstitutePrefix(s, "", now);
    assert s + "" == s;
  }

  /** Every `<` doubled, as a literal path is written in a template. */
  function EscapeTemplate(s: string): (r: string)
    ensures |r| >= |s|
  {
    if s == "" then ""
    else (if s[0] == '<' then "<<" else [s[0]]) + EscapeTemplate(s[1..])
  }

  /** Doubling `<` and substituting gives the literal path back, whatever the time. */
  lemma {:induction false} EscapeTemplateRoundTrip(s: string, now: string -> string)
    ensures Substitute(EscapeTemplate(s), now) == Some(s)
    decreases |s|
  {
    if s != "" {
      var e := EscapeTemplate(s);
      var rest := EscapeTemplate(s[1..]);
      EscapeTemplateRoundTrip(s[1..], now);
      if s[0] == '<' {
        assert e[2..] == rest;
      } else {
        assert e[1..] == rest;
      }
      assert [s[0]] + s[1..] == s;
    }
  }

  /** A `<` that is neither doubled nor opens a non-empty field closed by `>` is an
      invalid placeholder: `app<.log` and `x<>.log` both fail. */
  lemma InvalidPlaceholder(a: string, b: string, now: string -> string)
    requires '<' !in a
    requires b == "" || b[0] == '>' || (b[0] != '<' && '>' !in b)
    ensures Substitute(a + "<" + b, now).None?
  {
    assert a + "<" + b == a + ("<" + b);
    SubstitutePrefix(a, "<" + b, now);
    assert ("<" + b)[1..] == b;
  }

  /** A field `<fmt>` is replaced by the time in format `fmt`, and the text after it
      is expanded on its own. */
  lemma FieldExpanded(a: string, fmt: string, b: string, now: string -> string)
    requires '<' !in a
    requires fmt != "" && fmt[0] != '<' && '>' !in fmt
    ensures Substitute(a + "<" + fmt + ">" + b, now) == Prepend(a + now(fmt), Substitute(b, now))
  {
    var field := "<" + fmt + ">" + b;
    assert a + "<" + fmt + ">" + b == a + field;
    SubstitutePrefix(a, field, now);
    FieldAtStart(fmt, b, now);
    PrependAssociative(a, now(fmt), Substitute(b, now));
  }

  /** A path that starts with a field. */
  lemma FieldAtStart(fmt: string, b: string, now: string -> string)
    requires fmt != "" && fmt[0] != '<' && '>' !in fmt
    ensures Substitute("<" + fmt + ">" + b, now) == Prepend(now(fmt), Substitute(b, now))
  {
    var s := "<" + fmt + ">" + b;
    assert s[1..] == fmt + ">" + b;
    FirstCloseAfter(fmt, b);
    assert s[1..|fmt| + 1] == fmt;
    assert s[|fmt| + 2..] == b;
    assert s[0] == '<' && s[1] == fmt[0];
  }

  /** The first `>` after a `>`-free text is the one that follows it. */
  lemma {:induction false} FirstCloseAfter(fmt: string, b: string)
    requires '>' !in fmt
    ensures FirstClose(fmt + ">" + b) == Some(|fmt|)
    decreases |fmt|
  {
    if fmt != "" {
      assert (fmt + ">" + b)[1..] == fmt[1..] + ">" + b;
      assert '>' !in fmt[1..];
      FirstCloseAfter(fmt[1..], b);
    }
  }

  // ---------------------------------------------------------------------------
  // Search

  /** What the server finds under a log path: the file's lines as read, each with its
      line terminator, or a failure to read it. */
  datatype LogFile = Readable(lines: seq<string>) | Unreadable(reason: string)

  /** The loaded settings, `datetime.now().strftime` (the time in a given format), the
      files on disk, and `re.compile` (None for `re.error`). */
  datatype Env = Env(
    profiles: map<string, Settings>,
    now: string -> string,
    files: map<string, LogFile>,
    compile: string -> Option<string -> bool>)

  datatype SearchRequest = SearchRequest(pattern: string, afterContext: Option<int>, profile: Option<string>)

  datatype Reply = HttpError(status: nat, detail: string) | Found(matches: seq<Match>)

  /** The profile name looked up: an absent or empty one selects `top-level`. */
  function ProfileKey(profile: Option<string>): string {
    if profile.None? || profile.value == "" then TopLevel else profile.value
  }

  /** A value Python compares with an integer: integers, floats, and booleans as 0
      and 1. */
  function AsNumber(v: Value): Option<real> {
    match v
    case Int(i) => Some(i as real)
    case Float(f) => Some(f)
    case Bool(b) => Some(if b then 1.0 else 0.0)
    case _ => None
  }

  /** The after-context in force: the request's, else the profile's, when it is a number. */
  function EffectiveContext(settings: Settings, req: SearchRequest): Option<real> {
    if req.afterContext.Some? then Some(req.afterContext.value as real) else AsNumber(settings.afterContext)
  }

  /** The request names a known profile whose textual log path is not a valid
      template, so `substitute` raises. */
  predicate PlaceholderInvalid(env: Env, req: SearchRequest) {
    && req.pattern != ""
    && ProfileKey(req.profile) in env.profiles
    && var settings := env.profiles[ProfileKey(req.profile)];
       && settings.logPath.Str?
       && Substitute(settings.logPath.s, env.now).None?
  }

  /** The request names a known profile whose log path expands to no existing file. */
  predicate LogMissing(env: Env, req: SearchRequest) {
    && req.pattern != ""
    && ProfileKey(req.profile) in env.profiles
    && var settings := env.profiles[ProfileKey(req.profile)];
       && settings.logPath.Str?
       && Substitute(settings.logPath.s, env.now).Some?
       && Substitute(settings.logPath.s, env.now).value !in env.files
  }

  /** The request gets as far as the pattern compilation: a pattern, a known profile, a
      textual log path expanding to an existing file, and a non-negative numeric
      context. */
  predicate PassesChecks(env: Env, req: SearchRequest) {
    && req.pattern != ""
    && ProfileKey(req.profile) in env.profiles
    && var settings := env.profiles[ProfileKey(req.profile)];
       && settings.logPath.Str?
       && Substitute(settings.logPath.s, env.now).Some?
       && Substitute(settings.logPath.s, env.now).value in env.files
       && EffectiveContext(settings, req).Some?
       && EffectiveContext(settings, req).value >= 0.0
  }

  /** The pattern is one `is_possibly_complex_pattern` sends to `re.compile`, and the
      compilation fails. */
  predicate BadRegex(env: Env, pattern: string) {
    IsPossiblyComplex(pattern) && env.compile(pattern).None?
  }

  /** `search_logs` with the endpoints' conversion of any other exception into 500. */
  function SearchLogs(env: Env, req: SearchRequest): (r: Reply)
    ensures req.pattern == "" ==> r == HttpError(400, "pattern must not be empty")
    ensures req.pattern != "" && ProfileKey(req.profile) !in env.profiles ==> r.HttpError? && r.status == 404
    ensures PlaceholderInvalid(env, req) ==> r == HttpError(500, "Invalid placeholder")
    ensures r.HttpError? && r.status == 404 <==>
      req.pattern != "" && (ProfileKey(req.profile) !in env.profiles || LogMissing(env, req))
    ensures r == HttpError(400, "Invalid regex pattern") <==> PassesChecks(env, req) && BadRegex(env, req.pattern)
    ensures r.Found? <==>
      PassesChecks(env, req) && !BadRegex(env, req.pattern)
      && env.files[Substitute(env.profiles[ProfileKey(req.profile)].logPath.s, env.now).value].Readable?
    ensures r.Found? ==>
      var settings := env.profiles[ProfileKey(req.profile)];
      var lines := env.files[Substitute(settings.logPath.s, env.now).value].lines;
      var regex := if IsPossiblyComplex(req.pattern) then env.compile(req.pattern) else None;
      r.matches == Window(lines, line => LineMatches(regex, req.pattern, line), Ceil(EffectiveContext(settings, req).value), |lines|)
    ensures r.HttpError? ==> r.status in {400, 404, 500}
  {
    if req.pattern == "" then HttpError(400, "pattern must not be empty")
    else
      var key := ProfileKey(req.profile);
      if key !in env.profiles then HttpError(404, "Profile not found")
      else
        var settings := env.profiles[key];
        if !settings.logPath.Str? then HttpError(500, "TypeError: log path is not a string")
        else
          var expanded := Substitute(settings.logPath.s, env.now);
          if expanded.None? then HttpError(500, "Invalid placeholder")
          else
            var path := expanded.value;
            if path !in env.files then HttpError(404, "Log file not found")
            else
              var after := EffectiveContext(settings, req);
              if after.None? then HttpError(500, "TypeError: after_context is not a number")
              else if after.value < 0.0 then HttpError(400, "after_context must be non-negative")
              else
                var regex := if IsPossiblyComplex(req.pattern) then env.compile(req.pattern) else None;
                if IsPossiblyComplex(req.pattern) && regex.None? then HttpError(400, "Invalid regex pattern")
                else match env.files[path]
                  case Unreadable(reason) => HttpError(500, reason)
                  case Readable(lines) =>
                    Found(Window(lines, line => LineMatches(regex, req.pattern, line), Ceil(after.value), |lines|))
  }

  /** The checks come in a fixed order: a negative context is refused before the
      pattern is compiled, so the reply does not depend on whether it would compile. */
  lemma NegativeContextBeforeRegex(env: Env, req: SearchRequest, compile: string -> Option<string -> bool>)
    requires req.pattern != "" && ProfileKey(req.profile) in env.profiles
    requires env.profiles[ProfileKey(req.profile)].logPath.Str?
    requires Substitute(env.profiles[ProfileKey(req.profile)].logPath.s, env.now).Some?
    requires Substitute(env.profiles[ProfileKey(req.profile)].logPath.s, env.now).value in env.files
    requires req.afterContext.Some? && req.afterContext.value < 0
    ensures SearchLogs(env, req) == HttpError(400, "after_context must be non-negative")
    ensures SearchLogs(env.(compile := compile), req) == SearchLogs(env, req)
  {
  }

  /** A missing log file is reported as 404 before the context and the pattern are
      looked at. */
  lemma MissingLogBeforeContext(env: Env, req: SearchRequest)
    requires req.pattern != "" && ProfileKey(req.profile) in env.profiles
    requires env.profiles[ProfileKey(req.profile)].logPath.Str?
    requires Substitute(env.profiles[ProfileKey(req.profile)].logPath.s, env.now).Some?
    requires Substitute(env.profiles[ProfileKey(req.profile)].logPath.s, env.now).value !in env.files
    ensures SearchLogs(env, req) == HttpError(404, "Log file not found")
  {
  }

  /** A log path such as `app<.log` or `x<>.log` makes every search of its profile a
      500, whatever files exist and whatever the pattern and context are. */
  lemma BrokenTemplateIs500(env: Env, req: SearchRequest, a: string, b: string)
    requires req.pattern != "" && ProfileKey(req.profile) in env.profiles
    requires env.profiles[ProfileKey(req.profile)].logPath == Str(a + "<" + b)
    requires '<' !in a
    requires b == "" || b[0] == '>' || (b[0] != '<' && '>' !in b)
    ensures SearchLogs(env, req) == HttpError(500, "Invalid placeholder")
  {
    InvalidPlaceholder(a, b, env.now);
  }

  /** A plain pattern is never compiled: the reply is the same whatever `re.compile`
      would say, and lines are selected by substring only. */
  lemma PlainPatternNotCompiled(env: Env, req: SearchRequest, compile: string -> Option<string -> bool>)
    requires !IsPossiblyComplex(req.pattern)
    ensures SearchLogs(env, req) == SearchLogs(env.(compile := compile), req)
  {
  }

  /** A request that passes validation reports, with its context, exactly the lines the
      nearest-match rule selects, in order and each once. */
  lemma FoundIsWindow(env: Env, req: SearchRequest)
    requires SearchLogs(env, req).Found?
    ensures var settings := env.profiles[ProfileKey(req.profile)];
            var lines := env.files[Substitute(settings.logPath.s, env.now).value].lines;
            var regex := if IsPossiblyComplex(req.pattern) then env.compile(req.pattern) else None;
            var ms := SearchLogs(env, req).matches;
            && (forall i, j :: 0 <= i < j < |ms| ==> 1 <= ms[i].num < ms[j].num)
            && forall k :: Reported(ms, k) <==>
                 Shown(lines, line => LineMatches(regex, req.pattern, line), Ceil(EffectiveContext(settings, req).value), k)
  {
  }
}

=== FILE: paths.dfy ===
/** Unix paths as `java.nio.file.Path` treats them: an optional root plus a sequence of
    names. Parsing collapses repeated and trailing `/`; `normalize` removes `.` and `..`
    lexically; `resolve` and `startsWith` work on whole names, never on characters. */
module JavaPath {
  import opened Wrap
  import opened Text

  datatype Path = Path(absolute: bool, names: seq<string>)

  predicate NoSlash(n: string) {
    forall j :: 0 <= j < |n| ==> n[j] != '/'
  }

  /** Every name a parsed path can hold: non-empty and free of separators. */
  predicate WellFormed(names: seq<string>) {
    forall k :: 0 <= k < |names| ==> names[k] != "" && NoSlash(names[k])
  }

  /** Names without `.` and `..`, which `normalize` has nothing left to do on. */
  predicate Clean(names: seq<string>) {
    forall k :: 0 <= k < |names| ==> names[k] != "." && names[k] != ".."
  }

  function FirstSlash(s: string): (i: nat)
    ensures i <= |s| && (i < |s| ==> s[i] == '/')
    ensures forall j :: 0 <= j < i ==> s[j] != '/'
  {
    if |s| == 0 || s[0] == '/' then 0 else 1 + FirstSlash(s[1..])
  }

  /** The names of a path string: the non-empty pieces between separators. */
  function Names(s: string): (r: seq<string>)
    ensures WellFormed(r)
    decreases |s|
  {
    if |s| == 0 then []
    else
      var i := FirstSlash(s);
      var head := if i > 0 then [s[..i]] else [];
      assert WellFormed(head) by {
        if i > 0 {
          assert forall j :: 0 <= j < |s[..i]| ==> s[..i][j] == s[j];
        }
      }
      if i == |s| then head else head + Names(s[i + 1..])
  }

  /** `Paths.get(s)` (the caller has rejected NUL characters). */
  function Parse(s: string): (p: Path)
    ensures WellFormed(p.names)
  {
    Path(|s| > 0 && s[0] == '/', Names(s))
  }

  /** `Path.toString()`. */
  function ToString(p: Path): string {
    (if p.absolute then "/" else "") + Join(p.names, "/")
  }

  /** One step of `Path.normalize()`: `.` vanishes; `..` cancels the previous name unless
      that is itself `..`; a `..` with nothing to cancel is dropped at the root and kept in
      a relative path. */
  function NormStep(absolute: bool, stack: seq<string>, name: string): seq<string> {
    if name == "." then stack
    else if name == ".." then
      if |stack| > 0 && stack[|stack| - 1] != ".." then stack[..|stack| - 1]
      else if absolute then stack
      else stack + [name]
    else stack + [name]
  }

  function NormalizeFrom(absolute: bool, stack: seq<string>, names: seq<string>): (r: seq<string>)
    requires WellFormed(stack) && WellFormed(names)
    ensures WellFormed(r)
    ensures (forall k :: 0 <= k < |stack| ==> stack[k] != ".") ==> forall k :: 0 <= k < |r| ==> r[k] != "."
    ensures absolute && Clean(stack) ==> Clean(r)
    decreases |names|
  {
    if |names| == 0 then stack
    else NormalizeFrom(absolute, NormStep(absolute, stack, names[0]), names[1..])
  }

  /** `Path.normalize()`. */
  function Normalize(p: Path): (q: Path)
    requires WellFormed(p.names)
    ensures q.absolute == p.absolute && WellFormed(q.names)
    ensures forall k :: 0 <= k < |q.names| ==> q.names[k] != "."
    ensures p.absolute ==> Clean(q.names)
  {
    Path(p.absolute, NormalizeFrom(p.absolute, [], p.names))
  }

  /** `base.resolve(other)`: an absolute `other` replaces `base`, an empty one leaves it. */
  function Resolve(base: Path, other: Path): Path {
    if other.absolute then other
    else if |other.names| == 0 then base
    else Path(base.absolute, base.names + other.names)
  }

  /** `p.startsWith(q)`: same root and `q`'s names are a leading run of `p`'s names. */
  predicate StartsWith(p: Path, q: Path) {
    p.absolute == q.absolute && q.names <= p.names
  }

  /** Where the file system finds a path: its lexically canonical names (symbolic links
      are not modelled). */
  function Canonical(p: Path): seq<string>
    requires WellFormed(p.names)
  {
    Normalize(p).names
  }

  predicate HasNul(s: string) {
    exists i :: 0 <= i < |s| && s[i] == '\0'
  }

  /** The file a Java handler computes from the request path:
      `DOC_ROOT.resolve(Paths.get(requestPath).normalize().toString().substring(1))`.
      `Paths.get` refuses NUL characters, and `substring(1)` fails on the empty string
      that normalizing a path such as `.` produces. */
  function Target(docRoot: Path, requestPath: string): (r: Result<Path>)
    requires WellFormed(docRoot.names)
    ensures r.Ok? ==> WellFormed(r.value.names)
    ensures r.Err? <==> HasNul(requestPath) || ToString(Normalize(Parse(requestPath))) == ""
  {
    if HasNul(requestPath) then Err("InvalidPathException")
    else
      var s := ToString(Normalize(Parse(requestPath)));
      if |s| == 0 then Err("StringIndexOutOfBoundsException")
      else Ok(Resolve(docRoot, Parse(s[1..])))
  }

  // ---------------------------------------------------------------------------
  // Lemmas

  lemma FirstSlashOfJoin(a: string, b: string)
    requires NoSlash(a)
    ensures FirstSlash(a + "/" + b) == |a|
  {
    var s := a + "/" + b;
    assert forall j :: 0 <= j < |a| ==> s[j] == a[j];
    assert s[|a|] == '/';
  }

  lemma JoinStartsWithFirst(names: seq<string>)
    requires |names| > 0
    ensures names[0] <= Join(names, "/")
  {
  }

  /** A leading name followed by a separator is read back as that name. */
  lemma NamesCons(a: string, b: string)
    requires a != "" && NoSlash(a)
    ensures Names(a + "/" + b) == [a] + Names(b)
  {
    var s := a + "/" + b;
    FirstSlashOfJoin(a, b);
    assert s[..|a|] == a;
    assert s[|a| + 1..] == b;
  }

  lemma NamesSingle(a: string)
    requires a != "" && NoSlash(a)
    ensures Names(a) == [a]
  {
    assert FirstSlash(a) == |a|;
    assert a[..|a|] == a;
  }

  /** Reading back the string of well-formed names gives the same names. */
  lemma {:induction false} NamesOfJoin(names: seq<string>)
    requires WellFormed(names)
    ensures Names(Join(names, "/")) == names
    decreases |names|
  {
    if |names| == 1 {
      NamesSingle(names[0]);
    } else if |names| > 1 {
      var rest := Join(names[1..], "/");
      assert Join(names, "/") == names[0] + "/" + rest;
      NamesCons(names[0], rest);
      NamesOfJoin(names[1..]);
      assert names == [names[0]] + names[1..];
    }
  }

  /** `Paths.get(p.toString())` is `p` again for a well-formed path. */
  lemma ParseToString(p: Path)
    requires WellFormed(p.names)
    ensures Parse(ToString(p)) == p
  {
    NamesOfJoin(p.names);
    var j := Join(p.names, "/");
    assert !p.absolute ==> ToString(p) == j;
    if p.absolute {
      var s := "/" + j;
      assert FirstSlash(s) == 0;
      assert s[1..] == j;
    } else if |p.names| > 0 {
      JoinStartsWithFirst(p.names);
      assert p.names[0] != "" && NoSlash(p.names[0]);
      assert j[0] == p.names[0][0];
      assert Parse(j) == Path(false, Names(j));
    }
  }

  /** Normalizing names that hold no `.` or `..` appends them unchanged. */
  lemma {:induction false} NormalizeClean(absolute: bool, stack: seq<string>, names: seq<string>)
    requires WellFormed(stack) && WellFormed(names) && Clean(names)
    ensures NormalizeFrom(absolute, stack, names) == stack + names
    decreases |names|
  {
    if |names| > 0 {
      NormalizeClean(absolute, stack + [names[0]], names[1..]);
      assert stack + [names[0]] + names[1..] == stack + names;
    }
  }

  /** The sandbox holds for every request path that starts with `/`: the target passes
      `startsWith(DOC_ROOT)` and its canonical location lies inside the document root. */
  lemma AbsoluteRequestStaysInside(docRoot: Path, requestPath: string)
    requires docRoot.absolute && WellFormed(docRoot.names) && Clean(docRoot.names)
    requires |requestPath| > 0 && requestPath[0] == '/' && !HasNul(requestPath)
    ensures Target(docRoot, requestPath).Ok?
    ensures StartsWith(Target(docRoot, requestPath).value, docRoot)
    ensures docRoot.names <= Canonical(Target(docRoot, requestPath).value)
  {
    var n := Normalize(Parse(requestPath));
    assert n.absolute;
    var s := ToString(n);
    var j := Join(n.names, "/");
    assert s == "/" + j;
    assert s[1..] == j;
    var rel := Path(false, n.names);
    ParseToString(rel);
    assert ToString(rel) == j;
    var fp := Resolve(docRoot, rel);
    if |n.names| > 0 {
      assert fp.names == docRoot.names + n.names;
      assert Clean(docRoot.names + n.names);
      NormalizeClean(true, [], docRoot.names + n.names);
    } else {
      NormalizeClean(true, [], docRoot.names);
    }
  }

  lemma {:induction false} NormalizeAppend(absolute: bool, stack: seq<string>, xs: seq<string>, ys: seq<string>)
    requires WellFormed(stack) && WellFormed(xs) && WellFormed(ys)
    ensures WellFormed(xs + ys)
    ensures NormalizeFrom(absolute, stack, xs + ys)
         == NormalizeFrom(absolute, NormalizeFrom(absolute, stack, xs), ys)
    decreases |xs|
  {
    assert WellFormed(xs + ys);
    if |xs| == 0 {
      assert xs + ys == ys;
    } else {
      assert (xs + ys)[0] == xs[0];
      assert (xs + ys)[1..] == xs[1..] + ys;
      NormalizeAppend(absolute, NormStep(absolute, stack, xs[0]), xs[1..], ys);
    }
  }

  /** How `Target` proceeds once the normalized request path is known. */
  lemma TargetVia(docRoot: Path, requestPath: string, n: Path)
    requires WellFormed(docRoot.names) && !HasNul(requestPath)
    requires Normalize(Parse(requestPath)) == n && ToString(n) != ""
    ensures Target(docRoot, requestPath) == Ok(Resolve(docRoot, Parse(ToString(n)[1..])))
  {
  }

  lemma ParseOneCharRelative(c: char, rest: seq<string>)
    requires c != '/' && WellFormed(rest)
    ensures Parse([c] + "/" + Join(rest, "/")) == Path(false, [[c]] + rest)
  {
    ParseNameFirst([c], Join(rest, "/"));
    NamesOfJoin(rest);
  }

  lemma DropFirstOfOneCharRelative(c: char, rest: seq<string>)
    requires |rest| > 0
    ensures ToString(Path(false, [[c]] + rest))[1..] == ToString(Path(true, rest))
  {
    JoinCons([c], rest, "/");
    DropFirst([c] + "/", Join(rest, "/"));
    DropFirst([c], "/");
    assert [c][1..] + "/" == "/";
  }

  /** A relative request path whose first name is a single character loses that character
      to `substring(1)` and turns into the absolute path of the remaining names, which the
      resolution then uses in place of the document root. */
  lemma OneCharRelativeRequestBecomesAbsolute(docRoot: Path, c: char, rest: seq<string>)
    requires WellFormed(docRoot.names)
    requires c != '/' && c != '.'
    requires |rest| > 0 && WellFormed(rest) && Clean(rest)
    requires !HasNul([c] + "/" + Join(rest, "/"))
    ensures Target(docRoot, [c] + "/" + Join(rest, "/")) == Ok(Path(true, rest))
  {
    var rp := [c] + "/" + Join(rest, "/");
    var names := [[c]] + rest;
    ParseOneCharRelative(c, rest);
    CleanCons([c], rest);
    NormalizeClean(false, [], names);
    assert [] + names == names;
    DropFirstOfOneCharRelative(c, rest);
    ParseToString(Path(true, rest));
    TargetVia(docRoot, rp, Path(false, names));
  }

  lemma CleanCons(n: string, rest: seq<string>)
    requires n != "" && n != "." && n != ".." && NoSlash(n)
    requires WellFormed(rest) && Clean(rest)
    ensures WellFormed([n] + rest) && Clean([n] + rest)
  {
  }

  /** A string that starts with a name and a separator is a relative path whose first
      name is that name. */
  lemma ParseNameFirst(a: string, b: string)
    requires a != "" && NoSlash(a)
    ensures Parse(a + "/" + b) == Path(false, [a] + Names(b))
  {
    assert (a + "/" + b)[0] == a[0];
    NamesCons(a, b);
  }

  lemma ParseTwoNames(a: string, b: string, rest: seq<string>)
    requires a != "" && NoSlash(a) && b != "" && NoSlash(b) && WellFormed(rest)
    ensures Parse(a + "/" + (b + "/" + Join(rest, "/"))) == Path(false, [a, b] + rest)
  {
    var j := Join(rest, "/");
    ParseNameFirst(a, b + "/" + j);
    NamesCons(b, j);
    NamesOfJoin(rest);
    var tail := Names(b + "/" + j);
    assert tail == [b] + rest;
    assert [a] + tail == [a, b] + rest;
  }

  lemma ParseDoubleDot(rest: seq<string>)
    requires WellFormed(rest)
    ensures Parse("../../" + Join(rest, "/")) == Path(false, ["..", ".."] + rest)
  {
    var j := Join(rest, "/");
    var up := ".." + "/";
    assert "../../" == up + up;
    Associative(up, up, j);
    ParseTwoNames("..", "..", rest);
  }

  lemma NormalizeDoubleDot(rest: seq<string>)
    requires WellFormed(rest) && Clean(rest)
    ensures Normalize(Path(false, ["..", ".."] + rest)) == Path(false, ["..", ".."] + rest)
  {
    NormalizeAppend(false, [], ["..", ".."], rest);
    assert NormalizeFrom(false, [], ["..", ".."]) == ["..", ".."];
    NormalizeClean(false, ["..", ".."], rest);
  }

  lemma JoinTwoNames(a: string, b: string, rest: seq<string>)
    requires |rest| > 0
    ensures Join([a, b] + rest, "/") == a + "/" + (b + "/" + Join(rest, "/"))
  {
    JoinCons(b, rest, "/");
    JoinCons(a, [b] + rest, "/");
    assert [a] + ([b] + rest) == [a, b] + rest;
  }

  lemma DropFirst(x: string, y: string)
    requires |x| > 0
    ensures (x + y)[1..] == x[1..] + y
  {
  }

  /** `substring(1)` of a relative path of two or more names drops the first character
      of its first name. */
  lemma DropFirstOfJoin(a: string, b: string, rest: seq<string>)
    requires |a| > 0 && |rest| > 0
    ensures Join([a, b] + rest, "/")[1..] == a[1..] + "/" + (b + "/" + Join(rest, "/"))
  {
    JoinTwoNames(a, b, rest);
    DropFirst(a + "/", b + "/" + Join(rest, "/"));
    DropFirst(a, "/");
  }

  /** `toString().substring(1)` of `../../rest` is `./../rest`. */
  lemma JoinDoubleDot(rest: seq<string>)
    requires |rest| > 0
    ensures ToString(Path(false, ["..", ".."] + rest))[1..] == "." + "/" + (".." + "/" + Join(rest, "/"))
  {
    var names := ["..", ".."] + rest;
    assert ToString(Path(false, names)) == Join(names, "/");
    DropFirstOfJoin("..", "..", rest);
    var dd := "..";
    assert dd[1..] == ".";
  }

  lemma DropFirstOfDoubleDot(rest: seq<string>)
    requires |rest| > 0 && WellFormed(rest)
    ensures Parse(ToString(Path(false, ["..", ".."] + rest))[1..]) == Path(false, [".", ".."] + rest)
  {
    JoinDoubleDot(rest);
    ParseTwoNames(".", "..", rest);
  }

  lemma CanonicalAfterDotDot(d: seq<string>, rest: seq<string>)
    requires |d| > 0 && WellFormed(d) && Clean(d) && WellFormed(rest) && Clean(rest)
    ensures WellFormed(d + [".", ".."] + rest)
    ensures NormalizeFrom(true, [], d + [".", ".."] + rest) == d[..|d| - 1] + rest
  {
    NormalizeAppend(true, [], d + [".", ".."], rest);
    NormalizeAppend(true, [], d, [".", ".."]);
    NormalizeClean(true, [], d);
    assert [] + d == d;
    assert NormalizeFrom(true, d, [".", ".."]) == d[..|d| - 1];
    NormalizeClean(true, d[..|d| - 1], rest);
  }

  /** A relative request path starting with `../../` passes the lexical `startsWith` test,
      yet its canonical location is the document root's parent directory joined with the
      remaining names: it escapes the root by one level. */
  lemma DoubleDotRequestEscapesRoot(docRoot: Path, rest: seq<string>)
    requires docRoot.absolute && |docRoot.names| > 0 && WellFormed(docRoot.names) && Clean(docRoot.names)
    requires |rest| > 0 && WellFormed(rest) && Clean(rest)
    requires !HasNul("../../" + Join(rest, "/"))
    ensures Target(docRoot, "../../" + Join(rest, "/")).Ok?
    ensures StartsWith(Target(docRoot, "../../" + Join(rest, "/")).value, docRoot)
    ensures Canonical(Target(docRoot, "../../" + Join(rest, "/")).value)
         == docRoot.names[..|docRoot.names| - 1] + rest
  {
    var rp := "../../" + Join(rest, "/");
    var names := ["..", ".."] + rest;
    ParseDoubleDot(rest);
    NormalizeDoubleDot(rest);
    DropFirstOfDoubleDot(rest);
    TargetVia(docRoot, rp, Path(false, names));
    var d := docRoot.names;
    var fp := Path(true, d + ([".", ".."] + rest));
    assert Target(docRoot, rp) == Ok(fp);
    assert d + ([".", ".."] + rest) == d + [".", ".."] + rest;
    CanonicalAfterDotDot(d, rest);
  }
}

=== FILE: rsmatcher.dfy ===
/** The rule-set matcher (rsmatcher/ruleset_matcher.py): rules parsed from delimited text,
    and an item matches when a rule of the highest priority among those that apply to it
    names the item's key. */
module RsMatcher {
  import opened Wrap
  import opened Text

  datatype Rule = Rule(prio: int, combo: seq<string>, color: string, size: string, key: string)

  datatype Item = Item(color: string, size: string, key: string)

  const All := "ALL"
  const ComboSep := "/"

  /** The dataclass's init fields, in declaration order. */
  const RuleFields := ["prio", "combo", "color", "size", "key"]

  // ---------------------------------------------------------------------------
  // Matching

  /** A rule applies to an item whose key is in its combo and whose colour and size it
      names or leaves open with `ALL`. */
  predicate Candidate(rule: Rule, item: Item) {
    item.key in rule.combo
    && (item.color == rule.color || rule.color == All)
    && (item.size == rule.size || rule.size == All)
  }

  /** `max(max_prio, prio) if max_prio else prio`: a running value of 0 counts as unset. */
  function MaxStep(m: Option<int>, p: int): (r: int)
    ensures m.Some? && m.value != 0 ==> r >= m.value && r >= p && (r == m.value || r == p)
    ensures m.None? || m.value == 0 ==> r == p
  {
    if m.None? || m.value == 0 then p
    else if m.value >= p then m.value else p
  }

  /** The loop over the rules from running value `m`, stepping at each candidate. */
  function Scan(rules: seq<Rule>, item: Item, m: Option<int>): (r: Option<int>)
    ensures r.None? <==> m.None? && forall i :: 0 <= i < |rules| ==> !Candidate(rules[i], item)
    decreases |rules|
  {
    if |rules| == 0 then m
    else
      var m' := if Candidate(rules[0], item) then Some(MaxStep(m, rules[0].prio)) else m;
      var r := Scan(rules[1..], item, m');
      assert forall i :: 1 <= i < |rules| ==> rules[i] == rules[1..][i - 1];
      r
  }

  /** The running priority after the whole rule sequence; `None` when no rule applies. */
  function MaxPrio(rules: seq<Rule>, item: Item): (m: Option<int>)
    ensures m.None? <==> forall i :: 0 <= i < |rules| ==> !Candidate(rules[i], item)
  {
    Scan(rules, item, None)
  }

  /** Some candidate of priority `m` names the item's key. */
  function HasTopKey(rules: seq<Rule>, item: Item, m: Option<int>): (b: bool)
    ensures b <==> exists i :: 0 <= i < |rules| && Candidate(rules[i], item)
                              && m == Some(rules[i].prio) && rules[i].key == item.key
    decreases |rules|
  {
    if |rules| == 0 then false
    else if Candidate(rules[0], item) && m == Some(rules[0].prio) && rules[0].key == item.key then true
    else
      var b := HasTopKey(rules[1..], item, m);
      assert forall i :: 1 <= i < |rules| ==> rules[i] == rules[1..][i - 1];
      b
  }

  /** `RuleSetMatcher.matches`. */
  function Matches(rules: seq<Rule>, item: Item): (b: bool)
    ensures b <==> exists i :: 0 <= i < |rules| && Candidate(rules[i], item)
                              && MaxPrio(rules, item) == Some(rules[i].prio) && rules[i].key == item.key
  {
    HasTopKey(rules, item, MaxPrio(rules, item))
  }

  /** Without an applicable rule nothing matches. */
  lemma NoCandidateNoMatch(rules: seq<Rule>, item: Item)
    requires forall i :: 0 <= i < |rules| ==> !Candidate(rules[i], item)
    ensures !Matches(rules, item)
  {
  }

  /** With non-negative priorities the scan ends on the greatest of its starting value
      and the candidate priorities. */
  lemma {:induction false} ScanIsMaximum(rules: seq<Rule>, item: Item, m: Option<int>)
    requires forall i :: 0 <= i < |rules| && Candidate(rules[i], item) ==> rules[i].prio >= 0
    requires m.Some? ==> m.value >= 0
    ensures var r := Scan(rules, item, m);
            r.Some? ==>
              (m.Some? ==> m.value <= r.value)
              && (forall i :: 0 <= i < |rules| && Candidate(rules[i], item) ==> rules[i].prio <= r.value)
              && ((m.Some? && r.value == m.value)
                  || exists i :: 0 <= i < |rules| && Candidate(rules[i], item) && rules[i].prio == r.value)
    decreases |rules|
  {
    if |rules| > 0 {
      var m' := if Candidate(rules[0], item) then Some(MaxStep(m, rules[0].prio)) else m;
      var tail := rules[1..];
      assert forall i :: 1 <= i < |rules| ==> rules[i] == tail[i - 1];
      ScanIsMaximum(tail, item, m');
      var r := Scan(rules, item, m);
      assert r == Scan(tail, item, m');
      if r.Some? && !(m.Some? && r.value == m.value) && !(m'.Some? && r.value == m'.value) {
        var k :| 0 <= k < |tail| && Candidate(tail[k], item) && tail[k].prio == r.value;
        assert rules[k + 1] == tail[k];
      }
    }
  }

  /** With non-negative priorities the running value is the greatest candidate priority. */
  lemma MaxPrioIsMaximum(rules: seq<Rule>, item: Item)
    requires forall i :: 0 <= i < |rules| && Candidate(rules[i], item) ==> rules[i].prio >= 0
    ensures MaxPrio(rules, item).Some? ==>
      (forall i :: 0 <= i < |rules| && Candidate(rules[i], item) ==> rules[i].prio <= MaxPrio(rules, item).value)
      && exists i :: 0 <= i < |rules| && Candidate(rules[i], item) && rules[i].prio == MaxPrio(rules, item).value
  {
    ScanIsMaximum(rules, item, None);
  }

  /** The matching rule in the intended reading: an applicable rule of top priority whose
      key is the item's. */
  ghost predicate TopKeyRule(rules: seq<Rule>, item: Item, i: int) {
    0 <= i < |rules| && Candidate(rules[i], item) && rules[i].key == item.key
    && forall j :: 0 <= j < |rules| && Candidate(rules[j], item) ==> rules[j].prio <= rules[i].prio
  }

  /** For non-negative priorities, `matches` is exactly "a top-priority applicable rule
      names the key". */
  lemma MatchesIffTopKey(rules: seq<Rule>, item: Item)
    requires forall i :: 0 <= i < |rules| && Candidate(rules[i], item) ==> rules[i].prio >= 0
    ensures Matches(rules, item) <==> exists i :: TopKeyRule(rules, item, i)
  {
    MaxPrioIsMaximum(rules, item);
    var m := MaxPrio(rules, item);
    if Matches(rules, item) {
      var i :| 0 <= i < |rules| && Candidate(rules[i], item) && m == Some(rules[i].prio) && rules[i].key == item.key;
      assert TopKeyRule(rules, item, i);
    }
    if exists i :: TopKeyRule(rules, item, i) {
      var i :| TopKeyRule(rules, item, i);
      assert m.Some?;
      var k :| 0 <= k < |rules| && Candidate(rules[k], item) && rules[k].prio == m.value;
      assert rules[i].prio == m.value;
      assert Matches(rules, item);
    }
  }

  /** With a negative priority the running value can end below the true maximum: after
      -5 and 0, the 0 counts as unset and -3 takes over, so the rule for `k` at -3 wins
      over the rule at 0 that names another key. */
  lemma NegativePriorityQuirk()
    ensures var item := Item("red", "2", "k");
            var rules := [Rule(-5, ["k"], All, All, "x"), Rule(0, ["k"], All, All, "y"), Rule(-3, ["k"], All, All, "k")];
            MaxPrio(rules, item) == Some(-3) && Matches(rules, item) && !TopKeyRule(rules, item, 2)
  {
    var item := Item("red", "2", "k");
    var rules := [Rule(-5, ["k"], All, All, "x"), Rule(0, ["k"], All, All, "y"), Rule(-3, ["k"], All, All, "k")];
    assert Candidate(rules[0], item) && Candidate(rules[1], item) && Candidate(rules[2], item);
    assert rules[1..][1..] == [rules[2]];
    assert Scan(rules, item, None) == Scan(rules[1..], item, Some(-5));
    assert Scan(rules[1..], item, Some(-5)) == Scan([rules[2]], item, Some(0));
    assert Scan([rules[2]], item, Some(0)) == Scan([], item, Some(-3));
    assert rules[2].key == item.key;
    assert rules[1].prio > rules[2].prio;
  }

  // ---------------------------------------------------------------------------
  // Parsing

  /** `Rule.from_csv`. `fields` is empty when none were given (an empty list is falsy
      too). Without fields the line must split into exactly five parts; with fields, which
      must be the init fields, extra parts are dropped by `zip` and missing ones fail. */
  function RuleFromCsv(line: string, delimiter: string, fields: seq<string>): (r: Result<Rule>)
    ensures r.Ok? ==> |delimiter| > 0 && (fields == [] || fields == RuleFields)
    ensures r.Ok? && fields == [] ==> |Split(line, delimiter)| == 5
    ensures r.Ok? && fields != [] ==> |Split(line, delimiter)| >= 5
    ensures r.Ok? ==> Some(r.value.prio) == ParseInt(Split(line, delimiter)[0])
  {
    if |fields| > 0 && fields != RuleFields then Err("ValueError: fields does not match Rule fields")
    else if |delimiter| == 0 then Err("ValueError: empty separator")
    else
      var parts := Split(line, delimiter);
      if |fields| == 0 && |parts| != 5 then Err("ValueError: wrong number of values to unpack")
      else match ParseInt(parts[0])
        case None => Err("ValueError: invalid literal for int()")
        case Some(p) =>
          if |parts| < 2 then Err("KeyError: combo")
          else if |parts| < 5 then Err("TypeError: missing arguments")
          else Ok(Rule(p, Split(parts[1], ComboSep), parts[2], parts[3], parts[4]))
  }

  /** A rule written back as a line of the format. */
  function RuleToCsv(rule: Rule, delimiter: string): string {
    Join([IntToString(rule.prio), Join(rule.combo, ComboSep), rule.color, rule.size, rule.key], delimiter)
  }

  /** A rule whose texts avoid the delimiter's first character, and whose combo is
      non-empty without `/` inside its keys, is read back from its line, with or without
      the header's fields. */
  lemma RuleCsvRoundTrip(rule: Rule, delimiter: string)
    requires |delimiter| > 0 && !IsDigit(delimiter[0]) && delimiter[0] != '-' && delimiter[0] != '/'
    requires |rule.combo| > 0 && forall k :: 0 <= k < |rule.combo| ==> Avoids(rule.combo[k], '/') && Avoids(rule.combo[k], delimiter[0])
    requires Avoids(rule.color, delimiter[0]) && Avoids(rule.size, delimiter[0]) && Avoids(rule.key, delimiter[0])
    ensures RuleFromCsv(RuleToCsv(rule, delimiter), delimiter, []) == Ok(rule)
    ensures RuleFromCsv(RuleToCsv(rule, delimiter), delimiter, RuleFields) == Ok(rule)
  {
    var c := delimiter[0];
    var prio := IntToString(rule.prio);
    assert Avoids(prio, c) by {
      var n: nat := if rule.prio < 0 then -rule.prio else rule.prio;
      assert AllDigits(NatToString(n));
      if rule.prio < 0 {
        assert prio == "-" + NatToString(n);
      }
    }
    var combo := Join(rule.combo, ComboSep);
    JoinAvoids(rule.combo, ComboSep, c);
    var parts := [prio, combo, rule.color, rule.size, rule.key];
    SplitJoin(parts, delimiter);
    SplitJoin(rule.combo, ComboSep);
    ParseIntRoundTrip(rule.prio);
  }

  /** A join avoids a character its parts and separator avoid. */
  lemma {:induction false} JoinAvoids(parts: seq<string>, sep: string, c: char)
    requires forall k :: 0 <= k < |parts| ==> Avoids(parts[k], c)
    requires Avoids(sep, c)
    ensures Avoids(Join(parts, sep), c)
    decreases |parts|
  {
    if |parts| > 1 {
      JoinAvoids(parts[1..], sep, c);
    }
  }

  /** The non-empty lines that are not comments, each parsed with `fields`. */
  function ParseRules(lines: seq<string>, delimiter: string, fields: seq<string>, comment: string): (r: Result<seq<Rule>>)
    ensures r.Ok? ==> |r.value| <= |lines|
    decreases |lines|
  {
    if |lines| == 0 then Ok([])
    else if comment <= lines[0] then ParseRules(lines[1..], delimiter, fields, comment)
    else
      var rule :- RuleFromCsv(lines[0], delimiter, fields);
      var rest :- ParseRules(lines[1..], delimiter, fields, comment);
      Ok([rule] + rest)
  }

  function NonEmpty(lines: seq<string>): (r: seq<string>)
    ensures forall k :: 0 <= k < |r| ==> r[k] != "" && r[k] in lines
    ensures forall l :: l in lines && l != "" ==> l in r
    ensures (forall k :: 0 <= k < |lines| ==> lines[k] != "") ==> r == lines
    decreases |lines|
  {
    if |lines| == 0 then []
    else if lines[0] == "" then NonEmpty(lines[1..])
    else [lines[0]] + NonEmpty(lines[1..])
  }

  /** Dropping blank lines keeps the order: it works line by line, so it distributes
      over concatenation. */
  lemma {:induction false} NonEmptyAppend(a: seq<string>, b: seq<string>)
    ensures NonEmpty(a + b) == NonEmpty(a) + NonEmpty(b)
    decreases |a|
  {
    if |a| == 0 {
      assert a + b == b;
    } else {
      assert (a + b)[0] == a[0];
      assert (a + b)[1..] == a[1..] + b;
      NonEmptyAppend(a[1..], b);
    }
  }

  /** The field names a header line gives: the line without the leading characters of
      `comment` (`lstrip` takes them as a set), split at the delimiter. */
  function HeaderFields(line: string, delimiter: string, comment: string): (fields: seq<string>)
    requires |delimiter| > 0
    ensures |fields| > 0
  {
    Split(LStrip(line, ch => ch in comment), delimiter)
  }

  /** `RuleSetMatcher.from_csv`: blank lines are dropped; with `fieldsFromHeader` the first
      remaining line, its leading comment characters removed, names the fields (a text with
      no such line raises `StopIteration`); comment lines are skipped. */
  function RuleSetFromCsv(text: string, delimiter: string, fields: seq<string>, fieldsFromHeader: bool, comment: string): (r: Result<seq<Rule>>)
    ensures !fieldsFromHeader ==> r == ParseRules(NonEmpty(SplitLines(text)), delimiter, fields, comment)
    ensures fieldsFromHeader && NonEmpty(SplitLines(text)) == [] ==> r == Err("StopIteration")
    ensures fieldsFromHeader && NonEmpty(SplitLines(text)) != [] && delimiter == "" ==> r.Err?
    ensures fieldsFromHeader && NonEmpty(SplitLines(text)) != [] && delimiter != "" ==>
      var lines := NonEmpty(SplitLines(text));
      r == ParseRules(lines[1..], delimiter, HeaderFields(lines[0], delimiter, comment), comment)
    ensures fieldsFromHeader && r.Ok? ==> |r.value| < |NonEmpty(SplitLines(text))|
  {
    var lines := NonEmpty(SplitLines(text));
    if fieldsFromHeader then
      if |lines| == 0 then Err("StopIteration")
      else if |delimiter| == 0 then Err("ValueError: empty separator")
      else ParseRules(lines[1..], delimiter, HeaderFields(lines[0], delimiter, comment), comment)
    else ParseRules(lines, delimiter, fields, comment)
  }

  /** A rule that `RuleToCsv` writes so that `RuleFromCsv` reads it back on a line of its own. */
  predicate Writable(rule: Rule, delimiter: string) {
    && |delimiter| > 0 && !IsDigit(delimiter[0]) && delimiter[0] != '-' && delimiter[0] != '/'
    && NoLineBreak(delimiter)
    && |rule.combo| > 0
    && (forall k :: 0 <= k < |rule.combo| ==>
          Avoids(rule.combo[k], '/') && Avoids(rule.combo[k], delimiter[0]) && NoLineBreak(rule.combo[k]))
    && Avoids(rule.color, delimiter[0]) && Avoids(rule.size, delimiter[0]) && Avoids(rule.key, delimiter[0])
    && NoLineBreak(rule.color) && NoLineBreak(rule.size) && NoLineBreak(rule.key)
  }

  function RuleLines(rules: seq<Rule>, delimiter: string): (lines: seq<string>)
    ensures |lines| == |rules|
    ensures forall k :: 0 <= k < |rules| ==> lines[k] == RuleToCsv(rules[k], delimiter)
    decreases |rules|
  {
    if |rules| == 0 then [] else [RuleToCsv(rules[0], delimiter)] + RuleLines(rules[1..], delimiter)
  }

  /** A join has no line break when its parts and separator have none. */
  lemma {:induction false} JoinNoLineBreak(parts: seq<string>, sep: string)
    requires forall k :: 0 <= k < |parts| ==> NoLineBreak(parts[k])
    requires NoLineBreak(sep)
    ensures NoLineBreak(Join(parts, sep))
    decreases |parts|
  {
    if |parts| > 1 {
      JoinNoLineBreak(parts[1..], sep);
    }
  }

  /** A written rule is a non-empty line without breaks whose first character is a digit
      or `-`, so it is never taken for a `#` comment. */
  lemma RuleLineShape(rule: Rule, delimiter: string)
    requires Writable(rule, delimiter)
    ensures var l := RuleToCsv(rule, delimiter);
            |l| > 0 && NoLineBreak(l) && (IsDigit(l[0]) || l[0] == '-')
  {
    var prio := IntToString(rule.prio);
    var n: nat := if rule.prio < 0 then -rule.prio else rule.prio;
    assert AllDigits(NatToString(n));
    assert NoLineBreak(prio);
    JoinNoLineBreak(rule.combo, ComboSep);
    var parts := [prio, Join(rule.combo, ComboSep), rule.color, rule.size, rule.key];
    JoinNoLineBreak(parts, delimiter);
    assert RuleToCsv(rule, delimiter) == prio + delimiter + Join(parts[1..], delimiter);
  }

  /** Written rules, one per line, are parsed back in order. */
  lemma {:induction false} ParseRuleLines(rules: seq<Rule>, delimiter: string, fields: seq<string>)
    requires forall k :: 0 <= k < |rules| ==> Writable(rules[k], delimiter)
    requires fields == [] || fields == RuleFields
    ensures ParseRules(RuleLines(rules, delimiter), delimiter, fields, "#") == Ok(rules)
    decreases |rules|
  {
    if |rules| > 0 {
      var lines := RuleLines(rules, delimiter);
      var line := RuleToCsv(rules[0], delimiter);
      assert lines[0] == line;
      RuleLineShape(rules[0], delimiter);
      assert !("#" <= line) by {
        assert line[0] != '#';
      }
      RuleCsvRoundTrip(rules[0], delimiter);
      ParseRuleLines(rules[1..], delimiter, fields);
      assert lines[1..] == RuleLines(rules[1..], delimiter);
      assert rules == [rules[0]] + rules[1..];
    }
  }

  /** A text made of a `#` header line and the written rules, each ended by a newline, is
      read back as exactly those rules. */
  lemma RuleSetCsvRoundTrip(rules: seq<Rule>, delimiter: string, header: string)
    requires |header| > 0 && header[0] == '#' && NoLineBreak(header)
    requires forall k :: 0 <= k < |rules| ==> Writable(rules[k], delimiter)
    ensures RuleSetFromCsv(Join([header] + RuleLines(rules, delimiter), "\n") + "\n", delimiter, [], false, "#")
            == Ok(rules)
  {
    var body := RuleLines(rules, delimiter);
    var lines := [header] + body;
    forall k | 0 <= k < |rules| ensures |body[k]| > 0 && NoLineBreak(body[k]) {
      RuleLineShape(rules[k], delimiter);
    }
    assert forall k :: 1 <= k < |lines| ==> lines[k] == body[k - 1];
    SplitLinesJoin(lines);
    assert NonEmpty(lines) == lines;
    assert "#" <= header;
    assert lines[1..] == body;
    ParseRuleLines(rules, delimiter, []);
  }

  /** The header `#prio<d>combo<d>color<d>size<d>key` names the fields when the delimiter's
      first character is in none of the names: `lstrip` removes the `#` and `split`
      yields the names. */
  lemma HeaderNamesRuleFields(delimiter: string)
    requires |delimiter| > 0
    requires forall k :: 0 <= k < |RuleFields| ==> Avoids(RuleFields[k], delimiter[0])
    ensures HeaderFields("#" + Join(RuleFields, delimiter), delimiter, "#") == RuleFields
  {
    var names := Join(RuleFields, delimiter);
    NamesStart(delimiter);
    CommentMarkStripped(names, delimiter);
    SplitJoin(RuleFields, delimiter);
  }

  /** The joined names start with the first name's first letter. */
  lemma NamesStart(delimiter: string)
    ensures |Join(RuleFields, delimiter)| > 0 && Join(RuleFields, delimiter)[0] == 'p'
  {
    JoinCons(RuleFields[0], RuleFields[1..], delimiter);
    assert RuleFields == [RuleFields[0]] + RuleFields[1..];
  }

  /** One `#` in front of a line not starting with `#` is all that `lstrip("#")` removes. */
  lemma CommentMarkStripped(names: string, delimiter: string)
    requires |delimiter| > 0 && |names| > 0 && names[0] != '#'
    ensures HeaderFields("#" + names, delimiter, "#") == Split(names, delimiter)
  {
    assert ("#" + names)[1..] == names;
  }

  /** A text whose first line is the `#` header naming the fields, followed by the
      written rules, each ended by a newline, is read with `fields_from_header` as
      exactly those rules, whatever fields the caller passes. */
  lemma RuleSetHeaderRoundTrip(rules: seq<Rule>, delimiter: string, fields: seq<string>)
    requires |delimiter| > 0 && NoLineBreak(delimiter)
    requires forall k :: 0 <= k < |RuleFields| ==> Avoids(RuleFields[k], delimiter[0])
    requires forall k :: 0 <= k < |rules| ==> Writable(rules[k], delimiter)
    ensures RuleSetFromCsv(Join(["#" + Join(RuleFields, delimiter)] + RuleLines(rules, delimiter), "\n") + "\n", delimiter, fields, true, "#")
            == Ok(rules)
  {
    var header := "#" + Join(RuleFields, delimiter);
    var body := RuleLines(rules, delimiter);
    var lines := [header] + body;
    JoinNoLineBreak(RuleFields, delimiter);
    assert NoLineBreak(header);
    forall k | 0 <= k < |rules| ensures |body[k]| > 0 && NoLineBreak(body[k]) {
      RuleLineShape(rules[k], delimiter);
    }
    assert forall k :: 1 <= k < |lines| ==> lines[k] == body[k - 1];
    SplitLinesJoin(lines);
    assert NonEmpty(lines) == lines;
    assert lines[1..] == body;
    HeaderNamesRuleFields(delimiter);
    ParseRuleLines(rules, delimiter, RuleFields);
  }

  /** Letters and digits only. */
  predicate Plain(s: string) {
    forall i :: 0 <= i < |s| ==> IsAsciiLetter(s[i]) || IsDigit(s[i])
  }

  /** A rule of plain texts with a non-empty combo can be written with ` | `. */
  lemma PlainWritable(rule: Rule)
    requires |rule.combo| > 0 && forall k :: 0 <= k < |rule.combo| ==> Plain(rule.combo[k])
    requires Plain(rule.color) && Plain(rule.size) && Plain(rule.key)
    ensures Writable(rule, " | ")
  {
  }

  /** The test fixture's rules can all be written with ` | `. */
  lemma FixtureWritable()
    ensures forall k :: 0 <= k < |FixtureRules| ==> Writable(FixtureRules[k], FixtureDelimiter)
  {
    var rs := FixtureRules;
    assert Plain("m2") && Plain("p9") && Plain("m1") && Plain("p8") && Plain("m10");
    assert Plain("red") && Plain("blue") && Plain(All) && Plain("2") && Plain("25");
    forall k | 0 <= k < |rs| ensures Writable(rs[k], FixtureDelimiter) {
      PlainWritable(rs[k]);
    }
  }

  // ---------------------------------------------------------------------------
  // The test fixture

  const FixtureDelimiter := " | "

  const FixtureRules := [
    Rule(20, ["m2", "p9"], "red", "2", "p9"),
    Rule(20, ["m2", "p9"], "blue", "2", "p9"),
    Rule(10, ["m2", "p9"], All, All, "m2"),
    Rule(10, ["m2", "p9"], All, "25", "m2"),
    Rule(10, ["m1", "p8"], All, All, "m1"),
    Rule(10, ["m10"], All, All, "m10")]

  const FixtureHeader := "#prio | combo | color | size | key"

  /** The fixture's text: the comment header, then each rule on its own line. */
  function FixtureText(): string {
    Join([FixtureHeader] + RuleLines(FixtureRules, FixtureDelimiter), "\n") + "\n"
  }

  /** Reading the fixture's text yields the six rules, and the test expectations hold for
      the matcher built from them. */
  lemma FixtureScenario()
    ensures RuleSetFromCsv(FixtureText(), FixtureDelimiter, [], false, "#") == Ok(FixtureRules)
    ensures Matches(FixtureRules, Item("red", "2", "p9")) && !Matches(FixtureRules, Item("red", "2", "m2"))
    ensures !Matches(FixtureRules, Item("red", "31", "p9")) && Matches(FixtureRules, Item("red", "31", "m2"))
  {
    FixtureWritable();
    RuleSetCsvRoundTrip(FixtureRules, FixtureDelimiter, FixtureHeader);
    FixtureRed2();
    FixtureRed31();
  }

  /** Red size-2 items: the priority-20 red rule decides, so `p9` matches and `m2` does not. */
  lemma FixtureRed2()
    ensures Matches(FixtureRules, Item("red", "2", "p9"))
    ensures !Matches(FixtureRules, Item("red", "2", "m2"))
  {
    var rs := FixtureRules;
    var p9 := Item("red", "2", "p9");
    var m2 := Item("red", "2", "m2");
    Red2Candidates("p9");
    Red2Candidates("m2");
    MatchesIffTopKey(rs, p9);
    MatchesIffTopKey(rs, m2);
    assert TopKeyRule(rs, p9, 0);
    forall i | 0 <= i < |rs| && Candidate(rs[i], m2) && rs[i].key == m2.key
      ensures rs[i].prio < rs[0].prio
    {
      assert i == 2;
    }
  }

  /** For red size-2 items keyed `p9` or `m2` exactly the first and third fixture rules apply. */
  lemma Red2Candidates(key: string)
    requires key == "p9" || key == "m2"
    ensures Candidate(FixtureRules[0], Item("red", "2", key)) && Candidate(FixtureRules[2], Item("red", "2", key))
    ensures forall i :: 0 <= i < |FixtureRules| && i != 0 && i != 2 ==> !Candidate(FixtureRules[i], Item("red", "2", key))
  {
    var rs := FixtureRules;
    assert rs[1].color == "blue" && rs[3].size == "25";
    assert rs[4].combo == ["m1", "p8"] && rs[5].combo == ["m10"];
    assert key != "m1" && key != "p8" && key != "m10";
  }

  /** Red size-31 items: no size-specific rule applies, the priority-10 `ALL` rule for `m2`
      decides, so `m2` matches and `p9` does not. */
  lemma FixtureRed31()
    ensures !Matches(FixtureRules, Item("red", "31", "p9"))
    ensures Matches(FixtureRules, Item("red", "31", "m2"))
  {
    Red31Candidates("p9");
    Red31Candidates("m2");
    MatchesIffTopKey(FixtureRules, Item("red", "31", "p9"));
    MatchesIffTopKey(FixtureRules, Item("red", "31", "m2"));
    assert TopKeyRule(FixtureRules, Item("red", "31", "m2"), 2);
  }

  /** For red size-31 items keyed `p9` or `m2` only the third fixture rule can apply. */
  lemma Red31Candidates(key: string)
    requires key == "p9" || key == "m2"
    ensures forall i :: 0 <= i < |FixtureRules| && i != 2 ==> !Candidate(FixtureRules[i], Item("red", "31", key))
  {
    var rs := FixtureRules;
    var it := Item("red", "31", key);
    assert rs[0].size == "2" && rs[1].size == "2" && rs[3].size == "25";
    assert it.size != "2" && it.size != "25" && it.size != All;
    assert rs[4].combo == ["m1", "p8"] && rs[5].combo == ["m10"];
    assert key != "m1" && key != "p8" && key != "m10";
  }
}

=== FILE: sqlite_utils.dfy ===
/** Identifier quoting and the planning half of `recreate_table` (sqlite/utils.py):
    from the rows SQLite reports about a table, the DDL of its replacement, the unique
    indexes to create and the indexes and triggers to restore. */
module SqliteUtils {
  import opened Wrap
  import opened Text

  // ---------------------------------------------------------------------------
  // Identifier quoting

  // `SQLITE_KEYWORDS`, in alphabetical groups.
  const KeywordsA: set<string> := {
    "ABORT", "ACTION", "ADD", "AFTER", "ALL", "ALTER", "ALWAYS", "ANALYZE", "AND", "AS", "ASC",
    "ATTACH", "AUTOINCREMENT"
  }
  const KeywordsB: set<string> := {
    "BEFORE", "BEGIN", "BETWEEN", "BY"
  }
  const KeywordsC: set<string> := {
    "CASCADE", "CASE", "CAST", "CHECK", "COLLATE", "COLUMN", "COMMIT", "CONFLICT", "CONSTRAINT",
    "CREATE", "CROSS", "CURRENT", "CURRENT_DATE", "CURRENT_TIME", "CURRENT_TIMESTAMP"
  }
  const KeywordsD: set<string> := {
    "DATABASE", "DEFAULT", "DEFERRABLE", "DEFERRED", "DELETE", "DESC", "DETACH", "DISTINCT", "DO",
    "DROP"
  }
  const KeywordsEF: set<string> := {
    "EACH", "ELSE", "END", "ESCAPE", "EXCEPT", "EXCLUSIVE", "EXISTS", "FILTER", "FIRST",
    "FOLLOWING", "FOR", "FOREIGN", "FROM", "FULL"
  }
  const KeywordsGH: set<string> := {
    "GENERATED", "GLOB", "GROUP", "HAVING"
  }
  const KeywordsIK: set<string> := {
    "IF", "IGNORE", "IMMEDIATE", "IN", "INDEX", "INDEXED", "INITIALLY", "INNER", "INSERT",
    "INSTEAD", "INTERSECT", "INTO", "IS", "ISNULL", "JOIN", "KEY"
  }
  const KeywordsLN: set<string> := {
    "LAST", "LEFT", "LIKE", "LIMIT", "MATCH", "MATERIALIZED", "NATURAL", "NO", "NOT", "NOTHING",
    "NOTNULL", "NULL"
  }
  const KeywordsOQ: set<string> := {
    "OF", "OFFSET", "ON", "OR", "ORDER", "OTHERS", "OUTER", "OVER", "PARTITION", "PLAN", "PRAGMA",
    "PRECEDING", "PRIMARY", "QUERY"
  }
  const KeywordsR: set<string> := {
    "RAISE", "RANGE", "RECURSIVE", "REFERENCES", "REGEXP", "REINDEX", "RELEASE", "RENAME",
    "REPLACE", "RESTRICT", "RETURNING", "RIGHT", "ROLLBACK", "ROW", "ROWS"
  }
  const KeywordsSU: set<string> := {
    "SAVEPOINT", "SELECT", "SET", "TABLE", "TEMP", "TEMPORARY", "THEN", "TIES", "TO",
    "TRANSACTION", "TRIGGER", "UNBOUNDED", "UNION", "UNIQUE", "UPDATE", "USING"
  }
  const KeywordsVW: set<string> := {
    "VACUUM", "VALUES", "VIEW", "VIRTUAL", "WHEN", "WHERE", "WINDOW", "WITH", "WITHOUT"
  }

  const Keywords: set<string> := KeywordsA + KeywordsB + KeywordsC + KeywordsD + KeywordsEF + KeywordsGH + KeywordsIK + KeywordsLN + KeywordsOQ + KeywordsR + KeywordsSU + KeywordsVW

  /** Upper-case ASCII letters and `_`: the shape of every keyword. */
  predicate KeywordShaped(k: string) {
    forall i :: 0 <= i < |k| ==> ('A' <= k[i] <= 'Z') || k[i] == '_'
  }

  /** Every keyword is made of upper-case letters and `_`. */
  lemma KeywordsShaped()
    ensures forall k :: k in Keywords ==> KeywordShaped(k)
  {
    KeywordsAShaped();
    KeywordsBShaped();
    KeywordsCShaped();
    KeywordsDShaped();
    KeywordsEFShaped();
    KeywordsGHShaped();
    KeywordsIKShaped();
    KeywordsLNShaped();
    KeywordsOQShaped();
    KeywordsRShaped();
    KeywordsSUShaped();
    KeywordsVWShaped();
  }

  lemma KeywordsAShaped() ensures forall k :: k in KeywordsA ==> KeywordShaped(k) { }
  lemma KeywordsBShaped() ensures forall k :: k in KeywordsB ==> KeywordShaped(k) { }
  lemma KeywordsCShaped() ensures forall k :: k in KeywordsC ==> KeywordShaped(k) { }
  lemma KeywordsDShaped() ensures forall k :: k in KeywordsD ==> KeywordShaped(k) { }
  lemma KeywordsEFShaped() ensures forall k :: k in KeywordsEF ==> KeywordShaped(k) { }
  lemma KeywordsGHShaped() ensures forall k :: k in KeywordsGH ==> KeywordShaped(k) { }
  lemma KeywordsIKShaped() ensures forall k :: k in KeywordsIK ==> KeywordShaped(k) { }
  lemma KeywordsLNShaped() ensures forall k :: k in KeywordsLN ==> KeywordShaped(k) { }
  lemma KeywordsOQShaped() ensures forall k :: k in KeywordsOQ ==> KeywordShaped(k) { }
  lemma KeywordsRShaped() ensures forall k :: k in KeywordsR ==> KeywordShaped(k) { }
  lemma KeywordsSUShaped() ensures forall k :: k in KeywordsSU ==> KeywordShaped(k) { }
  lemma KeywordsVWShaped() ensures forall k :: k in KeywordsVW ==> KeywordShaped(k) { }

  const MaxIdentifier := 64

  predicate IdentStart(c: char) { IsAsciiLetter(c) || c == '_' }
  predicate IdentChar(c: char) { IsAsciiLetter(c) || IsDigit(c) || c == '_' }

  /** `[a-zA-Z_][a-zA-Z0-9_]*` for the whole of `s`. */
  predicate PlainIdent(s: string) {
    |s| > 0 && IdentStart(s[0]) && forall i :: 1 <= i < |s| ==> IdentChar(s[i])
  }

  /** `RX_VALID_UNQUOTED_IDENTIFIER.match`: the pattern ends in `$`, which also matches
      before a final newline. */
  predicate MatchesUnquoted(name: string) {
    PlainIdent(name) || (|name| > 1 && name[|name| - 1] == '\n' && PlainIdent(name[..|name| - 1]))
  }

  /** A name `qt` leaves as it is: it matches the pattern and is not a keyword. */
  predicate Bare(name: string) {
    MatchesUnquoted(name) && AsciiUpper(name) !in Keywords
  }

  /** Doubles every `c` in `s`. */
  function Double(s: string, c: char): string {
    Replace(s, [c], [c, c])
  }

  /** Halves every doubled `c`. */
  function Halve(s: string, c: char): string {
    Replace(s, [c, c], [c])
  }

  /** `qt`; `None` stands for Python's `None`. */
  function Qt(name: Option<string>): (r: Result<string>)
    ensures name.None? ==> r.Err?
    ensures name == Some("") ==> r == Ok("\"\"")
    ensures r.Ok? ==> |r.value| <= MaxIdentifier
    ensures name.Some? && name.value != "" && Bare(name.value) ==>
      r == (if |name.value| <= MaxIdentifier then Ok(name.value) else Err("ValueError: identifier too long"))
  {
    match name
    case None => Err("ValueError: Name cannot be None")
    case Some(n) =>
      if n == "" then Ok("\"\"")
      else
        var value := if Bare(n) then n else "\"" + Double(n, '"') + "\"";
        if |value| > MaxIdentifier then Err("ValueError: identifier too long") else Ok(value)
  }

  /** The quoted form: `"` around the name with every inner `"` doubled. */
  function Quoted(n: string): string {
    "\"" + Double(n, '"') + "\""
  }

  /** Halving what doubling produced gives the text back. */
  lemma {:induction false} HalveDouble(s: string, c: char)
    ensures Halve(Double(s, c), c) == s
    decreases |s|
  {
    if |s| > 0 {
      HalveDouble(s[1..], c);
      var d := Double(s, c);
      if [c] <= s {
        assert d == [c, c] + Double(s[1..], c);
        assert [c, c] <= d;
        assert d[2..] == Double(s[1..], c);
      } else {
        assert [s[0]] <= s;
        assert s[0] != c;
        assert d == [s[0]] + Double(s[1..], c);
        assert d[0] == s[0];
        assert !([c, c] <= d);
        assert d[1..] == Double(s[1..], c);
      }
    }
  }

  /** Doubling leaves a text without `c` unchanged. */
  lemma {:induction false} DoubleAbsent(s: string, c: char)
    requires forall i :: 0 <= i < |s| ==> s[i] != c
    ensures Double(s, c) == s
    decreases |s|
  {
    if |s| > 0 {
      assert !([c] <= s) by {
        assert s[0] != c;
      }
      DoubleAbsent(s[1..], c);
    }
  }

  /** Doubling never shortens a text. */
  lemma {:induction false} DoubleLength(s: string, c: char)
    ensures |Double(s, c)| >= |s|
    decreases |s|
  {
    if |s| > 0 {
      DoubleLength(s[1..], c);
    }
  }

  /** A name `qt` quotes comes back by dropping the outer quotes and halving `""`. */
  lemma QtQuotedRoundTrip(n: string)
    requires n != "" && !Bare(n)
    requires Qt(Some(n)).Ok?
    ensures var q := Qt(Some(n)).value;
            q == Quoted(n) && Halve(q[1..|q| - 1], '"') == n
  {
    var q := Quoted(n);
    assert q[1..|q| - 1] == Double(n, '"');
    HalveDouble(n, '"');
  }

  /** The length limit applies after quoting: a 63-character name that needs quotes is
      65 characters quoted and is refused. */
  lemma QuotedLengthCounts(n: string)
    requires |n| == MaxIdentifier - 1 && IsDigit(n[0])
    ensures Qt(Some(n)).Err?
  {
    assert !PlainIdent(n);
    assert !PlainIdent(n[..|n| - 1]);
    DoubleLength(n, '"');
  }

  /** A keyword is quoted whatever its case: `"` around it, nothing inside doubled. */
  lemma KeywordQuoted(n: string)
    requires n != "" && AsciiUpper(n) in Keywords && |n| + 2 <= MaxIdentifier
    ensures !Bare(n)
    ensures Qt(Some(n)) == Ok("\"" + n + "\"")
  {
    KeywordsShaped();
    var u := AsciiUpper(n);
    forall i | 0 <= i < |n|
      ensures n[i] != '"'
    {
      assert u[i] == AsciiUpperChar(n[i]);
    }
    DoubleAbsent(n, '"');
  }

  /** The pattern's `$` also matches before a final newline, so an identifier followed by
      a newline is left bare, keyword or not: `qt("select\n")` hands back `select` and a
      line break unquoted. */
  lemma NewlineKeywordUnquoted(k: string)
    requires PlainIdent(k) && |k| < MaxIdentifier
    ensures Bare(k + "\n")
    ensures Qt(Some(k + "\n")) == Ok(k + "\n")
  {
    var nl := k + "\n";
    assert nl[..|nl| - 1] == k;
    assert MatchesUnquoted(nl);
    KeywordsShaped();
    var u := AsciiUpper(nl);
    assert u[|k|] == '\n';
    assert !KeywordShaped(u);
  }

  // ---------------------------------------------------------------------------
  // Column definitions

  /** A row of `PRAGMA table_info`: `notnull` and `pk` as their truth values, the
      default as the SQL text SQLite keeps, when there is one. */
  datatype ColumnInfo = ColumnInfo(cid: int, name: string, colType: string, notNull: bool, default: Option<string>, pk: bool)

  /** `str(dflt).startswith("'") and str(dflt).endswith("'")`: a lone `'` counts. */
  predicate SingleQuoted(v: string) {
    |v| > 0 && v[0] == '\'' && v[|v| - 1] == '\''
  }

  /** The `DEFAULT` clause, if any. */
  function DefaultClause(c: ColumnInfo): (r: string)
    ensures c.default.None? ==> r == ""
    ensures c.default.Some? ==> " DEFAULT " <= r
    ensures c.default.Some? && !(c.colType != "" && AsciiUpper(c.colType) == "TEXT" && !SingleQuoted(c.default.value)) ==>
      r == " DEFAULT " + c.default.value
  {
    match c.default
    case None => ""
    case Some(v) =>
      if c.colType != "" && AsciiUpper(c.colType) == "TEXT" && !SingleQuoted(v) then
        " DEFAULT '" + Double(v, '\'') + "'"
      else " DEFAULT " + v
  }

  /** `text` is `head` followed by clauses that read back as: a key clause iff `pk`, a
      not-null clause (after the key clause, if any) iff `notNull`, and `dflt` at the end. */
  predicate ReadsAs(text: string, head: string, pk: bool, notNull: bool, dflt: string) {
    && head <= text
    && var rest := text[|head|..];
       && (" PRIMARY KEY" <= rest <==> pk)
       && (" NOT NULL" <= rest || " PRIMARY KEY NOT NULL" <= rest <==> notNull)
       && EndsWith(text, dflt)
  }

  /** One column's definition in the new table. `hasPk` tells whether new primary key
      columns were given. */
  function ColumnDef(c: ColumnInfo, hasPk: bool): (r: Result<string>)
    ensures r.Ok? <==> Qt(Some(c.name)).Ok?
    ensures r.Ok? ==> ReadsAs(r.value, Qt(Some(c.name)).value + " " + c.colType, !hasPk && c.pk, c.notNull, DefaultClause(c))
  {
    var n :- Qt(Some(c.name));
    ColumnClauses(n + " " + c.colType, !hasPk && c.pk, c.notNull, DefaultClause(c));
    Ok(n + " " + c.colType
       + (if !hasPk && c.pk then " PRIMARY KEY" else "")
       + (if c.notNull then " NOT NULL" else "")
       + DefaultClause(c))
  }

  /** The clauses after a column's name and type, as they can be read back off the text:
      a key clause, a not-null clause, then a default clause that is empty or starts with
      ` DEFAULT`. */
  lemma ColumnClauses(head: string, pk: bool, notNull: bool, dflt: string)
    requires dflt == "" || " DEFAULT " <= dflt
    ensures ReadsAs(head + (if pk then " PRIMARY KEY" else "") + (if notNull then " NOT NULL" else "") + dflt, head, pk, notNull, dflt)
  {
    var rest := (if pk then " PRIMARY KEY" else "") + (if notNull then " NOT NULL" else "") + dflt;
    var r := head + rest;
    assert head + (if pk then " PRIMARY KEY" else "") + (if notNull then " NOT NULL" else "") + dflt == r;
    assert r[|head|..] == rest;
    assert r[|r| - |dflt|..] == dflt;
    ClausesRead(pk, notNull, dflt);
  }

  /** The key and not-null clauses can be read back off the text that follows the type. */
  lemma ClausesRead(pk: bool, notNull: bool, dflt: string)
    requires dflt == "" || " DEFAULT " <= dflt
    ensures var rest := (if pk then " PRIMARY KEY" else "") + (if notNull then " NOT NULL" else "") + dflt;
      && (" PRIMARY KEY" <= rest <==> pk)
      && (" NOT NULL" <= rest || " PRIMARY KEY NOT NULL" <= rest <==> notNull)
  {
    var rest := (if pk then " PRIMARY KEY" else "") + (if notNull then " NOT NULL" else "") + dflt;
    var d := if dflt == "" then ' ' else dflt[1];
    assert dflt != "" ==> d == 'D';
    if pk && notNull {
      assert rest == " PRIMARY KEY NOT NULL" + dflt;
    } else if pk {
      assert rest == " PRIMARY KEY" + dflt;
      NotPrefixAt(" NOT NULL", rest, 1);
      NotPrefixAt(" PRIMARY KEY NOT NULL", rest, 13);
    } else if notNull {
      assert rest == " NOT NULL" + dflt;
      NotPrefixAt(" PRIMARY KEY", rest, 1);
    } else {
      assert rest == dflt;
      NotPrefixAt(" PRIMARY KEY", rest, 1);
      NotPrefixAt(" NOT NULL", rest, 1);
      NotPrefixAt(" PRIMARY KEY NOT NULL", rest, 1);
    }
  }

  /** A text that is too short for a prefix, or differs from it at one index, does not
      start with it. */
  lemma NotPrefixAt(a: string, s: string, i: nat)
    requires i < |a| && (i >= |s| || s[i] != a[i])
    ensures !(a <= s)
  {
  }

  /** With new primary key columns the old column-level key flag is ignored: the
      definition is the one of the same column without the flag. */
  lemma NewKeyDropsColumnKey(c: ColumnInfo)
    ensures ColumnDef(c, true) == ColumnDef(c.(pk := false), false)
  {
  }

  /** An unquoted text default is wrapped in `'` with inner quotes doubled, and halving
      the inside gives it back. */
  lemma TextDefaultRoundTrip(c: ColumnInfo)
    requires c.default.Some? && c.colType != "" && AsciiUpper(c.colType) == "TEXT" && !SingleQuoted(c.default.value)
    ensures var d := DefaultClause(c);
            var inner := d[|" DEFAULT '"|..|d| - 1];
            d[|d| - 1] == '\'' && Halve(inner, '\'') == c.default.value
  {
    var d := DefaultClause(c);
    assert d[|" DEFAULT '"|..|d| - 1] == Double(c.default.value, '\'');
    HalveDouble(c.default.value, '\'');
  }

  /** The definitions of all columns, in order; the first failing `qt` raises. */
  function ColumnDefs(cols: seq<ColumnInfo>, hasPk: bool): (r: Result<seq<string>>)
    ensures r.Ok? <==> forall i :: 0 <= i < |cols| ==> Qt(Some(cols[i].name)).Ok?
    ensures r.Ok? ==> |r.value| == |cols| && forall i :: 0 <= i < |cols| ==> Ok(r.value[i]) == ColumnDef(cols[i], hasPk)
  {
    MapAll(cols, c => ColumnDef(c, hasPk))
  }

  /** `qt` of every name, in order. */
  function QtAll(names: seq<string>): (r: Result<seq<string>>)
    ensures r.Ok? <==> forall i :: 0 <= i < |names| ==> Qt(Some(names[i])).Ok?
    ensures r.Ok? ==> |r.value| == |names| && forall i :: 0 <= i < |names| ==> Ok(r.value[i]) == Qt(Some(names[i]))
  {
    MapAll(names, n => Qt(Some(n)))
  }

  // ---------------------------------------------------------------------------
  // STRICT detection

  /** What `\w` matches, restricted to ASCII. */
  predicate WordChar(c: char) { IsAsciiLetter(c) || IsDigit(c) || c == '_' }

  /** The end of the whitespace run from `j`. */
  function SpaceEnd(s: string, j: nat): (e: nat)
    requires j <= |s|
    ensures j <= e <= |s| && (e < |s| ==> !PyWhitespace(s[e]))
    ensures forall i :: j <= i < e ==> PyWhitespace(s[i])
    decreases |s| - j
  {
    if j < |s| && PyWhitespace(s[j]) then SpaceEnd(s, j + 1) else j
  }

  /** The end of the line containing index `j` (or the text). */
  function LineEnd(s: string, j: nat): (e: nat)
    requires j <= |s|
    ensures j <= e <= |s| && (e < |s| ==> s[e] == '\n')
    ensures forall i :: j <= i < e ==> s[i] != '\n'
    decreases |s| - j
  {
    if j < |s| && s[j] != '\n' then LineEnd(s, j + 1) else j
  }

  /** `c` matches the upper-case pattern letter `k` under `re.IGNORECASE`: either ASCII
      case, and the extra equivalences of Python's `re` module, `ſ` (U+017F) for S, and
      `ı` (U+0131) and `İ` (U+0130, whose simple lower case is `i`) for I. */
  predicate FoldsTo(c: char, k: char) {
    AsciiUpperChar(c) == k || (k == 'S' && c == '\U{17F}') || (k == 'I' && (c == '\U{131}' || c == '\U{130}'))
  }

  /** `w` is the word `STRICT` as the case-insensitive pattern reads it. */
  predicate StrictWord(w: string) {
    |w| == 6 && forall i :: 0 <= i < 6 ==> FoldsTo(w[i], "STRICT"[i])
  }

  /** `RX_STRICT` matches at `i`: `)`, whitespace, `STRICT` in any case as a whole word,
      and no `)` later on the same line. */
  predicate StrictAt(s: string, i: int) {
    0 <= i < |s| && s[i] == ')'
    && var j := SpaceEnd(s, i + 1);
       j + 6 <= |s| && StrictWord(s[j..j + 6])
       && (j + 6 == |s| || !WordChar(s[j + 6]))
       && forall k :: j + 6 <= k < LineEnd(s, j + 6) ==> s[k] != ')'
  }

  /** `RX_STRICT.search(sql)`, scanning from `i`. */
  function StrictFrom(s: string, i: nat): (b: bool)
    requires i <= |s|
    ensures b <==> exists k :: i <= k < |s| && StrictAt(s, k)
    decreases |s| - i
  {
    if i == |s| then false
    else if StrictAt(s, i) then true
    else
      var b := StrictFrom(s, i + 1);
      assert forall k :: i <= k < |s| && StrictAt(s, k) ==> k == i || i + 1 <= k;
      b
  }

  function IsStrict(sql: Option<string>): (b: bool)
    ensures b <==> sql.Some? && exists k :: StrictAt(sql.value, k)
  {
    sql.Some? && StrictFrom(sql.value, 0)
  }

  /** A definition closed by `) STRICT` is strict, whatever precedes it. */
  lemma StrictDetected(body: string)
    ensures IsStrict(Some(body + ") STRICT"))
  {
    var s := body + ") STRICT";
    var k := |body|;
    assert s[k] == ')';
    assert SpaceEnd(s, k + 2) == k + 2;
    assert SpaceEnd(s, k + 1) == k + 2;
    assert s[k + 2..k + 8] == "STRICT";
    assert StrictAt(s, k);
  }

  /** The keyword matches in any case and needs no space before it. */
  lemma StrictAnyCase(body: string)
    ensures IsStrict(Some(body + ")strict;"))
  {
    var s := body + ")strict;";
    var k := |body|;
    assert s[k] == ')';
    assert SpaceEnd(s, k + 1) == k + 1;
    assert s[k + 1..k + 7] == "strict";
    assert StrictWord("strict");
    assert LineEnd(s, k + 8) == k + 8;
    assert LineEnd(s, k + 7) == k + 8;
    assert StrictAt(s, k);
  }

  /** Whitespace before the keyword may include a line break, and `re.IGNORECASE`
      accepts the long s and the dotless i: `)` newline `ſtrıct` is strict. */
  lemma StrictUnicodeFold(body: string)
    ensures IsStrict(Some(body + ")\n\U{17F}tr\U{131}ct"))
  {
    var s := body + ")\n\U{17F}tr\U{131}ct";
    var k := |body|;
    assert s[k] == ')' && s[k + 1] == '\n';
    assert SpaceEnd(s, k + 2) == k + 2;
    assert SpaceEnd(s, k + 1) == k + 2;
    assert s[k + 2..k + 8] == "\U{17F}tr\U{131}ct";
    assert StrictWord("\U{17F}tr\U{131}ct");
    assert LineEnd(s, k + 8) == k + 8;
    assert StrictAt(s, k);
  }

  /** A longer word is not the keyword. */
  lemma StrictWholeWord(body: string)
    requires forall i :: 0 <= i < |body| ==> body[i] != ')'
    ensures !IsStrict(Some(body + ") STRICTLY"))
  {
    var s := body + ") STRICTLY";
    var k0 := |body|;
    assert forall k :: 0 <= k < k0 ==> s[k] == body[k];
    assert forall k :: k0 < k < |s| ==> s[k] != ')';
    forall k | 0 <= k < |s| && s[k] == ')' ensures !StrictAt(s, k) {
      if k == k0 {
        assert SpaceEnd(s, k0 + 2) == k0 + 2;
        assert SpaceEnd(s, k0 + 1) == k0 + 2;
        assert WordChar(s[k0 + 8]);
      }
    }
  }

  /** A `)` later on the same line rules the match out. */
  lemma StrictLastParenthesis(body: string)
    requires forall i :: 0 <= i < |body| ==> body[i] != ')'
    ensures !IsStrict(Some(body + ") STRICT, (b)"))
  {
    var s := body + ") STRICT, (b)";
    var k0 := |body|;
    assert forall k :: 0 <= k < k0 ==> s[k] == body[k];
    assert forall k :: k0 < k < |s| - 1 ==> s[k] != ')';
    forall k | 0 <= k < |s| && s[k] == ')' ensures !StrictAt(s, k) {
      if k == k0 {
        LaterParenthesis(body);
      } else if k == |s| - 1 {
        assert SpaceEnd(s, |s|) == |s|;
      }
    }
  }

  lemma LaterParenthesis(body: string)
    ensures !StrictAt(body + ") STRICT, (b)", |body|)
  {
    var s := body + ") STRICT, (b)";
    var k0 := |body|;
    assert SpaceEnd(s, k0 + 2) == k0 + 2;
    assert SpaceEnd(s, k0 + 1) == k0 + 2;
    assert s[k0 + 8..] == ", (b)";
    assert LineEnd(s, k0 + 8) == |s| by {
      assert forall i :: k0 + 8 <= i < |s| ==> s[i] != '\n';
      LineEndNoBreak(s, k0 + 8);
    }
    assert s[|s| - 1] == ')';
  }

  /** Without a line break the line runs to the end of the text. */
  lemma {:induction false} LineEndNoBreak(s: string, j: nat)
    requires j <= |s|
    requires forall i :: j <= i < |s| ==> s[i] != '\n'
    ensures LineEnd(s, j) == |s|
    decreases |s| - j
  {
    if j < |s| {
      LineEndNoBreak(s, j + 1);
    }
  }

  // ---------------------------------------------------------------------------
  // The plan

  /** A row of the `sqlite_master` query: type, name and SQL. */
  datatype MasterEntry = MasterEntry(kind: string, name: string, sql: string)

  /** What the scan of `sqlite_master` collects. `kept` lists, in order, the column sets
      of the unique constraints the new table gets so far, and `covered` is the set of
      them (`all_covered_unique_column_sets`). */
  datatype Scan = Scan(covered: set<set<string>>, original: Option<string>, indexes: seq<string>, triggers: seq<string>, kept: seq<set<string>>)

  /** No column set occurs twice. */
  predicate Distinct(sets: seq<set<string>>) {
    forall i, j :: 0 <= i < j < |sets| ==> sets[i] != sets[j]
  }

  /** The bookkeeping the scan keeps: the covered sets are exactly the kept ones, each
      once. */
  predicate Tracks(covered: set<set<string>>, kept: seq<set<string>>) {
    covered == (set k | k in kept) && Distinct(kept)
  }

  /** Adding a set not covered yet keeps the bookkeeping. */
  lemma TracksAdd(covered: set<set<string>>, kept: seq<set<string>>, cols: set<string>)
    requires cols !in covered
    ensures Tracks(covered, kept) ==> Tracks(covered + {cols}, kept + [cols])
  {
    var k2 := kept + [cols];
    if Tracks(covered, kept) {
      assert forall i :: 0 <= i < |kept| ==> k2[i] == kept[i];
      assert forall i :: 0 <= i < |kept| ==> kept[i] in covered;
    }
    assert (set k | k in k2) == (set k | k in kept) + {cols} by {
      assert forall k :: k in k2 <==> k in kept || k == cols;
    }
  }

  /** The columns of an index as `PRAGMA index_info` lists them; none for an unknown index. */
  function IndexColumns(info: map<string, seq<string>>, name: string): set<string> {
    if name in info then set c | c in info[name] else {}
  }

  /** Whether `PRAGMA index_list` reports the index as unique. */
  predicate UniqueIndex(isUnique: map<string, int>, name: string) {
    name in isUnique && isUnique[name] == 1
  }

  /** One row of the loop over `sqlite_master`. */
  function ScanStep(e: MasterEntry, table: string, isUnique: map<string, int>, info: map<string, seq<string>>, st: Scan): (r: Scan)
    ensures Tracks(st.covered, st.kept) ==> Tracks(r.covered, r.kept)
    ensures st.covered <= r.covered && st.kept <= r.kept
    ensures r.triggers == st.triggers + (if e.kind == "trigger" then [e.sql] else [])
    ensures r.original == (if e.kind == "table" && e.name == table then Some(e.sql) else st.original)
    ensures e.kind == "index" && !UniqueIndex(isUnique, e.name) ==> r.indexes == st.indexes + [e.sql]
    ensures e.kind == "index" && UniqueIndex(isUnique, e.name) ==>
      (r.indexes == st.indexes + [e.sql] <==> IndexColumns(info, e.name) !in st.covered)
    ensures e.kind != "index" ==> r.indexes == st.indexes && r.covered == st.covered && r.kept == st.kept
  {
    if e.kind == "table" && e.name == table then st.(original := Some(e.sql))
    else if e.kind == "index" then
      if UniqueIndex(isUnique, e.name) then
        var cols := IndexColumns(info, e.name);
        if cols in st.covered then st
        else
          TracksAdd(st.covered, st.kept, cols);
          st.(covered := st.covered + {cols}, indexes := st.indexes + [e.sql], kept := st.kept + [cols])
      else st.(indexes := st.indexes + [e.sql])
    else if e.kind == "trigger" then st.(triggers := st.triggers + [e.sql])
    else st
  }

  /** The loop over `sqlite_master`. */
  function ScanMaster(entries: seq<MasterEntry>, table: string, isUnique: map<string, int>, info: map<string, seq<string>>, st: Scan): (r: Scan)
    ensures Tracks(st.covered, st.kept) ==> Tracks(r.covered, r.kept)
    ensures st.covered <= r.covered && st.kept <= r.kept
    decreases |entries|
  {
    if |entries| == 0 then st
    else ScanMaster(entries[1..], table, isUnique, info, ScanStep(entries[0], table, isUnique, info, st))
  }

  /** The triggers, in the order `sqlite_master` lists them. */
  function Triggers(entries: seq<MasterEntry>): seq<string> {
    if |entries| == 0 then []
    else (if entries[0].kind == "trigger" then [entries[0].sql] else []) + Triggers(entries[1..])
  }

  /** Every trigger is restored, in order, and nothing else lands among them. */
  lemma {:induction false} ScanKeepsTriggers(entries: seq<MasterEntry>, table: string, isUnique: map<string, int>, info: map<string, seq<string>>, st: Scan)
    ensures ScanMaster(entries, table, isUnique, info, st).triggers == st.triggers + Triggers(entries)
    decreases |entries|
  {
    if |entries| > 0 {
      var next := ScanStep(entries[0], table, isUnique, info, st);
      ScanKeepsTriggers(entries[1..], table, isUnique, info, next);
    }
  }

  /** The table's SQL the scan finds: that of the last `table` row with the table's name. */
  function OriginalSql(entries: seq<MasterEntry>, table: string, found: Option<string>): Option<string>
    decreases |entries|
  {
    if |entries| == 0 then found
    else OriginalSql(entries[1..], table, if entries[0].kind == "table" && entries[0].name == table then Some(entries[0].sql) else found)
  }

  lemma {:induction false} ScanFindsOriginal(entries: seq<MasterEntry>, table: string, isUnique: map<string, int>, info: map<string, seq<string>>, st: Scan)
    ensures ScanMaster(entries, table, isUnique, info, st).original == OriginalSql(entries, table, st.original)
    decreases |entries|
  {
    if |entries| > 0 {
      var next := ScanStep(entries[0], table, isUnique, info, st);
      ScanFindsOriginal(entries[1..], table, isUnique, info, next);
    }
  }

  /** An index `PRAGMA index_list` does not call unique is always restored. */
  lemma {:induction false} ScanKeepsPlainIndex(entries: seq<MasterEntry>, table: string, isUnique: map<string, int>, info: map<string, seq<string>>, st: Scan, i: nat)
    requires i < |entries| && entries[i].kind == "index" && !UniqueIndex(isUnique, entries[i].name)
    ensures entries[i].sql in ScanMaster(entries, table, isUnique, info, st).indexes
    decreases i
  {
    var next := ScanStep(entries[0], table, isUnique, info, st);
    if i == 0 {
      ScanIndexesGrow(entries[1..], table, isUnique, info, next);
      assert entries[0].sql == next.indexes[|next.indexes| - 1];
    } else {
      ScanKeepsPlainIndex(entries[1..], table, isUnique, info, next, i - 1);
    }
  }

  lemma {:induction false} ScanIndexesGrow(entries: seq<MasterEntry>, table: string, isUnique: map<string, int>, info: map<string, seq<string>>, st: Scan)
    ensures st.indexes <= ScanMaster(entries, table, isUnique, info, st).indexes
    decreases |entries|
  {
    if |entries| > 0 {
      var next := ScanStep(entries[0], table, isUnique, info, st);
      ScanIndexesGrow(entries[1..], table, isUnique, info, next);
    }
  }

  /** The set of a column list, as `frozenset` makes it. */
  function ColSet(uc: seq<string>): set<string> {
    set c | c in uc
  }

  /** The stand-alone index for a requested unique column list: named `idx_u_<table>_<cols>`
      with the columns joined by `_`, on the quoted table, over the quoted columns in the
      order given. */
  function UniqueIndexStmt(uc: seq<string>, table: string, quotedTable: string): (r: Result<string>)
    ensures r.Ok? <==> QtAll(uc).Ok? && Qt(Some("idx_u_" + table + "_" + Join(uc, "_"))).Ok?
    ensures r.Ok? ==>
      r.value == "CREATE UNIQUE INDEX " + Qt(Some("idx_u_" + table + "_" + Join(uc, "_"))).value
                 + " ON " + quotedTable + " (" + Join(QtAll(uc).value, ", ") + ");"
  {
    var quoted :- QtAll(uc);
    var name :- Qt(Some("idx_u_" + table + "_" + Join(uc, "_")));
    Ok("CREATE UNIQUE INDEX " + name + " ON " + quotedTable + " (" + Join(quoted, ", ") + ");")
  }

  /** The loop over the requested unique column lists: a `CREATE UNIQUE INDEX` for each
      whose column set is not covered yet. The result is the covered sets, the kept sets
      and the statements. */
  function ExplicitUnique(uniques: seq<seq<string>>, table: string, quotedTable: string, covered: set<set<string>>, kept: seq<set<string>>, stmts: seq<string>): (r: Result<(set<set<string>>, seq<set<string>>, seq<string>)>)
    ensures r.Ok? && Tracks(covered, kept) ==> Tracks(r.value.0, r.value.1)
    ensures r.Ok? ==> covered <= r.value.0 && kept <= r.value.1 && stmts <= r.value.2
    ensures r.Ok? ==> |r.value.1| - |kept| == |r.value.2| - |stmts|
    decreases |uniques|
  {
    if |uniques| == 0 then Ok((covered, kept, stmts))
    else
      var uc := uniques[0];
      var cols := ColSet(uc);
      if cols in covered then ExplicitUnique(uniques[1..], table, quotedTable, covered, kept, stmts)
      else
        var stmt :- UniqueIndexStmt(uc, table, quotedTable);
        TracksAdd(covered, kept, cols);
        ExplicitUnique(uniques[1..], table, quotedTable, covered + {cols}, kept + [cols], stmts + [stmt])
  }

  /** The column sets of the requested lists. */
  function Requested(uniques: seq<seq<string>>): (r: set<set<string>>)
    ensures forall i :: 0 <= i < |uniques| ==> ColSet(uniques[i]) in r
    ensures forall x :: x in r ==> exists i :: 0 <= i < |uniques| && ColSet(uniques[i]) == x
  {
    if |uniques| == 0 then {}
    else
      var tail := uniques[1..];
      assert forall i :: 0 < i < |uniques| ==> uniques[i] == tail[i - 1];
      assert forall i :: 0 <= i < |tail| ==> tail[i] == uniques[i + 1];
      {ColSet(uniques[0])} + Requested(tail)
  }

  /** After the requested lists are processed every requested set is covered, and
      nothing else is. */
  lemma {:induction false} ExplicitUniqueCovers(uniques: seq<seq<string>>, table: string, quotedTable: string,
                                                covered: set<set<string>>, kept: seq<set<string>>, stmts: seq<string>)
    requires ExplicitUnique(uniques, table, quotedTable, covered, kept, stmts).Ok?
    ensures ExplicitUnique(uniques, table, quotedTable, covered, kept, stmts).value.0 == covered + Requested(uniques)
    decreases |uniques|
  {
    if |uniques| > 0 {
      var cols := ColSet(uniques[0]);
      if cols in covered {
        ExplicitUniqueCovers(uniques[1..], table, quotedTable, covered, kept, stmts);
      } else {
        var stmt := UniqueIndexStmt(uniques[0], table, quotedTable).value;
        ExplicitUniqueCovers(uniques[1..], table, quotedTable, covered + {cols}, kept + [cols], stmts + [stmt]);
      }
    }
  }

  /** The index each requested list would get, in request order. */
  function IndexStmts(uniques: seq<seq<string>>, table: string, quotedTable: string): (r: seq<Result<string>>)
    ensures |r| == |uniques|
    ensures forall i :: 0 <= i < |uniques| ==> r[i] == UniqueIndexStmt(uniques[i], table, quotedTable)
  {
    seq(|uniques|, i requires 0 <= i < |uniques| => UniqueIndexStmt(uniques[i], table, quotedTable))
  }

  /** Statement `stmt`, recording set `cols`, is the index `cands[i]` of requested list i,
      whose set was not covered before. */
  predicate Origin(uniques: seq<seq<string>>, cands: seq<Result<string>>, i: int,
                   covered: set<set<string>>, stmt: string, cols: set<string>) {
    0 <= i < |uniques| && i < |cands| && ColSet(uniques[i]) !in covered && cols == ColSet(uniques[i])
    && cands[i] == Ok(stmt)
  }

  /** Some requested list is the origin of `stmt` and `cols`. */
  ghost predicate HasOrigin(uniques: seq<seq<string>>, cands: seq<Result<string>>,
                            covered: set<set<string>>, stmt: string, cols: set<string>) {
    exists i :: Origin(uniques, cands, i, covered, stmt, cols)
  }

  /** Every statement in `added` has its origin in a requested list, with the matching
      entry of `sets` as its recorded set. */
  ghost predicate FromRequests(uniques: seq<seq<string>>, cands: seq<Result<string>>,
                               covered: set<set<string>>, added: seq<string>, sets: seq<set<string>>) {
    |added| == |sets| && forall j :: 0 <= j < |added| ==> HasOrigin(uniques, cands, covered, added[j], sets[j])
  }

  /** A list whose set is already covered adds nothing: origins in the rest are origins. */
  lemma FromRequestsSkip(uniques: seq<seq<string>>, cands: seq<Result<string>>,
                         covered: set<set<string>>, added: seq<string>, sets: seq<set<string>>)
    requires |uniques| > 0 && |cands| > 0 && FromRequests(uniques[1..], cands[1..], covered, added, sets)
    ensures FromRequests(uniques, cands, covered, added, sets)
  {
    forall j | 0 <= j < |added|
      ensures HasOrigin(uniques, cands, covered, added[j], sets[j])
    {
      var i :| Origin(uniques[1..], cands[1..], i, covered, added[j], sets[j]);
      assert uniques[1..][i] == uniques[i + 1] && cands[1..][i] == cands[i + 1];
      assert Origin(uniques, cands, i + 1, covered, added[j], sets[j]);
    }
  }

  /** A list whose set is new puts its own statement first, ahead of the rest's. */
  lemma FromRequestsAdd(uniques: seq<seq<string>>, cands: seq<Result<string>>, covered: set<set<string>>,
                        stmt: string, added: seq<string>, sets: seq<set<string>>)
    requires |uniques| > 0 && Origin(uniques, cands, 0, covered, stmt, ColSet(uniques[0]))
    requires FromRequests(uniques[1..], cands[1..], covered + {ColSet(uniques[0])}, added, sets)
    ensures FromRequests(uniques, cands, covered, [stmt] + added, [ColSet(uniques[0])] + sets)
  {
    var added' := [stmt] + added;
    var sets' := [ColSet(uniques[0])] + sets;
    forall j | 0 <= j < |added'|
      ensures HasOrigin(uniques, cands, covered, added'[j], sets'[j])
    {
      if j == 0 {
        assert Origin(uniques, cands, 0, covered, added'[j], sets'[j]);
      } else {
        var i :| Origin(uniques[1..], cands[1..], i, covered + {ColSet(uniques[0])}, added[j - 1], sets[j - 1]);
        assert uniques[1..][i] == uniques[i + 1] && cands[1..][i] == cands[i + 1];
        assert added'[j] == added[j - 1] && sets'[j] == sets[j - 1];
        assert Origin(uniques, cands, i + 1, covered, added'[j], sets'[j]);
      }
    }
  }

  /** What follows a prefix ending in `x` starts with `x`. */
  lemma SliceAfter<T>(a: seq<T>, b: seq<T>, x: T)
    requires a + [x] <= b
    ensures b[|a|..] == [x] + b[|a| + 1..]
  {
    assert b[|a|] == (a + [x])[|a|];
  }

  /** Each statement added is the index of a requested list whose set was not covered
      before, and the set recorded with it is that list's. */
  lemma {:induction false} ExplicitUniqueStatements(uniques: seq<seq<string>>, table: string, quotedTable: string,
                                                    covered: set<set<string>>, kept: seq<set<string>>, stmts: seq<string>)
    requires ExplicitUnique(uniques, table, quotedTable, covered, kept, stmts).Ok?
    ensures var v := ExplicitUnique(uniques, table, quotedTable, covered, kept, stmts).value;
      FromRequests(uniques, IndexStmts(uniques, table, quotedTable), covered, v.2[|stmts|..], v.1[|kept|..])
    decreases |uniques|
  {
    var v := ExplicitUnique(uniques, table, quotedTable, covered, kept, stmts).value;
    var cands := IndexStmts(uniques, table, quotedTable);
    if |uniques| == 0 {
      assert v.2[|stmts|..] == [];
    } else {
      var cols := ColSet(uniques[0]);
      assert IndexStmts(uniques[1..], table, quotedTable) == cands[1..];
      if cols in covered {
        ExplicitUniqueStatements(uniques[1..], table, quotedTable, covered, kept, stmts);
        FromRequestsSkip(uniques, cands, covered, v.2[|stmts|..], v.1[|kept|..]);
      } else {
        var stmt := UniqueIndexStmt(uniques[0], table, quotedTable).value;
        ExplicitUniqueStatements(uniques[1..], table, quotedTable, covered + {cols}, kept + [cols], stmts + [stmt]);
        SliceAfter(stmts, v.2, stmt);
        SliceAfter(kept, v.1, cols);
        FromRequestsAdd(uniques, cands, covered, stmt, v.2[|stmts| + 1..], v.1[|kept| + 1..]);
      }
    }
  }

  /** A requested set that was not covered before is among the sets recorded anew, each
      of which has its index statement beside it. */
  lemma UncoveredGetsIndex(uniques: seq<seq<string>>, table: string, quotedTable: string,
                           covered: set<set<string>>, kept: seq<set<string>>, stmts: seq<string>, i: nat)
    requires ExplicitUnique(uniques, table, quotedTable, covered, kept, stmts).Ok?
    requires Tracks(covered, kept)
    requires i < |uniques| && ColSet(uniques[i]) !in covered
    ensures ColSet(uniques[i]) in ExplicitUnique(uniques, table, quotedTable, covered, kept, stmts).value.1[|kept|..]
  {
    var v := ExplicitUnique(uniques, table, quotedTable, covered, kept, stmts).value;
    var x := ColSet(uniques[i]);
    ExplicitUniqueCovers(uniques, table, quotedTable, covered, kept, stmts);
    assert x in Requested(uniques);
    assert x in v.0;
    assert x in v.1;
    assert x !in kept;
    assert v.1 == kept + v.1[|kept|..];
  }

  /** The planned statements. `uniqueSets` lists the column sets of the unique
      constraints the new table gets: the primary key's, the restored unique indexes',
      then the requested ones'. */
  datatype Plan = Plan(
    createTable: string,
    quotedTable: string,
    newTable: string,
    columnNames: seq<string>,
    uniqueIndexes: seq<string>,
    indexes: seq<string>,
    triggers: seq<string>,
    uniqueSets: seq<set<string>>)

  /** The `CREATE TABLE` statement of the new table. */
  function CreateTable(newTable: string, defs: seq<string>, pkClause: string, strict: bool): (r: string)
    ensures EndsWith(r, " STRICT") <==> strict
    ensures var head := "CREATE TABLE " + newTable + " (\n" + Join(defs, ",\n");
      head + pkClause <= r && r[|head| + |pkClause|..] == "\n)" + (if strict then " STRICT" else "")
  {
    var body := "CREATE TABLE " + newTable + " (\n" + Join(defs, ",\n") + pkClause + "\n)";
    var r := body + (if strict then " STRICT" else "");
    assert body[|body| - 1] == ')';
    assert r[..|body|] == body;
    assert strict ==> r[|r| - 7..] == " STRICT";
    assert !strict ==> r[|r| - 1] == ')';
    r
  }

  /** The scan of `sqlite_master`, starting from the primary key's column set when new
      primary key columns are given. */
  function Collect(master: seq<MasterEntry>, table: string, isUnique: map<string, int>, info: map<string, seq<string>>, pk: seq<string>): (r: Scan)
    ensures Tracks(r.covered, r.kept)
    ensures pk != [] ==> |r.kept| > 0 && r.kept[0] == set c | c in pk
    ensures r.triggers == Triggers(master)
    ensures r.original == OriginalSql(master, table, None)
  {
    var pkSets: seq<set<string>> := if pk != [] then [set c | c in pk] else [];
    var start := Scan((set k | k in pkSets), None, [], [], pkSets);
    ScanKeepsTriggers(master, table, isUnique, info, start);
    ScanFindsOriginal(master, table, isUnique, info, start);
    ScanMaster(master, table, isUnique, info, start)
  }

  /** The new table's name and `CREATE TABLE` statement (lines 74-161), once the
      columns are known and the original's strictness is decided. */
  datatype Ddl = Ddl(names: seq<string>, newTable: string, create: string)

  /** The first line of the new table's DDL and its column definitions. */
  function DdlHead(newTable: string, columns: seq<ColumnInfo>, hasPk: bool): string
    requires ColumnDefs(columns, hasPk).Ok?
  {
    "CREATE TABLE " + newTable + " (\n" + Join(ColumnDefs(columns, hasPk).value, ",\n")
  }

  function TableDdl(table: string, pk: seq<string>, columns: seq<ColumnInfo>, strict: bool): (r: Result<Ddl>)
    ensures r.Ok? ==> ColumnDefs(columns, pk != []).Ok? && |r.value.names| == |columns|
    ensures r.Ok? ==> (EndsWith(r.value.create, " STRICT") <==> strict)
    ensures r.Ok? ==>
      var head := DdlHead(r.value.newTable, columns, pk != []);
      head <= r.value.create
      && (pk != [] ==> head + ",\nPRIMARY KEY (" <= r.value.create)
      && (pk == [] ==> r.value.create[|head|..] == "\n)" || r.value.create[|head|..] == "\n) STRICT")
  {
    var defs :- ColumnDefs(columns, pk != []);
    var names :- QtAll(ColumnNames(columns));
    var newTable :- Qt(Some(table + "_new_with_constraints"));
    var pkClause :- if pk != [] then PkClause(pk) else Ok("");
    Ok(DdlFrom(names, newTable, defs, pkClause, pk != [], strict))
  }

  /** The column names, in order. */
  function ColumnNames(columns: seq<ColumnInfo>): (r: seq<string>)
    ensures |r| == |columns| && forall i :: 0 <= i < |columns| ==> r[i] == columns[i].name
  {
    seq(|columns|, i requires 0 <= i < |columns| => columns[i].name)
  }

  /** The statement assembled from its parts: the column definitions, the primary key
      clause when new key columns are given, and `STRICT` when the original was. */
  function DdlFrom(names: seq<string>, newTable: string, defs: seq<string>, pkClause: string, hasPk: bool, strict: bool): (r: Ddl)
    requires hasPk ==> ",\nPRIMARY KEY (" <= pkClause
    requires !hasPk ==> pkClause == ""
    ensures r.names == names && r.newTable == newTable
    ensures EndsWith(r.create, " STRICT") <==> strict
    ensures var head := "CREATE TABLE " + newTable + " (\n" + Join(defs, ",\n");
      head <= r.create
      && (hasPk ==> head + ",\nPRIMARY KEY (" <= r.create)
      && (!hasPk ==> r.create[|head|..] == "\n)" || r.create[|head|..] == "\n) STRICT")
  {
    var create := CreateTable(newTable, defs, pkClause, strict);
    KeyClausePlaced("CREATE TABLE " + newTable + " (\n" + Join(defs, ",\n"), pkClause, create, hasPk);
    Ddl(names, newTable, create)
  }

  /** Lines 55-183 of `recreate_table`: everything up to executing the statements.
      `pk` and `uniques` are empty when not given. */
  function PlanRecreate(table: string, pk: seq<string>, uniques: seq<seq<string>>, columns: seq<ColumnInfo>,
                        master: seq<MasterEntry>, isUnique: map<string, int>, info: map<string, seq<string>>): (r: Result<Plan>)
    ensures Qt(Some(table)).Err? ==> r.Err?
    ensures columns == [] ==> r.Err?
    ensures r.Ok? ==> Distinct(r.value.uniqueSets)
    ensures r.Ok? && pk != [] ==> |r.value.uniqueSets| > 0 && r.value.uniqueSets[0] == set c | c in pk
    ensures r.Ok? ==> |r.value.columnNames| == |columns|
    ensures r.Ok? ==> r.value.triggers == Triggers(master)
    ensures r.Ok? ==> (EndsWith(r.value.createTable, " STRICT") <==> IsStrict(OriginalSql(master, table, None)))
    ensures r.Ok? ==> ColumnDefs(columns, pk != []).Ok?
    ensures r.Ok? ==>
      var head := DdlHead(r.value.newTable, columns, pk != []);
      head <= r.value.createTable
      && (pk != [] ==> head + ",\nPRIMARY KEY (" <= r.value.createTable)
      && (pk == [] ==> r.value.createTable[|head|..] == "\n)" || r.value.createTable[|head|..] == "\n) STRICT")
  {
    var quotedTable :- Qt(Some(table));
    if columns == [] then Err("ValueError: table does not exist or has no columns")
    else
      var scan := Collect(master, table, isUnique, info, pk);
      var ddl :- TableDdl(table, pk, columns, IsStrict(scan.original));
      var explicit :- ExplicitUnique(uniques, table, quotedTable, scan.covered, scan.kept, []);
      Ok(Plan(ddl.create, quotedTable, ddl.newTable, ddl.names, explicit.2, scan.indexes, scan.triggers, explicit.1))
  }

  lemma KeyClausePlaced(head: string, pkClause: string, create: string, hasPk: bool)
    requires head + pkClause <= create
    requires hasPk ==> ",\nPRIMARY KEY (" <= pkClause
    requires !hasPk ==> pkClause == ""
    requires create[|head| + |pkClause|..] == "\n)" || create[|head| + |pkClause|..] == "\n) STRICT"
    ensures head <= create
    ensures hasPk ==> head + ",\nPRIMARY KEY (" <= create
    ensures !hasPk ==> create[|head|..] == "\n)" || create[|head|..] == "\n) STRICT"
  {
    assert create[..|head|] == (head + pkClause)[..|head|] == head;
    if hasPk {
      var k := ",\nPRIMARY KEY (";
      assert create[..|head| + |k|] == (head + pkClause)[..|head| + |k|] == head + k;
    }
  }

  /** Rows that are no indexes leave the indexes and the unique bookkeeping alone. */
  lemma {:induction false} ScanWithoutIndexes(entries: seq<MasterEntry>, table: string, isUnique: map<string, int>, info: map<string, seq<string>>, st: Scan)
    requires forall i :: 0 <= i < |entries| ==> entries[i].kind != "index"
    ensures var r := ScanMaster(entries, table, isUnique, info, st);
            r.indexes == st.indexes && r.covered == st.covered && r.kept == st.kept
    decreases |entries|
  {
    if |entries| > 0 {
      ScanWithoutIndexes(entries[1..], table, isUnique, info, ScanStep(entries[0], table, isUnique, info, st));
    }
  }

  /** SQLite keeps an in-line `UNIQUE` constraint as an index without SQL, which the
      `sql IS NOT NULL` query never returns: however `PRAGMA index_list` and
      `PRAGMA index_info` describe it, a table whose `sqlite_master` rows hold no index
      gets no index and no unique constraint at all when no new ones are requested. */
  lemma InlineUniqueNotRestored(table: string, columns: seq<ColumnInfo>, master: seq<MasterEntry>,
                                isUnique: map<string, int>, info: map<string, seq<string>>)
    requires forall i :: 0 <= i < |master| ==> master[i].kind != "index"
    requires PlanRecreate(table, [], [], columns, master, isUnique, info).Ok?
    ensures var p := PlanRecreate(table, [], [], columns, master, isUnique, info).value;
            p.indexes == [] && p.uniqueIndexes == [] && p.uniqueSets == []
  {
    var start := Scan({}, None, [], [], []);
    assert (set k: set<string> | k in []) == {};
    ScanWithoutIndexes(master, table, isUnique, info, start);
  }

  /** A requested unique constraint over the primary key's columns, in any order, adds no
      index: the column sets are compared, not the lists. */
  lemma ReorderedKeyNotRepeated(table: string, pk: seq<string>, uc: seq<string>, columns: seq<ColumnInfo>,
                                master: seq<MasterEntry>, isUnique: map<string, int>, info: map<string, seq<string>>)
    requires pk != [] && (set c | c in uc) == (set c | c in pk)
    requires PlanRecreate(table, pk, [uc], columns, master, isUnique, info).Ok?
    ensures PlanRecreate(table, pk, [uc], columns, master, isUnique, info).value.uniqueIndexes == []
  {
    var scan := Collect(master, table, isUnique, info, pk);
    assert scan.kept[0] in scan.covered;
    var q := Qt(Some(table)).value;
    assert ExplicitUnique([uc], table, q, scan.covered, scan.kept, []) == ExplicitUnique([], table, q, scan.covered, scan.kept, []);
  }

  /** The table-level primary key clause. */
  function PkClause(pk: seq<string>): (r: Result<string>)
    ensures r.Ok? <==> forall i :: 0 <= i < |pk| ==> Qt(Some(pk[i])).Ok?
    ensures r.Ok? ==> ",\nPRIMARY KEY (" <= r.value
  {
    var q :- QtAll(pk);
    Ok(",\nPRIMARY KEY (" + Join(q, ", ") + ")")
  }
}

=== FILE: tee.dfy ===
/** The tee of logrep/tee.py: every write goes to a log file with the ANSI colour
    (SGR) sequences `ESC [ digits (; digits)* m` removed, then unchanged to the wrapped
    output stream. */
module Tee {
  import opened Wrap
  import opened Text

  const Esc: char := '\U{1B}'

  /** The end of the run of ASCII digits starting at `j`. */
  function DigitsEnd(s: string, j: nat): (e: nat)
    requires j <= |s|
    ensures j <= e <= |s|
    ensures forall i :: j <= i < e ==> IsDigit(s[i])
    ensures e < |s| ==> !IsDigit(s[e])
    decreases |s| - j
  {
    if j < |s| && IsDigit(s[j]) then DigitsEnd(s, j + 1) else j
  }

  /** Inside the parameters ending at `end`: a digit, or a `;` with a digit after it. */
  predicate ParamChar(s: string, i: nat, end: nat) {
    i < |s| && (IsDigit(s[i]) || (s[i] == ';' && i + 1 < end && i + 1 < |s| && IsDigit(s[i + 1])))
  }

  /** Inside the parameters of a sequence of length `n` at the start of `s`. */
  predicate InSgr(s: string, i: nat, n: nat) {
    n > 0 && ParamChar(s, i, n - 1)
  }

  /** The end of `\d+(;\d+)*` starting at `j`, taking as many groups as follow. */
  function ParamsEnd(s: string, j: nat): (r: Option<nat>)
    requires j <= |s|
    ensures r.Some? <==> j < |s| && IsDigit(s[j])
    ensures r.Some? ==> j < r.value <= |s| && IsDigit(s[r.value - 1])
    ensures r.Some? ==> forall i :: j <= i < r.value ==> ParamChar(s, i, r.value)
    ensures r.Some? && r.value < |s| ==> !IsDigit(s[r.value]) && (s[r.value] == ';' ==> r.value + 1 == |s| || !IsDigit(s[r.value + 1]))
    decreases |s| - j
  {
    var e := DigitsEnd(s, j);
    if e == j then None
    else if e + 1 < |s| && s[e] == ';' && IsDigit(s[e + 1]) then
      var r := ParamsEnd(s, e + 1);
      assert forall i :: j <= i < e ==> ParamChar(s, i, r.value);
      assert ParamChar(s, e, r.value);
      r
    else Some(e)
  }

  /** The length of the SGR sequence at the start of `s`, 0 when there is none. */
  function SgrLength(s: string): (n: nat)
    ensures n <= |s|
    ensures n > 0 ==> n >= 4 && s[0] == Esc && s[1] == '[' && s[n - 1] == 'm' && IsDigit(s[2]) && IsDigit(s[n - 2])
    ensures n > 0 ==> forall i :: 2 <= i < n - 1 ==> InSgr(s, i, n)
  {
    if |s| >= 2 && s[0] == Esc && s[1] == '[' then
      match ParamsEnd(s, 2)
      case Some(e) => if e < |s| && s[e] == 'm' then e + 1 else 0
      case None => 0
    else 0
  }

  /** `RX_ANSI_CODE.sub('', s)`: one left-to-right pass removing every SGR sequence. */
  function StripSgr(s: string): (r: string)
    ensures |r| <= |s|
    decreases |s|
  {
    if |s| == 0 then ""
    else
      var n := SgrLength(s);
      if n > 0 then StripSgr(s[n..]) else [s[0]] + StripSgr(s[1..])
  }

  /** The SGR sequence with the given parameters. */
  function Sgr(params: seq<string>): string {
    [Esc, '['] + Join(params, ";") + "m"
  }

  predicate ValidParams(params: seq<string>) {
    |params| > 0 && forall k :: 0 <= k < |params| ==> |params[k]| > 0 && AllDigits(params[k])
  }

  /** `t` appears in `s` at index `j`. */
  predicate At(s: string, j: nat, t: string) {
    j + |t| <= |s| && forall i :: 0 <= i < |t| ==> s[j + i] == t[i]
  }

  lemma JoinFirst(parts: seq<string>, sep: string)
    requires |parts| > 0 && |parts[0]| > 0
    ensures |Join(parts, sep)| > 0 && Join(parts, sep)[0] == parts[0][0]
  {
  }

  /** `\d+` then as many `;\d+` groups as follow, starting where joined parameters stand
      before an `m`, ends right after the parameters. */
  lemma {:induction false} ParamsEndOfJoin(s: string, j: nat, params: seq<string>)
    requires ValidParams(params)
    requires At(s, j, Join(params, ";")) && j + |Join(params, ";")| < |s| && s[j + |Join(params, ";")|] == 'm'
    ensures ParamsEnd(s, j) == Some(j + |Join(params, ";")|)
    decreases |params|
  {
    var p := params[0];
    var t := Join(params, ";");
    DigitsAtFront(s, j, params);
    DigitsEndAt(s, j, j + |p|);
    if |params| == 1 {
      assert t == p;
    } else {
      var rest := Join(params[1..], ";");
      JoinTail(params);
      AtShift(s, j, t, |p| + 1);
      assert t[|p| + 1..] == rest;
      assert s[j + |p| + 1] == rest[0];
      ParamsEndOfJoin(s, j + |p| + 1, params[1..]);
    }
  }

  /** The first parameter's digits stand at `j` and are followed by `;` or `m`. */
  lemma DigitsAtFront(s: string, j: nat, params: seq<string>)
    requires ValidParams(params)
    requires At(s, j, Join(params, ";")) && j + |Join(params, ";")| < |s| && s[j + |Join(params, ";")|] == 'm'
    ensures j + |params[0]| < |s| && forall i :: j <= i < j + |params[0]| ==> IsDigit(s[i])
    ensures |params| == 1 ==> s[j + |params[0]|] == 'm'
    ensures |params| > 1 ==> s[j + |params[0]|] == ';'
  {
    var p := params[0];
    var t := Join(params, ";");
    assert AllDigits(p) && |p| > 0;
    if |params| == 1 {
      assert t == p;
    } else {
      JoinTail(params);
      assert s[j + |p|] == t[|p|];
    }
    forall i | j <= i < j + |p| ensures IsDigit(s[i]) {
      assert s[i] == t[i - j] == p[i - j];
    }
  }

  /** Joined parameters are the first one, `;`, and the rest joined; the rest are valid
      parameters and start with a digit. */
  lemma JoinTail(params: seq<string>)
    requires ValidParams(params) && |params| > 1
    ensures var rest := Join(params[1..], ";");
            Join(params, ";") == params[0] + ";" + rest
            && ValidParams(params[1..]) && |rest| > 0 && IsDigit(rest[0])
  {
    assert forall k :: 0 <= k < |params| - 1 ==> params[1..][k] == params[k + 1];
    JoinFirst(params[1..], ";");
  }

  /** What appears at `j` still appears, shortened by `k`, at `j + k`. */
  lemma AtShift(s: string, j: nat, t: string, k: nat)
    requires At(s, j, t) && k <= |t|
    ensures At(s, j + k, t[k..])
  {
    forall i | 0 <= i < |t| - k ensures s[j + k + i] == t[k..][i] {
      assert s[j + (k + i)] == t[k + i];
    }
  }

  lemma {:induction false} DigitsEndAt(s: string, j: nat, e: nat)
    requires j <= e <= |s|
    requires forall i :: j <= i < e ==> IsDigit(s[i])
    requires e < |s| ==> !IsDigit(s[e])
    ensures DigitsEnd(s, j) == e
    decreases e - j
  {
    if j < e {
      DigitsEndAt(s, j + 1, e);
    }
  }

  /** An SGR sequence at the front is recognised whole, whatever follows it. */
  lemma SgrLengthOfSgr(params: seq<string>, rest: string)
    requires ValidParams(params)
    ensures SgrLength(Sgr(params) + rest) == |Sgr(params)|
  {
    var s := Sgr(params) + rest;
    var joined := Join(params, ";");
    assert At(s, 2, joined);
    assert s[2 + |joined|] == 'm';
    ParamsEndOfJoin(s, 2, params);
  }

  /** A character that does not start an SGR sequence passes to the output. */
  lemma StripPlain(c: char, rest: string)
    requires c != Esc
    ensures StripSgr([c] + rest) == [c] + StripSgr(rest)
  {
    assert ([c] + rest)[1..] == rest;
  }

  /** An SGR sequence is removed and the rest is processed as if it were not there. */
  lemma StripSgrSequence(params: seq<string>, rest: string)
    requires ValidParams(params)
    ensures StripSgr(Sgr(params) + rest) == StripSgr(rest)
  {
    SgrLengthOfSgr(params, rest);
    assert (Sgr(params) + rest)[|Sgr(params)|..] == rest;
  }

  /** Text without ESC is left unchanged. */
  lemma {:induction false} StripNoEsc(s: string)
    requires forall i :: 0 <= i < |s| ==> s[i] != Esc
    ensures StripSgr(s) == s
    decreases |s|
  {
    if |s| > 0 {
      StripNoEsc(s[1..]);
    }
  }

  /** Sequences without a digit after `[`, or with another final letter, are kept. */
  lemma OtherSequencesKept()
    ensures StripSgr([Esc] + "[m") == [Esc] + "[m"
    ensures StripSgr([Esc] + "[2J") == [Esc] + "[2J"
  {
    var a := [Esc] + "[m";
    assert SgrLength(a) == 0;
    StripNoEsc(a[1..]);
    var b := [Esc] + "[2J";
    assert DigitsEnd(b, 3) == 3;
    assert DigitsEnd(b, 2) == 3;
    assert SgrLength(b) == 0;
    StripNoEsc(b[1..]);
  }

  /** An ESC just before a sequence is not part of it: the sequence goes and the ESC
      stays, in front of whatever follows. */
  lemma EscBeforeSequence(params: seq<string>, rest: string)
    requires ValidParams(params)
    requires forall i :: 0 <= i < |rest| ==> rest[i] != Esc
    ensures StripSgr([Esc] + Sgr(params) + rest) == [Esc] + rest
  {
    var q := Sgr(params) + rest;
    var s := [Esc] + q;
    assert [Esc] + Sgr(params) + rest == s;
    assert s[1] == q[0] == Esc;
    StripUnrecognised(s);
    assert s[1..] == q;
    StripSgrSequence(params, rest);
    StripNoEsc(rest);
  }

  /** A character that starts no sequence is kept, and the pass goes on after it. */
  lemma StripUnrecognised(s: string)
    requires |s| > 1 && s[1] != '['
    ensures StripSgr(s) == [s[0]] + StripSgr(s[1..])
  {
    assert SgrLength(s) == 0;
  }

  /** One pass is not idempotent: removing an inner sequence can join an ESC before it
      with `[1m` after it into a new sequence, which stays in the output. */
  lemma SinglePass()
    ensures StripSgr([Esc] + Sgr(["1"]) + "[1m") == Sgr(["1"])
    ensures StripSgr(Sgr(["1"])) == ""
  {
    var bold := Sgr(["1"]);
    assert Join(["1"], ";") == "1";
    assert bold == [Esc] + "[1m";
    EscBeforeSequence(["1"], "[1m");
    assert bold + "" == bold;
    StripSgrSequence(["1"], "");
  }

  /** The two sinks, as everything written to each so far, in order. */
  datatype Sinks = Sinks(file: string, out: string)

  /** `Tee.write`: the stripped text to the file, then the text as given to the stream. */
  function Write(st: Sinks, s: string): (r: Sinks)
    ensures r.out == st.out + s
    ensures r.file == st.file + StripSgr(s)
  {
    Sinks(st.file + StripSgr(s), st.out + s)
  }

  /** Without ESC characters both sinks receive the same text. */
  lemma WritePlainToBoth(st: Sinks, s: string)
    requires st.file == st.out
    requires forall i :: 0 <= i < |s| ==> s[i] != Esc
    ensures Write(st, s).file == Write(st, s).out
  {
    StripNoEsc(s);
  }

  /** A coloured word reaches the file bare and the stream with its codes. */
  lemma ColouredWord(word: string)
    requires forall i :: 0 <= i < |word| ==> word[i] != Esc
    ensures Write(Sinks("", ""), Sgr(["1", "31"]) + word + Sgr(["0"])) == Sinks(word, Sgr(["1", "31"]) + word + Sgr(["0"]))
  {
    var s := Sgr(["1", "31"]) + word + Sgr(["0"]);
    assert s == Sgr(["1", "31"]) + (word + Sgr(["0"]));
    StripSgrSequence(["1", "31"], word + Sgr(["0"]));
    StripPrefixNoEsc(word, Sgr(["0"]));
    assert Sgr(["0"]) == Sgr(["0"]) + "";
    StripSgrSequence(["0"], "");
  }

  /** Text without ESC in front of the rest passes unchanged ahead of the rest's output. */
  lemma {:induction false} StripPrefixNoEsc(a: string, rest: string)
    requires forall i :: 0 <= i < |a| ==> a[i] != Esc
    ensures StripSgr(a + rest) == a + StripSgr(rest)
    decreases |a|
  {
    if |a| > 0 {
      var b := a[1..] + rest;
      assert a + rest == [a[0]] + b;
      StripPlain(a[0], b);
      StripPrefixNoEsc(a[1..], rest);
      assert a == [a[0]] + a[1..];
    } else {
      assert a + rest == rest;
    }
  }
}

=== FILE: text.dfy ===
/** String operations of the Java and Python runtimes that the modelled code relies on:
    substring search, `split`/`join`, `replace`, `strip`/`trim`, case mapping, and decimal
    rendering and parsing of integers. Every one is stated for arbitrary strings. */
module Text {
  import opened Wrap

  // ---------------------------------------------------------------------------
  // Search

  /** `sub` occurs in `s` starting at index `i`. */
  predicate OccursAt(s: string, sub: string, i: nat) {
    i + |sub| <= |s| && s[i..i + |sub|] == sub
  }

  /** Python's `sub in s` (and Java's `s.contains(sub)`). */
  predicate Contains(s: string, sub: string) {
    exists i: nat :: i <= |s| && OccursAt(s, sub, i)
  }

  predicate EndsWith(s: string, suffix: string) {
    |suffix| <= |s| && s[|s| - |suffix|..] == suffix
  }

  /** Appending `b` creates no occurrence of `pat` when `b` has none and its first
      character appears in `pat` only at the front: no occurrence can straddle the seam. */
  lemma ContainsAppend(a: string, b: string, pat: string)
    requires |pat| > 0 && |b| > 0
    requires forall k :: 1 <= k < |pat| ==> pat[k] != b[0]
    requires !Contains(b, pat)
    ensures Contains(a + b, pat) <==> Contains(a, pat)
  {
    var s := a + b;
    if Contains(s, pat) {
      var i: nat :| i <= |s| && OccursAt(s, pat, i);
      if i >= |a| {
        assert s[i..i + |pat|] == b[i - |a|..i - |a| + |pat|];
        assert OccursAt(b, pat, i - |a|);
      } else if i + |pat| <= |a| {
        assert s[i..i + |pat|] == a[i..i + |pat|];
        assert OccursAt(a, pat, i);
      } else {
        NoStraddle(a, b, pat, i);
      }
    }
    if Contains(a, pat) {
      var i: nat :| i <= |a| && OccursAt(a, pat, i);
      assert s[i..i + |pat|] == a[i..i + |pat|];
      assert OccursAt(s, pat, i);
    }
  }

  /** An occurrence of `pat` cannot start in `a` and end in `b` when `b[0]` appears in
      `pat` only at the front. */
  lemma NoStraddle(a: string, b: string, pat: string, i: nat)
    requires |b| > 0 && i < |a| < i + |pat| <= |a| + |b|
    requires forall k :: 1 <= k < |pat| ==> pat[k] != b[0]
    ensures !OccursAt(a + b, pat, i)
  {
    var s := a + b;
    var k := |a| - i;
    assert s[i..i + |pat|][k] == b[0];
  }

  /** The first occurrence of `sub` in `s` at or after index `k`. */
  function FindFrom(s: string, sub: string, k: nat): (r: Option<nat>)
    ensures r.Some? ==> k <= r.value && OccursAt(s, sub, r.value)
    ensures r.Some? ==> forall j: nat :: k <= j < r.value ==> !OccursAt(s, sub, j)
    ensures r.None? ==> forall j: nat :: k <= j ==> !OccursAt(s, sub, j)
    decreases |s| - k
  {
    if k + |sub| > |s| then None
    else if OccursAt(s, sub, k) then Some(k)
    else FindFrom(s, sub, k + 1)
  }

  function Find(s: string, sub: string): (r: Option<nat>)
    ensures r.Some? <==> Contains(s, sub)
    ensures r.Some? ==> OccursAt(s, sub, r.value)
    ensures r.Some? ==> forall j: nat :: j < r.value ==> !OccursAt(s, sub, j)
  {
    FindFrom(s, sub, 0)
  }

  /** Java's `s.lastIndexOf(c)` as an option: the greatest index holding `c`. */
  function LastIndexOf(s: string, c: char): (r: Option<nat>)
    ensures r.Some? ==> r.value < |s| && s[r.value] == c
    ensures r.Some? ==> forall j :: r.value < j < |s| ==> s[j] != c
    ensures r.None? ==> forall j :: 0 <= j < |s| ==> s[j] != c
  {
    if |s| == 0 then None
    else if s[|s| - 1] == c then Some(|s| - 1)
    else LastIndexOf(s[..|s| - 1], c)
  }

  // ---------------------------------------------------------------------------
  // Split and join

  /** Python's `sep.join(parts)`. */
  function Join(parts: seq<string>, sep: string): string
    decreases |parts|
  {
    if |parts| == 0 then ""
    else if |parts| == 1 then parts[0]
    else parts[0] + sep + Join(parts[1..], sep)
  }

  /** Python's `s.split(sep)` for a non-empty separator: cuts at every occurrence, left to right. */
  function Split(s: string, sep: string): (parts: seq<string>)
    requires |sep| > 0
    ensures |parts| >= 1
    ensures forall k :: 0 <= k < |parts| ==> !Contains(parts[k], sep) || k == |parts| - 1
    decreases |s|
  {
    match Find(s, sep)
    case None => [s]
    case Some(i) =>
      PrefixBeforeFirstHasNoSep(s, sep, i);
      [s[..i]] + Split(s[i + |sep|..], sep)
  }

  lemma PrefixBeforeFirstHasNoSep(s: string, sep: string, i: nat)
    requires |sep| > 0
    requires OccursAt(s, sep, i)
    requires forall j: nat :: j < i ==> !OccursAt(s, sep, j)
    ensures !Contains(s[..i], sep)
  {
    forall j: nat | j <= i
      ensures !OccursAt(s[..i], sep, j)
    {
      if j + |sep| <= i {
        assert !OccursAt(s, sep, j);
        assert s[..i][j..j + |sep|] == s[j..j + |sep|];
      }
    }
  }

  /** `c` does not occur in `s`. */
  predicate Avoids(s: string, c: char) {
    forall i :: 0 <= i < |s| ==> s[i] != c
  }

  lemma Associative(x: string, y: string, z: string)
    ensures x + y + z == x + (y + z)
  {
  }

  lemma JoinCons(a: string, rest: seq<string>, sep: string)
    requires |rest| > 0
    ensures Join([a] + rest, sep) == a + sep + Join(rest, sep)
  {
    assert ([a] + rest)[1..] == rest;
  }

  /** Splitting and re-joining with the same separator gives the string back. */
  lemma {:induction false} JoinSplit(s: string, sep: string)
    requires |sep| > 0
    ensures Join(Split(s, sep), sep) == s
    decreases |s|
  {
    match Find(s, sep)
    case None =>
    case Some(i) =>
      var rest := s[i + |sep|..];
      var parts := Split(rest, sep);
      assert Split(s, sep) == [s[..i]] + parts;
      JoinCons(s[..i], parts, sep);
      JoinSplit(rest, sep);
      assert s[i..i + |sep|] == sep;
      assert s == s[..i] + sep + rest;
  }

  /** A string avoiding the separator's first character holds no separator. */
  lemma AvoidsNoOccurrence(s: string, sep: string, j: nat)
    requires |sep| > 0 && j < |s| && s[j] != sep[0]
    ensures !OccursAt(s, sep, j)
  {
    if j + |sep| <= |s| {
      assert s[j..j + |sep|][0] == s[j];
    }
  }

  lemma SplitSingle(p: string, sep: string)
    requires |sep| > 0 && Avoids(p, sep[0])
    ensures Split(p, sep) == [p]
  {
    forall j: nat ensures !OccursAt(p, sep, j) {
      if j < |p| {
        AvoidsNoOccurrence(p, sep, j);
      }
    }
    assert Find(p, sep).None?;
  }

  /** A part avoiding the separator's first character is split off before the separator. */
  lemma SplitCons(p: string, sep: string, rest: string)
    requires |sep| > 0 && Avoids(p, sep[0])
    ensures Split(p + sep + rest, sep) == [p] + Split(rest, sep)
  {
    var s := p + sep + rest;
    forall j: nat | j < |p| ensures !OccursAt(s, sep, j) {
      assert s[j] == p[j];
      AvoidsNoOccurrence(s, sep, j);
    }
    assert s[|p|..|p| + |sep|] == sep;
    assert OccursAt(s, sep, |p|);
    assert Contains(s, sep);
    assert Find(s, sep) == Some(|p|);
    assert s[..|p|] == p;
    assert s[|p| + |sep|..] == rest;
  }

  /** Joining parts that never contain the separator's first character and splitting
      again gives the parts back. */
  lemma {:induction false} SplitJoin(parts: seq<string>, sep: string)
    requires |sep| > 0 && |parts| > 0
    requires forall k :: 0 <= k < |parts| ==> Avoids(parts[k], sep[0])
    ensures Split(Join(parts, sep), sep) == parts
    decreases |parts|
  {
    if |parts| == 1 {
      SplitSingle(parts[0], sep);
    } else {
      JoinCons(parts[0], parts[1..], sep);
      assert parts == [parts[0]] + parts[1..];
      SplitCons(parts[0], sep, Join(parts[1..], sep));
      SplitJoin(parts[1..], sep);
    }
  }

  // ---------------------------------------------------------------------------
  // Replace

  /** Python's `s.replace(pat, repl)` (and Java's `String.replace`): every non-overlapping
      occurrence of a non-empty `pat`, scanning left to right, is replaced by `repl`. */
  function Replace(s: string, pat: string, repl: string): string
    requires |pat| > 0
    decreases |s|
  {
    if |s| == 0 then ""
    else if pat <= s then repl + Replace(s[|pat|..], pat, repl)
    else [s[0]] + Replace(s[1..], pat, repl)
  }

  /** A string without an occurrence of `pat` is left unchanged by `Replace`. */
  lemma {:induction false} ReplaceAbsent(s: string, pat: string, repl: string)
    requires |pat| > 0
    requires !Contains(s, pat)
    ensures Replace(s, pat, repl) == s
    decreases |s|
  {
    if |s| > 0 {
      var z: nat := 0;
      assert pat <= s ==> OccursAt(s, pat, z);
      NoOccurrenceInTail(s, pat);
      ReplaceAbsent(s[1..], pat, repl);
    }
  }

  lemma NoOccurrenceInTail(s: string, sub: string)
    requires |s| > 0 && !Contains(s, sub)
    ensures !Contains(s[1..], sub)
  {
    if Contains(s[1..], sub) {
      var i: nat :| i <= |s[1..]| && OccursAt(s[1..], sub, i);
      assert s[1..][i..i + |sub|] == s[i + 1..i + 1 + |sub|];
      assert OccursAt(s, sub, i + 1);
    }
  }

  // ---------------------------------------------------------------------------
  // Trimming

  /** Drops the leading characters selected by `drop`. */
  function LStrip(s: string, drop: char -> bool): (r: string)
    ensures |r| <= |s| && r == s[|s| - |r|..]
    ensures |r| > 0 ==> !drop(r[0])
    ensures forall i :: 0 <= i < |s| - |r| ==> drop(s[i])
    decreases |s|
  {
    if |s| > 0 && drop(s[0]) then LStrip(s[1..], drop) else s
  }

  /** Drops the trailing characters selected by `drop`. */
  function RStrip(s: string, drop: char -> bool): (r: string)
    ensures r <= s
    ensures |r| > 0 ==> !drop(r[|r| - 1])
    ensures forall i :: |r| <= i < |s| ==> drop(s[i])
    decreases |s|
  {
    if |s| > 0 && drop(s[|s| - 1]) then RStrip(s[..|s| - 1], drop) else s
  }

  function Strip(s: string, drop: char -> bool): string {
    RStrip(LStrip(s, drop), drop)
  }

  /** What Java's `String.trim` removes: every code point up to and including U+0020. */
  predicate JavaSpace(c: char) {
    c <= ' '
  }

  /** What Python's argument-less `str.strip`/`rstrip` remove, and what `\s` matches:
      the characters `str.isspace` accepts. */
  predicate PyWhitespace(c: char) {
    c == ' ' || ('\t' <= c <= '\r') || ('\U{1C}' <= c <= '\U{1F}') || c == '\U{85}' || c == '\U{A0}'
    || c == '\U{1680}' || ('\U{2000}' <= c <= '\U{200A}') || c == '\U{2028}' || c == '\U{2029}'
    || c == '\U{202F}' || c == '\U{205F}' || c == '\U{3000}'
  }

  function JavaTrim(s: string): string {
    Strip(s, JavaSpace)
  }

  function PyStrip(s: string): string {
    Strip(s, PyWhitespace)
  }

  function PyRStrip(s: string): string {
    RStrip(s, PyWhitespace)
  }

  /** A line read with its terminator strips to its content when the content has no
      whitespace at either end. */
  lemma PyStripLine(a: string)
    requires |a| > 0 && !PyWhitespace(a[0]) && !PyWhitespace(a[|a| - 1])
    ensures PyStrip(a + "\n") == a
  {
    var s := a + "\n";
    assert LStrip(s, PyWhitespace) == s;
    assert s[..|s| - 1] == a;
    assert RStrip(s, PyWhitespace) == RStrip(a, PyWhitespace);
  }

  // ---------------------------------------------------------------------------
  // Characters and case

  predicate IsDigit(c: char) {
    '0' <= c <= '9'
  }

  predicate AllDigits(s: string) {
    forall i :: 0 <= i < |s| ==> IsDigit(s[i])
  }

  predicate IsAsciiLetter(c: char) {
    ('a' <= c <= 'z') || ('A' <= c <= 'Z')
  }

  function AsciiUpperChar(c: char): char {
    if 'a' <= c <= 'z' then (c as int - 32) as char else c
  }

  function AsciiLowerChar(c: char): char {
    if 'A' <= c <= 'Z' then (c as int + 32) as char else c
  }

  function AsciiUpper(s: string): (r: string)
    ensures |r| == |s| && forall i :: 0 <= i < |s| ==> r[i] == AsciiUpperChar(s[i])
  {
    seq(|s|, i requires 0 <= i < |s| => AsciiUpperChar(s[i]))
  }

  function AsciiLower(s: string): (r: string)
    ensures |r| == |s| && forall i :: 0 <= i < |s| ==> r[i] == AsciiLowerChar(s[i])
  {
    seq(|s|, i requires 0 <= i < |s| => AsciiLowerChar(s[i]))
  }

  // ---------------------------------------------------------------------------
  // Decimal numbers

  function DigitChar(d: nat): (c: char)
    requires d < 10
    ensures IsDigit(c) && c as int - '0' as int == d
  {
    ('0' as int + d) as char
  }

  /** Python's `str(n)` for a natural number. */
  function NatToString(n: nat): (r: string)
    ensures |r| >= 1 && AllDigits(r)
    ensures n < 10 <==> |r| == 1
    decreases n
  {
    if n < 10 then [DigitChar(n)] else NatToString(n / 10) + [DigitChar(n % 10)]
  }

  /** Python's `str(i)` for any integer. */
  function IntToString(i: int): string {
    if i < 0 then "-" + NatToString(-i) else NatToString(i)
  }

  /** The value of a string of decimal digits. */
  function DigitsValue(s: string): nat
    requires AllDigits(s)
  {
    if |s| == 0 then 0 else DigitsValue(s[..|s| - 1]) * 10 + (s[|s| - 1] as int - '0' as int)
  }

  /** Rendering a natural number and reading the digits back gives the number again. */
  lemma {:induction false} NatToStringRoundTrip(n: nat)
    ensures DigitsValue(NatToString(n)) == n
    decreases n
  {
    if n >= 10 {
      NatToStringRoundTrip(n / 10);
      var r := NatToString(n);
      assert r[..|r| - 1] == NatToString(n / 10);
    }
  }

  /** Python's `int(s)` on a string, narrowed to ASCII: optional surrounding whitespace,
      an optional sign and at least one ASCII digit. Python also accepts single `_`
      between digits and every Unicode decimal digit; those inputs give `None` here. */
  function ParseInt(s: string): (r: Option<int>)
    ensures r.Some? ==> |PyStrip(s)| > 0
  {
    var t := PyStrip(s);
    if |t| == 0 then None
    else if t[0] == '-' || t[0] == '+' then
      var ds := t[1..];
      if |ds| > 0 && AllDigits(ds) then
        var v: int := if t[0] == '-' then -(DigitsValue(ds) as int) else DigitsValue(ds);
        Some(v)
      else None
    else if AllDigits(t) then Some(DigitsValue(t))
    else None
  }

  /** A string with no whitespace at either end is its own strip. */
  lemma StripUnchanged(t: string)
    requires |t| > 0 && !PyWhitespace(t[0]) && !PyWhitespace(t[|t| - 1])
    ensures PyStrip(t) == t
  {
    assert LStrip(t, PyWhitespace) == t;
  }

  /** Unsigned digits parse to their value. */
  lemma ParseDigits(ds: string)
    requires |ds| > 0 && AllDigits(ds)
    ensures ParseInt(ds) == Some(DigitsValue(ds) as int)
  {
    assert IsDigit(ds[0]) && IsDigit(ds[|ds| - 1]);
    StripUnchanged(ds);
  }

  /** Digits after a minus sign parse to the negated value. */
  lemma ParseNegativeDigits(ds: string)
    requires |ds| > 0 && AllDigits(ds)
    ensures ParseInt("-" + ds) == Some(-(DigitsValue(ds) as int))
  {
    var t := "-" + ds;
    assert t[0] == '-' && t[1..] == ds;
    assert t[|t| - 1] == ds[|ds| - 1] && IsDigit(ds[|ds| - 1]);
    StripUnchanged(t);
  }

  /** `int(str(i)) == i`. */
  lemma ParseIntRoundTrip(i: int)
    ensures ParseInt(IntToString(i)) == Some(i)
  {
    var n: nat := if i < 0 then -i else i;
    NatToStringRoundTrip(n);
    if i < 0 {
      ParseNegativeDigits(NatToString(n));
    } else {
      ParseDigits(NatToString(n));
    }
  }

  /** Python's `f"{s:>w}"`: right-aligned in a field of width `w`, never truncated. */
  function PadLeft(s: string, w: nat): (r: string)
    ensures |r| == if |s| >= w then |s| else w
    ensures EndsWith(r, s)
    ensures forall i :: 0 <= i < |r| - |s| ==> r[i] == ' '
  {
    if |s| >= w then s else seq(w - |s|, _ => ' ') + s
  }

  // ---------------------------------------------------------------------------
  // Lines

  /** The line boundaries of Python's `str.splitlines`. */
  predicate IsLineBreak(c: char) {
    c == '\n' || c == '\r' || c == '\U{0B}' || c == '\U{0C}' || ('\U{1C}' <= c <= '\U{1E}')
    || c == '\U{85}' || c == '\U{2028}' || c == '\U{2029}'
  }

  predicate NoLineBreak(s: string) {
    forall i :: 0 <= i < |s| ==> !IsLineBreak(s[i])
  }

  function FirstBreakFrom(s: string, k: nat): (r: nat)
    requires k <= |s|
    ensures k <= r <= |s|
    ensures r < |s| ==> IsLineBreak(s[r])
    ensures forall j :: k <= j < r ==> !IsLineBreak(s[j])
    decreases |s| - k
  {
    if k == |s| || IsLineBreak(s[k]) then k else FirstBreakFrom(s, k + 1)
  }

  /** Python's `s.splitlines()`: `\r\n` is one boundary, and a final boundary does not
      start an extra empty line. */
  function SplitLines(s: string): (lines: seq<string>)
    ensures forall k :: 0 <= k < |lines| ==> NoLineBreak(lines[k])
    decreases |s|
  {
    if |s| == 0 then []
    else
      var i := FirstBreakFrom(s, 0);
      if i == |s| then [s]
      else
        var w := if s[i] == '\r' && i + 1 < |s| && s[i + 1] == '\n' then 2 else 1;
        [s[..i]] + SplitLines(s[i + w..])
  }

  /** A line without breaks followed by `\n` is split off as the first line. */
  lemma SplitLinesCons(l: string, rest: string)
    requires NoLineBreak(l)
    ensures SplitLines(l + "\n" + rest) == [l] + SplitLines(rest)
  {
    var s := l + "\n" + rest;
    assert forall j :: 0 <= j < |l| ==> s[j] == l[j];
    assert s[|l|] == '\n';
    FirstBreakAt(s, 0, |l|);
    assert s[..|l|] == l;
    assert s[|l| + 1..] == rest;
  }

  /** Text written one line per entry, each ended by `\n`, splits back into those lines. */
  lemma {:induction false} SplitLinesJoin(lines: seq<string>)
    requires |lines| > 0
    requires forall k :: 0 <= k < |lines| ==> NoLineBreak(lines[k])
    ensures SplitLines(Join(lines, "\n") + "\n") == lines
    decreases |lines|
  {
    var l := lines[0];
    if |lines| == 1 {
      SplitLinesCons(l, "");
      assert l + "\n" + "" == Join(lines, "\n") + "\n";
      assert SplitLines("") == [];
    } else {
      var tail := Join(lines[1..], "\n");
      JoinCons(l, lines[1..], "\n");
      assert lines == [l] + lines[1..];
      assert Join(lines, "\n") + "\n" == l + "\n" + (tail + "\n");
      SplitLinesCons(l, tail + "\n");
      SplitLinesJoin(lines[1..]);
    }
  }

  lemma {:induction false} FirstBreakAt(s: string, k: nat, i: nat)
    requires k <= i < |s| && IsLineBreak(s[i])
    requires forall j :: k <= j < i ==> !IsLineBreak(s[j])
    ensures FirstBreakFrom(s, k) == i
    decreases i - k
  {
    if k < i {
      FirstBreakAt(s, k + 1, i);
    }
  }
}

=== FILE: tw5_java.dfy ===
/** The Java TiddlyWiki save server (tiddlywiki/Tw5Server.java): one request is a pure step
    from the server state to a new state and a response. */
module Tw5Java {
  import opened Wrap
  import opened Text
  import opened JavaPath
  import opened Http
  import opened Archive

  // ---------------------------------------------------------------------------
  // MIME types

  const OctetStream := "application/octet-stream"

  /** The fixed extension table of `getMimeType`. */
  function MimeOfExtension(ext: string): string {
    if ext == "html" || ext == "htm" then "text/html; charset=utf-8"
    else if ext == "ico" then "image/vnd.microsoft.icon"
    else if ext == "css" then "text/css; charset=utf-8"
    else if ext == "js" then "application/javascript; charset=utf-8"
    else if ext == "json" then "application/json; charset=utf-8"
    else if ext == "png" then "image/png"
    else if ext == "jpg" || ext == "jpeg" then "image/jpeg"
    else OctetStream
  }

  /** The lower-cased text after the last `.` of the whole path string, or nothing when
      there is no dot or the last one is the first character. */
  function Extension(path: string): string {
    match LastIndexOf(path, '.')
    case Some(i) => if i > 0 then AsciiLower(path[i + 1..]) else ""
    case None => ""
  }

  function MimeType(path: string): string {
    MimeOfExtension(Extension(path))
  }

  /** The last dot of `s + "." + t` is the one at `|s|` when `t` has none. */
  lemma {:induction false} LastDotOfSuffix(s: string, t: string)
    requires '.' !in t
    ensures LastIndexOf(s + "." + t, '.') == Some(|s|)
    ensures (s + "." + t)[|s| + 1..] == t && (s + "." + t)[..|s|] == s
    decreases |t|
  {
    var p := s + "." + t;
    if |t| > 0 {
      var u := t[..|t| - 1];
      assert p[..|p| - 1] == s + "." + u;
      assert p[|p| - 1] == t[|t| - 1];
      assert '.' !in u by {
        assert forall i :: 0 <= i < |u| ==> u[i] == t[i];
      }
      LastDotOfSuffix(s, u);
    } else {
      assert p == s + ".";
    }
  }

  /** A path ending in `.ext` after a non-empty stem is typed by `ext`, lower-cased. */
  lemma MimeTypeOfSuffix(stem: string, ext: string)
    requires |stem| > 0 && '.' !in ext
    ensures MimeType(stem + "." + ext) == MimeOfExtension(AsciiLower(ext))
  {
    LastDotOfSuffix(stem, ext);
  }

  /** A path with no dot after its first character is served as raw bytes. */
  lemma MimeTypeWithoutDot(path: string)
    requires forall i :: 0 < i < |path| ==> path[i] != '.'
    ensures MimeType(path) == OctetStream
  {
  }

  /** The table ignores the case of the extension. */
  lemma MimeTypeIgnoresCase(stem: string, ext: string)
    requires |stem| > 0 && '.' !in ext
    ensures MimeType(stem + "." + AsciiUpper(ext)) == MimeType(stem + "." + ext)
  {
    var up := AsciiUpper(ext);
    assert '.' !in up by {
      assert forall i :: 0 <= i < |up| ==> up[i] == AsciiUpperChar(ext[i]);
    }
    MimeTypeOfSuffix(stem, ext);
    MimeTypeOfSuffix(stem, up);
    assert AsciiLower(up) == AsciiLower(ext);
  }

  // ---------------------------------------------------------------------------
  // Backup archive naming

  /** The file name up to its last dot; a name whose last dot leads it keeps it whole. */
  function FileStem(fileName: string): string {
    match LastIndexOf(fileName, '.')
    case Some(i) => if i > 0 then fileName[..i] else fileName
    case None => fileName
  }

  function ArchiveName(fileName: string): string {
    FileStem(fileName) + "-tw5.zip"
  }

  function EntryName(timestamp: string, fileName: string): string {
    timestamp + "~" + fileName
  }

  lemma FileStemOfSuffix(stem: string, ext: string)
    requires |stem| > 0 && '.' !in ext
    ensures FileStem(stem + "." + ext) == stem
  {
    LastDotOfSuffix(stem, ext);
  }

  lemma FileStemWithoutDot(fileName: string)
    requires forall i :: 0 < i < |fileName| ==> fileName[i] != '.'
    ensures FileStem(fileName) == fileName
  {
  }

  // ---------------------------------------------------------------------------
  // State

  /** Regular files and directories, each named by its canonical absolute names. */
  datatype FileSystem = FileSystem(files: map<seq<string>, Bytes>, dirs: set<seq<string>>)

  /** One line of the server's log, by kind. */
  datatype Event =
    | NotAllowed(remote: string)
    | Received(remote: string, verb: string, path: string)
    | Completed(remote: string, verb: string, path: string, status: nat)
    | ErrorSent(remote: string, status: nat, message: string, verb: string, path: string)
    | Failed(remote: string, fault: string)

  /** Archives are named by their file name inside the backup directory, which is the
      document root. */
  datatype State = State(fs: FileSystem, archives: map<string, seq<Entry>>, log: seq<Event>)

  /** `DOC_ROOT` (the working directory) and the loaded allow-list. */
  datatype Config = Config(docRoot: Path, allowed: set<string>)

  predicate ValidConfig(cfg: Config) {
    cfg.docRoot.absolute && WellFormed(cfg.docRoot.names) && Clean(cfg.docRoot.names)
  }

  /** `timestamp` is the caller-supplied clock reading, already formatted. */
  datatype Request = Request(remote: string, verb: string, path: string, body: Bytes, timestamp: string)

  /** A handler either replies or raises; `Handle` turns a raise into a 500 reply. */
  datatype Outcome = Replied(st: State, resp: Response) | Raised(st: State, fault: string)

  function Log(st: State, e: Event): (r: State)
    ensures r.fs == st.fs && r.archives == st.archives && st.log < r.log
  {
    st.(log := st.log + [e])
  }

  // ---------------------------------------------------------------------------
  // Responses

  const PlainText := "text/plain; charset=utf-8"

  const OptionsHeaders := [Header("Allow", "GET,HEAD,OPTIONS,PUT"), Header("x-api-access-type", "file"), Header("dav", "tw5/put")]

  /** `sendError`: logs, then replies with the message as a plain-text body. */
  function SendError(st: State, req: Request, code: nat, message: string): (r: Outcome)
    requires IsAscii(message)
    ensures r.Replied? && r.resp.status == code && r.st.fs == st.fs && r.st.archives == st.archives
    ensures st.log < r.st.log
  {
    Replied(Log(st, ErrorSent(req.remote, code, message, req.verb, req.path)),
            Response(code, [Header("Content-Type", PlainText)], AsciiBytes(message)))
  }

  function Ok200(st: State, req: Request, headers: seq<Header>, body: Bytes): (r: Outcome)
    ensures r.Replied? && r.resp.status == 200 && r.st.fs == st.fs && r.st.archives == st.archives
    ensures st.log < r.st.log
  {
    Replied(Log(st, Completed(req.remote, req.verb, req.path, 200)), Response(200, headers, body))
  }

  // ---------------------------------------------------------------------------
  // File-system effects

  function Prefixes(p: seq<string>): set<seq<string>> {
    set k | 0 <= k <= |p| :: p[..k]
  }

  /** `Files.createDirectories`: fails when the directory or one of its ancestors is a
      regular file; otherwise every missing ancestor becomes a directory. */
  function CreateDirectories(fs: FileSystem, dir: seq<string>): (r: Result<FileSystem>)
    ensures r.Ok? <==> forall k :: 0 <= k <= |dir| ==> dir[..k] !in fs.files
    ensures r.Ok? ==> r.value.files == fs.files && dir in r.value.dirs && fs.dirs <= r.value.dirs
  {
    if exists k :: 0 <= k <= |dir| && dir[..k] in fs.files then Err("FileAlreadyExistsException")
    else
      assert dir[..|dir|] == dir;
      Ok(fs.(dirs := fs.dirs + Prefixes(dir)))
  }

  /** `Files.write`: replaces the content of a regular file in an existing directory. */
  function WriteFile(fs: FileSystem, key: seq<string>, data: Bytes): (r: Result<FileSystem>)
    ensures r.Ok? <==> |key| > 0 && key !in fs.dirs && key[..|key| - 1] in fs.dirs
    ensures r.Ok? ==> r.value == fs.(files := fs.files[key := data])
  {
    if |key| == 0 || key in fs.dirs then Err("FileSystemException")
    else if key[..|key| - 1] !in fs.dirs then Err("NoSuchFileException")
    else Ok(fs.(files := fs.files[key := data]))
  }

  /** `addDataToZipFile`: appends one entry to the archive named after the file's stem;
      opening the archive fails when a directory has its name. */
  function AppendEntry(cfg: Config, st: State, fileName: string, entry: Entry): (r: Result<State>)
    ensures r.Ok? <==> cfg.docRoot.names + [ArchiveName(fileName)] !in st.fs.dirs
    ensures r.Ok? ==> r.value == st.(archives := Append(st.archives, ArchiveName(fileName), entry))
  {
    var zip := ArchiveName(fileName);
    if cfg.docRoot.names + [zip] in st.fs.dirs then Err("FileNotFoundException")
    else Ok(st.(archives := Append(st.archives, zip, entry)))
  }

  // ---------------------------------------------------------------------------
  // Handlers

  function LastName(p: Path): string
    requires |p.names| > 0
  {
    p.names[|p.names| - 1]
  }

  /** `handleGet`: the sandbox test, then the file's bytes typed by its path. */
  function HandleGet(cfg: Config, st: State, req: Request): (r: Outcome)
    requires ValidConfig(cfg)
    ensures r.st.fs == st.fs && r.st.archives == st.archives && st.log < r.st.log
    ensures r.Replied? ==> r.resp.status in {200, 403, 404}
    ensures r.Replied? && r.resp.status == 200 <==>
      Target(cfg.docRoot, req.path).Ok? && StartsWith(Target(cfg.docRoot, req.path).value, cfg.docRoot)
      && Canonical(Target(cfg.docRoot, req.path).value) in st.fs.files
    ensures r.Replied? && r.resp.status == 200 ==>
      r.resp.body == st.fs.files[Canonical(Target(cfg.docRoot, req.path).value)]
      && r.resp.headers == [Header("Content-Type", MimeType(ToString(Target(cfg.docRoot, req.path).value)))]
    ensures r.Replied? && r.resp.status == 403 <==>
      Target(cfg.docRoot, req.path).Ok? && !StartsWith(Target(cfg.docRoot, req.path).value, cfg.docRoot)
  {
    var st1 := Log(st, Received(req.remote, "GET", req.path));
    match Target(cfg.docRoot, req.path)
    case Err(fault) => Raised(st1, fault)
    case Ok(fp) => ServeFile(cfg, st1, req, fp)
  }

  /** The part of `handleGet` after the target is known: 403 outside the document root,
      404 for a missing file, otherwise the file's bytes. */
  function ServeFile(cfg: Config, st: State, req: Request, fp: Path): (r: Outcome)
    requires WellFormed(fp.names)
    ensures r.Replied? && r.st.fs == st.fs && r.st.archives == st.archives && st.log < r.st.log
    ensures r.resp.status in {200, 403, 404}
    ensures r.resp.status == 403 <==> !StartsWith(fp, cfg.docRoot)
    ensures r.resp.status == 200 <==> StartsWith(fp, cfg.docRoot) && Canonical(fp) in st.fs.files
    ensures r.resp.status == 200 ==>
      r.resp.body == st.fs.files[Canonical(fp)]
      && r.resp.headers == [Header("Content-Type", MimeType(ToString(fp)))]
  {
    if !StartsWith(fp, cfg.docRoot) then SendError(st, req, 403, "Forbidden")
    else
      var key := Canonical(fp);
      if key in st.fs.files then
        Ok200(st, req, [Header("Content-Type", MimeType(ToString(fp)))], st.fs.files[key])
      else SendError(st, req, 404, "Not Found")
  }

  /** `handleHead`: like GET without a body, and without the sandbox test. */
  function HandleHead(cfg: Config, st: State, req: Request): (r: Outcome)
    requires ValidConfig(cfg)
    ensures r.st.fs == st.fs && r.st.archives == st.archives && st.log < r.st.log
    ensures r.Replied? ==> r.resp.status in {200, 404}
    ensures r.Replied? && r.resp.status == 200 <==>
      Target(cfg.docRoot, req.path).Ok? && Canonical(Target(cfg.docRoot, req.path).value) in st.fs.files
    ensures r.Replied? && r.resp.status == 200 ==> r.resp.body == []
  {
    var st1 := Log(st, Received(req.remote, "HEAD", req.path));
    match Target(cfg.docRoot, req.path)
    case Err(fault) => Raised(st1, fault)
    case Ok(fp) =>
      if Canonical(fp) in st1.fs.files then
        Ok200(st1, req, [Header("Content-Type", MimeType(ToString(fp)))], [])
      else SendError(st1, req, 404, "Not Found")
  }

  /** `handleOptions`: the save-protocol capability answer, whatever the path. */
  function HandleOptions(st: State, req: Request): (r: Outcome)
    ensures r.Replied? && r.resp == Response(200, OptionsHeaders, [])
    ensures r.st.fs == st.fs && r.st.archives == st.archives && st.log < r.st.log
  {
    Ok200(Log(st, Received(req.remote, "OPTIONS", req.path)), req, OptionsHeaders, [])
  }

  /** The file a PUT writes and its archive, when the sandbox admits it. */
  predicate PutTarget(cfg: Config, path: string)
    requires ValidConfig(cfg)
  {
    Target(cfg.docRoot, path).Ok? && StartsWith(Target(cfg.docRoot, path).value, cfg.docRoot)
    && |Target(cfg.docRoot, path).value.names| > 0
  }

  /** `handlePut`: the sandbox test, the parent directories, the overwrite, the backup. */
  function HandlePut(cfg: Config, st: State, req: Request): (r: Outcome)
    requires ValidConfig(cfg)
    ensures st.log < r.st.log && AppendOnly(st.archives, r.st.archives)
    ensures r.Replied? ==> r.resp.status in {200, 403}
    ensures r.Replied? && r.resp.status == 403 ==> r.st.fs == st.fs && r.st.archives == st.archives
    ensures r.Replied? && r.resp.status == 403 <==>
      Target(cfg.docRoot, req.path).Ok? && !StartsWith(Target(cfg.docRoot, req.path).value, cfg.docRoot)
    ensures r.Replied? && r.resp.status == 200 ==>
      PutTarget(cfg, req.path) && r.resp == Response(200, [], [])
      && (var fp := Target(cfg.docRoot, req.path).value;
          var zip := ArchiveName(LastName(fp));
          r.st.fs.files == st.fs.files[Canonical(fp) := req.body]
          && r.st.archives == Append(st.archives, zip, Entry(EntryName(req.timestamp, LastName(fp)), req.body)))
  {
    var st1 := Log(st, Received(req.remote, "PUT", req.path));
    AppendOnlyReflexive(st.archives);
    match Target(cfg.docRoot, req.path)
    case Err(fault) => Raised(st1, fault)
    case Ok(fp) => StoreFile(cfg, st1, req, fp)
  }

  /** The part of `handlePut` after the target is known: 403 outside the document root,
      otherwise the parent directories, the overwrite and the backup entry, any of which
      may raise. */
  function StoreFile(cfg: Config, st: State, req: Request, fp: Path): (r: Outcome)
    requires WellFormed(fp.names)
    ensures st.log <= r.st.log && AppendOnly(st.archives, r.st.archives)
    ensures r.Replied? ==> r.resp.status in {200, 403}
    ensures r.Replied? && r.resp.status == 403 <==> !StartsWith(fp, cfg.docRoot)
    ensures r.Replied? && r.resp.status == 403 ==> r.st.fs == st.fs && r.st.archives == st.archives
    ensures r.Replied? && r.resp.status == 200 ==>
      StartsWith(fp, cfg.docRoot) && |fp.names| > 0 && r.resp == Response(200, [], [])
      && r.st.fs.files == st.fs.files[Canonical(fp) := req.body]
      && r.st.archives == Append(st.archives, ArchiveName(LastName(fp)),
                                 Entry(EntryName(req.timestamp, LastName(fp)), req.body))
  {
    AppendOnlyReflexive(st.archives);
    if !StartsWith(fp, cfg.docRoot) then SendError(st, req, 403, "Forbidden")
    else if |fp.names| == 0 then Raised(st, "NullPointerException")
    else
      var parent := Canonical(Path(fp.absolute, fp.names[..|fp.names| - 1]));
      match CreateDirectories(st.fs, parent)
      case Err(fault) => Raised(st, fault)
      case Ok(fs2) =>
        match WriteFile(fs2, Canonical(fp), req.body)
        case Err(fault) => Raised(st.(fs := fs2), fault)
        case Ok(fs3) =>
          var st3 := st.(fs := fs3);
          var name := LastName(fp);
          match AppendEntry(cfg, st3, name, Entry(EntryName(req.timestamp, name), req.body))
          case Err(fault) => Raised(st3, fault)
          case Ok(st4) => Ok200(st4, req, [], [])
  }

  predicate IsHandled(verb: string) {
    verb == "GET" || verb == "PUT" || verb == "OPTIONS" || verb == "HEAD"
  }

  /** The method switch; anything but the four save-protocol methods is not implemented. */
  function Dispatch(cfg: Config, st: State, req: Request): (r: Outcome)
    requires ValidConfig(cfg)
    ensures st.log < r.st.log && AppendOnly(st.archives, r.st.archives)
    ensures r.Replied? ==> r.resp.status in {200, 403, 404, 501}
    ensures r.Replied? && r.resp.status == 501 <==> !IsHandled(req.verb)
    ensures req.verb != "PUT" ==> r.st.fs == st.fs && r.st.archives == st.archives
  {
    AppendOnlyReflexive(st.archives);
    if req.verb == "GET" then HandleGet(cfg, st, req)
    else if req.verb == "PUT" then HandlePut(cfg, st, req)
    else if req.verb == "OPTIONS" then HandleOptions(st, req)
    else if req.verb == "HEAD" then HandleHead(cfg, st, req)
    else SendError(st, req, 501, "Not Implemented")
  }

  /** `TiddlyWikiHandler.handle`: the allow-list test before anything else, then dispatch;
      an exception is logged and answered with 500. */
  function Handle(cfg: Config, st: State, req: Request): (r: Outcome)
    requires ValidConfig(cfg)
    ensures r.Replied? && r.resp.status in {200, 403, 404, 500, 501}
    ensures st.log < r.st.log && AppendOnly(st.archives, r.st.archives)
    ensures req.remote !in cfg.allowed ==>
      r.resp.status == 403 && r.st.fs == st.fs && r.st.archives == st.archives
    ensures req.remote in cfg.allowed && !IsHandled(req.verb) ==>
      r.resp.status == 501 && r.st.fs == st.fs && r.st.archives == st.archives
    ensures req.verb != "PUT" ==> r.st.fs == st.fs && r.st.archives == st.archives
    ensures req.remote in cfg.allowed ==>
      (r.resp.status == 500 <==> Dispatch(cfg, st, req).Raised?)
      && (Dispatch(cfg, st, req).Replied? ==> r == Dispatch(cfg, st, req))
  {
    AppendOnlyReflexive(st.archives);
    if req.remote !in cfg.allowed then
      SendError(Log(st, NotAllowed(req.remote)), req, 403, "Forbidden")
    else
      match Dispatch(cfg, st, req)
      case Replied(s, resp) => Replied(s, resp)
      case Raised(s, fault) => InternalError(s, req, fault)
  }

  /** The `catch` of `handle`: the exception is logged, then answered with 500. */
  function InternalError(st: State, req: Request, fault: string): (r: Outcome)
    ensures r.Replied? && r.resp.status == 500 && r.st.fs == st.fs && r.st.archives == st.archives
    ensures st.log < r.st.log
  {
    SendError(Log(st, Failed(req.remote, fault)), req, 500, "Internal Server Error")
  }

  // ---------------------------------------------------------------------------
  // Properties across requests

  /** A PUT answered with 200 went through `handlePut` untouched by the 500 path. */
  lemma PutReplied(cfg: Config, st: State, req: Request)
    requires ValidConfig(cfg) && req.verb == "PUT"
    requires Handle(cfg, st, req).resp.status == 200
    ensures req.remote in cfg.allowed && HandlePut(cfg, st, req).Replied?
    ensures Handle(cfg, st, req) == HandlePut(cfg, st, req)
  {
  }

  /** A GET after a successful PUT of the same path returns exactly the bytes put. */
  lemma PutThenGet(cfg: Config, st: State, put: Request, get: Request)
    requires ValidConfig(cfg) && put.verb == "PUT" && get.verb == "GET"
    requires get.path == put.path && get.remote in cfg.allowed
    requires Handle(cfg, st, put).resp.status == 200
    ensures Handle(cfg, Handle(cfg, st, put).st, get).resp.status == 200
    ensures Handle(cfg, Handle(cfg, st, put).st, get).resp.body == put.body
  {
    PutReplied(cfg, st, put);
    var st2 := Handle(cfg, st, put).st;
    var fp := Target(cfg.docRoot, put.path).value;
    assert Canonical(fp) in st2.fs.files && st2.fs.files[Canonical(fp)] == put.body;
    assert Handle(cfg, st2, get) == HandleGet(cfg, st2, get);
  }

  /** Two successful PUTs of one path leave both payloads in its archive, in order, after
      whatever it held before; equal timestamps do not merge the entries. */
  lemma TwoPutsArchiveBoth(cfg: Config, st: State, put1: Request, put2: Request)
    requires ValidConfig(cfg) && put1.verb == "PUT" && put2.verb == "PUT" && put1.path == put2.path
    requires Handle(cfg, st, put1).resp.status == 200
    requires Handle(cfg, Handle(cfg, st, put1).st, put2).resp.status == 200
    ensures PutTarget(cfg, put1.path)
    ensures var name := LastName(Target(cfg.docRoot, put1.path).value);
            var zip := ArchiveName(name);
            Entries(Handle(cfg, Handle(cfg, st, put1).st, put2).st.archives, zip)
            == Entries(st.archives, zip) + [Entry(EntryName(put1.timestamp, name), put1.body),
                                            Entry(EntryName(put2.timestamp, name), put2.body)]
  {
    var st2 := Handle(cfg, st, put1).st;
    PutArchives(cfg, st, put1);
    PutArchives(cfg, st2, put2);
    var name := LastName(Target(cfg.docRoot, put1.path).value);
    var zip := ArchiveName(name);
    var e1 := Entry(EntryName(put1.timestamp, name), put1.body);
    var e2 := Entry(EntryName(put2.timestamp, name), put2.body);
    TwoAppends(st.archives, st2.archives, Handle(cfg, st2, put2).st.archives, zip, e1, e2);
  }

  lemma TwoAppends(a0: map<string, seq<Entry>>, a1: map<string, seq<Entry>>, a2: map<string, seq<Entry>>,
                   zip: string, e1: Entry, e2: Entry)
    requires Entries(a1, zip) == Entries(a0, zip) + [e1] && Entries(a2, zip) == Entries(a1, zip) + [e2]
    ensures Entries(a2, zip) == Entries(a0, zip) + [e1, e2]
  {
  }

  /** A successful PUT appends exactly its backup entry to its file's archive. */
  lemma PutArchives(cfg: Config, st: State, req: Request)
    requires ValidConfig(cfg) && req.verb == "PUT"
    requires Handle(cfg, st, req).resp.status == 200
    ensures PutTarget(cfg, req.path)
    ensures var name := LastName(Target(cfg.docRoot, req.path).value);
            Entries(Handle(cfg, st, req).st.archives, ArchiveName(name))
            == Entries(st.archives, ArchiveName(name)) + [Entry(EntryName(req.timestamp, name), req.body)]
  {
    PutReplied(cfg, st, req);
  }

  /** HEAD skips the sandbox test: a one-character relative request path names a file
      outside the root, which GET refuses and HEAD reports present. */
  lemma HeadSkipsSandbox(cfg: Config, st: State, get: Request, head: Request, c: char, rest: seq<string>)
    requires ValidConfig(cfg) && get.remote in cfg.allowed && head.remote in cfg.allowed
    requires c != '/' && c != '.' && |rest| > 0 && WellFormed(rest) && Clean(rest)
    requires !HasNul([c] + "/" + Join(rest, "/"))
    requires get.verb == "GET" && head.verb == "HEAD" && get.path == head.path == [c] + "/" + Join(rest, "/")
    requires !(cfg.docRoot.names <= rest) && rest in st.fs.files
    ensures Handle(cfg, st, get).resp.status == 403
    ensures Handle(cfg, st, head).resp.status == 200
  {
    OneCharRelativeRequestBecomesAbsolute(cfg.docRoot, c, rest);
    NormalizeClean(true, [], rest);
    assert [] + rest == rest;
    assert Handle(cfg, st, get) == HandleGet(cfg, st, get);
    assert Handle(cfg, st, head) == HandleHead(cfg, st, head);
  }

  /** An absolute request path never leaves the root: GET either reads a file at or below
      the document root or reports it missing. */
  lemma AbsoluteGetReadsInsideRoot(cfg: Config, st: State, req: Request)
    requires ValidConfig(cfg) && req.verb == "GET" && req.remote in cfg.allowed
    requires |req.path| > 0 && req.path[0] == '/' && !HasNul(req.path)
    ensures Handle(cfg, st, req).resp.status in {200, 404}
    ensures Handle(cfg, st, req).resp.status == 200 ==>
      exists key :: key in st.fs.files && cfg.docRoot.names <= key && Handle(cfg, st, req).resp.body == st.fs.files[key]
  {
    AbsoluteRequestStaysInside(cfg.docRoot, req.path);
    assert Handle(cfg, st, req) == HandleGet(cfg, st, req);
    var key := Canonical(Target(cfg.docRoot, req.path).value);
    if Handle(cfg, st, req).resp.status == 200 {
      assert key in st.fs.files;
    }
  }

  /** The lexical sandbox test lets `../../<rest>` through, and the file actually read
      sits beside the document root, one level above it. */
  lemma DoubleDotGetReadsAboveRoot(cfg: Config, st: State, req: Request, rest: seq<string>)
    requires ValidConfig(cfg) && |cfg.docRoot.names| > 0
    requires req.verb == "GET" && req.remote in cfg.allowed
    requires |rest| > 0 && WellFormed(rest) && Clean(rest)
    requires req.path == "../../" + Join(rest, "/") && !HasNul(req.path)
    requires cfg.docRoot.names[..|cfg.docRoot.names| - 1] + rest in st.fs.files
    ensures Handle(cfg, st, req).resp.status == 200
    ensures Handle(cfg, st, req).resp.body == st.fs.files[cfg.docRoot.names[..|cfg.docRoot.names| - 1] + rest]
  {
    DoubleDotRequestEscapesRoot(cfg.docRoot, rest);
    assert Handle(cfg, st, req) == HandleGet(cfg, st, req);
  }

  /** OPTIONS from an allowed client always gets the capability answer, whatever the path,
      and changes neither the files nor the archives. */
  lemma OptionsAnswer(cfg: Config, st: State, req: Request)
    requires ValidConfig(cfg) && req.verb == "OPTIONS" && req.remote in cfg.allowed
    ensures Handle(cfg, st, req).resp == Response(200, OptionsHeaders, [])
    ensures Handle(cfg, st, req).st.fs == st.fs && Handle(cfg, st, req).st.archives == st.archives
  {
  }
}

=== FILE: tw5_python.dfy ===
/** The Python TiddlyWiki save server (tiddlywiki/tw5server.py): request-line checks, the
    allow-list, query rewriting for spreadsheet tables, and the sandboxed PUT with backup. */
module Tw5Python {
  import opened Wrap
  import opened Text
  import opened Http
  import opened Archive
  import Xls2Tw

  const MaxRequestLine := 65536
  const MaxColumns := 12
  const MaxRows := 70
  const ToTw5Table := "?to-tw5-table"
  const ToJiraTable := "?to-jira-table"
  const StartFileQuery := "?startfile"

  // ---------------------------------------------------------------------------
  // Query rewriting

  /** `[?&]timestamp=` and thirteen digits ending exactly at `end`. */
  predicate TimestampEndsAt(path: string, end: nat)
    requires end <= |path|
  {
    end >= 24 && (path[end - 24] == '?' || path[end - 24] == '&')
    && path[end - 23..end - 13] == "timestamp=" && AllDigits(path[end - 13..end])
  }

  /** `RX_TIMESTAMP.sub('', path)`: the pattern is anchored by `$`, which matches at the
      end of the text or just before a final newline, so at most one occurrence goes. */
  function RemoveTimestamp(path: string): (r: string)
    ensures |r| <= |path|
  {
    if TimestampEndsAt(path, |path|) then path[..|path| - 24]
    else if |path| > 0 && path[|path| - 1] == '\n' && TimestampEndsAt(path, |path| - 1) then
      path[..|path| - 25] + "\n"
    else path
  }

  /** A cache-busting timestamp appended to a path is taken off again. */
  lemma RemoveTimestampOfSuffix(path: string, sep: char, digits: string)
    requires sep == '?' || sep == '&'
    requires |digits| == 13 && AllDigits(digits)
    ensures RemoveTimestamp(path + [sep] + "timestamp=" + digits) == path
  {
    var p := path + [sep] + "timestamp=" + digits;
    assert p[|p| - 24] == sep;
    assert p[|p| - 23..|p| - 13] == "timestamp=";
    assert p[|p| - 13..] == digits;
    assert p[..|p| - 24] == path;
  }

  /** A path that does not end in a timestamp query is left alone. */
  lemma RemoveTimestampNoMatch(path: string)
    requires !TimestampEndsAt(path, |path|)
    requires |path| == 0 || path[|path| - 1] != '\n'
    ensures RemoveTimestamp(path) == path
  {
  }

  /** A twelve-digit stamp is not a timestamp query. */
  lemma TwelveDigitsKept(path: string, digits: string)
    requires |digits| == 12 && AllDigits(digits)
    ensures RemoveTimestamp(path + "?timestamp=" + digits) == path + "?timestamp=" + digits
  {
    var p := path + "?timestamp=" + digits;
    assert p[|p| - 1] == digits[11];
    assert p[|p| - 13] == '=';
  }

  /** `_remove_to_table_from_path`: only the TW5 table query is taken out. */
  function RemoveToTable(path: string): string {
    Replace(path, ToTw5Table, "")
  }

  predicate IsForTw5(originalPath: string) {
    Contains(originalPath, ToTw5Table)
  }

  predicate IsForJira(originalPath: string) {
    Contains(originalPath, ToJiraTable)
  }

  // ---------------------------------------------------------------------------
  // Spreadsheet tables

  /** What the server finds under a translated name: a workbook (the extent of its first
      worksheet and the worksheet itself), a file `load_workbook` rejects with an
      exception that is not an `OSError` (`InvalidFileException`, `BadZipFile`), or a name
      that cannot be opened (a directory, a file without read permission), which raises an
      `OSError`. */
  datatype Stored =
    | Workbook(maxColumn: nat, maxRow: nat, first: Xls2Tw.Worksheet)
    | NotAWorkbook(fault: string)
    | Unopenable

  predicate TooLarge(maxColumn: nat, maxRow: nat) {
    maxColumn > MaxColumns || maxRow > MaxRows
  }

  /** The table shown instead of a worksheet beyond the size limits. */
  function TooLargeTable(fileName: string, maxColumn: nat, maxRow: nat): string {
    "|" + fileName + "<br/> has too many columns and/or rows|<|<|h\n"
    + "|Columns | " + NatToString(maxColumn) + "|12 is the limit |\n"
    + "|Rows | " + NatToString(maxRow) + "|70 is the limit |\n"
  }

  /** The footer row linking back to the workbook and to both table flavours. */
  function Footer(path: string, originalPath: string): string {
    "|[ext[" + path + StartFileQuery + "]] [ext[text:tw5|" + originalPath + "]] [ext[text:jira|"
    + Replace(originalPath, ToTw5Table, ToJiraTable) + "]]|c\n"
  }

  /** `os.path.basename` of the translated path: its last name. */
  function BaseName(names: seq<string>): string {
    if |names| == 0 then "" else names[|names| - 1]
  }

  /** `_convert_to_table`: the size guard, then the flavour's converter on the first
      worksheet, with the footer only in front of a TW5 table; a converter that raises
      yields `Err`. */
  function TableText(names: seq<string>, maxColumn: nat, maxRow: nat, first: Xls2Tw.Worksheet,
                     tw5: bool, path: string, originalPath: string): (r: Result<string>)
    ensures TooLarge(maxColumn, maxRow) ==> r == Ok(TooLargeTable(BaseName(names), maxColumn, maxRow))
    ensures !TooLarge(maxColumn, maxRow) ==>
      var converted := Xls2Tw.Convert(if tw5 then Xls2Tw.Tw5 else Xls2Tw.Jira, first);
      (r.Ok? <==> converted.Ok?)
      && (r.Ok? ==> r.value == (if tw5 then Footer(path, originalPath) else "") + converted.value)
  {
    if TooLarge(maxColumn, maxRow) then Ok(TooLargeTable(BaseName(names), maxColumn, maxRow))
    else
      var table :- Xls2Tw.Convert(if tw5 then Xls2Tw.Tw5 else Xls2Tw.Jira, first);
      if tw5 then Ok(Footer(path, originalPath) + table) else Ok(table)
  }

  /** What `do_GET` does with a path. */
  datatype GetPlan =
    | ConvertTable(path: string, tw5: bool)
    | StartFile(path: string)
    | ServeFile(path: string)

  /** `do_GET`'s branching: table conversion is decided on the original path, the start-file
      query on the path without its timestamp. */
  function PlanGet(xlsxEnabled: bool, requestPath: string): (plan: GetPlan)
    ensures plan.ConvertTable? <==> xlsxEnabled && (IsForTw5(requestPath) || IsForJira(requestPath))
    ensures plan.ConvertTable? ==>
      plan.tw5 == IsForTw5(requestPath) && plan.path == RemoveToTable(RemoveTimestamp(requestPath))
    ensures plan.StartFile? <==> !plan.ConvertTable? && Contains(RemoveTimestamp(requestPath), StartFileQuery)
    ensures plan.ServeFile? ==> plan.path == RemoveTimestamp(requestPath)
  {
    var path := RemoveTimestamp(requestPath);
    if xlsxEnabled && (IsForTw5(requestPath) || IsForJira(requestPath)) then
      ConvertTable(RemoveToTable(path), IsForTw5(requestPath))
    else if Contains(path, StartFileQuery) then StartFile(RemoveToTable(path))
    else ServeFile(path)
  }

  // ---------------------------------------------------------------------------
  // State, requests and outcomes

  /** Files and directories by resolved absolute names; archives by their file name in the
      backup directory (the document root). */
  datatype PyState = PyState(files: map<seq<string>, Bytes>, dirs: set<seq<string>>, archives: map<string, seq<Entry>>)

  /** The document root (already resolved), the allow-list, whether the spreadsheet modules
      imported, the standard library's `translate_path` and `Path.resolve` as given maps,
      and what is stored under each translated name. */
  datatype PyConfig = PyConfig(
    root: seq<string>,
    allowed: set<string>,
    xlsxEnabled: bool,
    translate: string -> seq<string>,
    resolve: seq<string> -> seq<string>,
    stored: map<seq<string>, Stored>)

  /** What `parse_request` made of the request line. */
  datatype RequestLine = Unparsable(code: nat) | RequestLine(command: string, path: string)

  /** `rawLength` is the length `readline(65537)` returned. */
  datatype PyRequest = PyRequest(
    remote: string,
    rawLength: nat,
    line: RequestLine,
    contentLength: Option<string>,
    body: Bytes,
    timestamp: string)

  datatype PyOutcome =
    | Closed                                            // nothing is sent
    | ErrorPage(status: nat)                            // `send_error`
    | Reply(status: nat, headers: seq<Header>, body: string)
    | OpenFile(names: seq<string>)                      // 204, then the desktop opens the file
    | StaticFile(path: string, withBody: bool)          // the standard file handler's reply
    | Dropped(fault: string)                            // an exception ends the connection

  const OptionsHeaders := [Header("Allow", "GET,HEAD,OPTIONS,PUT"), Header("x-api-access-type", "file"), Header("dav", "tw5/put")]

  const TextPlain := Header("Content-type", "text/plain; charset=\"utf-8\"")

  predicate HasHandler(command: string) {
    command == "GET" || command == "HEAD" || command == "PUT" || command == "OPTIONS"
  }

  // ---------------------------------------------------------------------------
  // Handlers

  /** `_convert_to_table_and_send_head`: 404 when the name is missing or cannot be opened
      (the handler catches `OSError` only); a file that is not a workbook, or a worksheet
      the converter rejects, raises past the handler and the connection is dropped;
      otherwise the table as plain text, and HEAD sends the headers only. */
  function ConvertAndSend(cfg: PyConfig, path: string, tw5: bool, originalPath: string, withBody: bool): (r: PyOutcome)
    ensures var names := cfg.translate(path);
      && (r.ErrorPage? <==> names !in cfg.stored || cfg.stored[names].Unopenable?)
      && (r.ErrorPage? ==> r.status == 404)
      && (names in cfg.stored && cfg.stored[names].NotAWorkbook? ==> r == Dropped(cfg.stored[names].fault))
      && (r.Reply? <==> names in cfg.stored && cfg.stored[names].Workbook?
                        && TableText(names, cfg.stored[names].maxColumn, cfg.stored[names].maxRow,
                                     cfg.stored[names].first, tw5, path, originalPath).Ok?)
      && (r.Reply? ==> r.status == 200 && r.headers == [TextPlain]
                       && r.body == (if withBody then TableText(names, cfg.stored[names].maxColumn, cfg.stored[names].maxRow,
                                                                cfg.stored[names].first, tw5, path, originalPath).value
                                     else ""))
      && (r.Dropped? || r.ErrorPage? || r.Reply?)
  {
    var names := cfg.translate(path);
    if names !in cfg.stored then ErrorPage(404)
    else match cfg.stored[names]
      case Unopenable => ErrorPage(404)
      case NotAWorkbook(fault) => Dropped(fault)
      case Workbook(maxColumn, maxRow, first) =>
        match TableText(names, maxColumn, maxRow, first, tw5, path, originalPath)
        case Err(fault) => Dropped(fault)
        case Ok(text) => Reply(200, [TextPlain], if withBody then text else "")
  }

  function DoGet(cfg: PyConfig, requestPath: string): PyOutcome {
    match PlanGet(cfg.xlsxEnabled, requestPath)
    case ConvertTable(path, tw5) => ConvertAndSend(cfg, path, tw5, requestPath, true)
    case StartFile(path) => OpenFile(cfg.translate(path))
    case ServeFile(path) => StaticFile(path, true)
  }

  /** `do_HEAD`: the table branch without a body; no start-file branch. */
  function DoHead(cfg: PyConfig, requestPath: string): PyOutcome {
    var path := RemoveTimestamp(requestPath);
    if cfg.xlsxEnabled && (IsForTw5(requestPath) || IsForJira(requestPath)) then
      ConvertAndSend(cfg, RemoveToTable(path), IsForTw5(requestPath), requestPath, false)
    else StaticFile(path, false)
  }

  /** The timestamp query never contains a table query: its only `?` is its first
      character, which is followed by `ti`. */
  lemma NoTableQueryInStamp(sep: char, digits: string, query: string)
    requires sep == '?' || sep == '&'
    requires AllDigits(digits)
    requires |query| >= 3 && query[0] == '?' && query[1] == 't' && query[2] != 'i'
    ensures !Contains([sep] + "timestamp=" + digits, query)
  {
    var stamp := [sep] + "timestamp=" + digits;
    assert stamp[2] == 'i';
    assert forall j :: 1 <= j < |stamp| ==> stamp[j] != '?' by {
      forall j | 1 <= j < |stamp| ensures stamp[j] != '?' {
        if j >= 11 { assert stamp[j] == digits[j - 11]; }
      }
    }
    forall i: nat | i <= |stamp| ensures !OccursAt(stamp, query, i) {
      if i + |query| <= |stamp| {
        assert stamp[i..i + |query|][0] == stamp[i];
        assert stamp[i..i + |query|][2] == stamp[i + 2];
      }
    }
  }

  /** The timestamp a browser appends to defeat caching does not change a GET: the same
      plan, and for a Jira table or any other file the same outcome (a TW5 table's footer
      repeats the request as sent, so only its first line can differ). */
  lemma TimestampIgnored(cfg: PyConfig, path: string, sep: char, digits: string)
    requires RemoveTimestamp(path) == path
    requires sep == '?' || sep == '&'
    requires |digits| == 13 && AllDigits(digits)
    ensures var stamped := path + [sep] + "timestamp=" + digits;
      && PlanGet(cfg.xlsxEnabled, stamped) == PlanGet(cfg.xlsxEnabled, path)
      && (!IsForTw5(path) ==> DoGet(cfg, stamped) == DoGet(cfg, path))
  {
    var stamp := [sep] + "timestamp=" + digits;
    var stamped := path + [sep] + "timestamp=" + digits;
    assert stamped == path + stamp;
    RemoveTimestampOfSuffix(path, sep, digits);
    NoTableQueryInStamp(sep, digits, ToTw5Table);
    NoTableQueryInStamp(sep, digits, ToJiraTable);
    assert forall k :: 1 <= k < |ToTw5Table| ==> ToTw5Table[k] != sep;
    assert forall k :: 1 <= k < |ToJiraTable| ==> ToJiraTable[k] != sep;
    ContainsAppend(path, stamp, ToTw5Table);
    ContainsAppend(path, stamp, ToJiraTable);
  }

  /** A Jira table request for a workbook within the size limits is answered with the
      converter's Jira markup of its first worksheet, with no footer. */
  lemma JiraTableServed(cfg: PyConfig, requestPath: string)
    requires cfg.xlsxEnabled && IsForJira(requestPath) && !IsForTw5(requestPath)
    requires var names := cfg.translate(RemoveToTable(RemoveTimestamp(requestPath)));
      names in cfg.stored && cfg.stored[names].Workbook?
      && !TooLarge(cfg.stored[names].maxColumn, cfg.stored[names].maxRow)
    ensures var ws := cfg.stored[cfg.translate(RemoveToTable(RemoveTimestamp(requestPath)))].first;
      DoGet(cfg, requestPath) == Reply(200, [TextPlain], Join(Xls2Tw.JiraRows(ws.rows), "\r\n"))
  {
    var ws := cfg.stored[cfg.translate(RemoveToTable(RemoveTimestamp(requestPath)))].first;
    Xls2Tw.JiraTable(ws);
  }

  /** A TW5 table request for a workbook within the size limits is answered with the
      footer and then the converter's TW5 markup, or the connection is dropped when the
      worksheet has no rows. */
  lemma Tw5TableServed(cfg: PyConfig, requestPath: string)
    requires cfg.xlsxEnabled && IsForTw5(requestPath)
    requires var names := cfg.translate(RemoveToTable(RemoveTimestamp(requestPath)));
      names in cfg.stored && cfg.stored[names].Workbook?
      && !TooLarge(cfg.stored[names].maxColumn, cfg.stored[names].maxRow)
    ensures var path := RemoveToTable(RemoveTimestamp(requestPath));
      var ws := cfg.stored[cfg.translate(path)].first;
      && (|ws.rows| == 0 ==> DoGet(cfg, requestPath) == Dropped("IndexError"))
      && (DoGet(cfg, requestPath).Reply? ==>
            exists table :: Xls2Tw.Convert(Xls2Tw.Tw5, ws) == Ok(table)
                            && DoGet(cfg, requestPath).body == Footer(path, requestPath) + table)
  {
    var path := RemoveToTable(RemoveTimestamp(requestPath));
    var ws := cfg.stored[cfg.translate(path)].first;
    if DoGet(cfg, requestPath).Reply? {
      var table := Xls2Tw.Convert(Xls2Tw.Tw5, ws).value;
      assert DoGet(cfg, requestPath).body == Footer(path, requestPath) + table;
    }
  }

  /** `Path.stem`: the name without its suffix, a suffix being a last dot that is neither
      the first nor the last character. */
  function PyStem(name: string): string {
    match LastIndexOf(name, '.')
    case Some(i) => if 0 < i < |name| - 1 then name[..i] else name
    case None => name
  }

  function ZipName(names: seq<string>): string {
    PyStem(if |names| == 0 then "" else names[|names| - 1]) + "-tw5.zip"
  }

  /** The resolved target is the document root or lies below it. */
  predicate InsideRoot(root: seq<string>, resolved: seq<string>) {
    resolved == root || root < resolved
  }

  /** `rfile.read(size)`: a negative size reads to the end of the stream. */
  function ReadBody(body: Bytes, size: int): (data: Bytes)
    ensures data <= body
    ensures size < 0 || size >= |body| ==> data == body
    ensures 0 <= size <= |body| ==> |data| == size
  {
    if size < 0 || size >= |body| then body else body[..size]
  }

  /** `do_PUT`: the resolved-ancestor test, `int(Content-Length)`, the overwrite (no parent
      directories are created) and the backup entry. */
  function DoPut(cfg: PyConfig, st: PyState, req: PyRequest, requestPath: string): (r: (PyState, PyOutcome))
    ensures AppendOnly(st.archives, r.0.archives)
    ensures !InsideRoot(cfg.root, cfg.resolve(cfg.translate(requestPath))) ==> r == (st, ErrorPage(403))
    ensures r.1.ErrorPage? ==> r.1.status == 403
    ensures r.0.files != st.files ==>
      InsideRoot(cfg.root, cfg.resolve(cfg.translate(requestPath))) && req.contentLength.Some?
      && ParseInt(req.contentLength.value).Some?
      && r.0.files == st.files[cfg.resolve(cfg.translate(requestPath)) := ReadBody(req.body, ParseInt(req.contentLength.value).value)]
    ensures r.1.Reply? ==>
      r.1 == Reply(200, [], "")
      && InsideRoot(cfg.root, cfg.resolve(cfg.translate(requestPath)))
      && (var size := ParseInt(req.contentLength.GetOr("")).GetOr(0);
          var names := cfg.translate(requestPath);
          var data := ReadBody(req.body, size);
          r.0.files == st.files[cfg.resolve(names) := data]
          && r.0.archives == Append(st.archives, ZipName(names), Entry(req.timestamp + "~" + (if |names| == 0 then "" else names[|names| - 1]), data)))
  {
    AppendOnlyReflexive(st.archives);
    var names := cfg.translate(requestPath);
    var resolved := cfg.resolve(names);
    if !InsideRoot(cfg.root, resolved) then (st, ErrorPage(403))
    else match req.contentLength
      case None => (st, Dropped("TypeError"))
      case Some(header) =>
        match ParseInt(header)
        case None => (st, Dropped("ValueError"))
        case Some(size) =>
          var data := ReadBody(req.body, size);
          if |resolved| == 0 || resolved in st.dirs || resolved[..|resolved| - 1] !in st.dirs then (st, Dropped("OSError"))
          else
            var st2 := st.(files := st.files[resolved := data]);
            var zip := ZipName(names);
            if cfg.root + [zip] in st2.dirs then (st2, Dropped("OSError"))
            else
              var name := if |names| == 0 then "" else names[|names| - 1];
              (st2.(archives := Append(st2.archives, zip, Entry(req.timestamp + "~" + name, data))), Reply(200, [], ""))
  }

  /** A request that passes every gate of `handle_one_request` and reaches its `do_` method:
      a request line of acceptable length that parses, a known method, a listed client. */
  predicate Admitted(cfg: PyConfig, req: PyRequest) {
    0 < req.rawLength <= MaxRequestLine && req.line.RequestLine? && HasHandler(req.line.command)
    && req.remote in cfg.allowed
  }

  /** `handle_one_request`: the request-line length, the blank line, the parse, the method
      check, and only then the allow-list, before the handler runs. */
  function Handle(cfg: PyConfig, st: PyState, req: PyRequest): (r: (PyState, PyOutcome))
    ensures AppendOnly(st.archives, r.0.archives)
    ensures req.rawLength > MaxRequestLine ==> r == (st, ErrorPage(414))
    ensures req.rawLength == 0 ==> r == (st, Closed)
    ensures 0 < req.rawLength <= MaxRequestLine && req.line.RequestLine? && !HasHandler(req.line.command) ==>
      r == (st, ErrorPage(501))
    ensures (0 < req.rawLength <= MaxRequestLine && req.line.RequestLine? && HasHandler(req.line.command)
             && req.remote !in cfg.allowed) ==> r == (st, ErrorPage(403))
    ensures r.0 != st ==> req.line.RequestLine? && req.line.command == "PUT" && req.remote in cfg.allowed
    ensures 0 < req.rawLength <= MaxRequestLine && req.line.Unparsable? ==> r == (st, ErrorPage(req.line.code))
    ensures Admitted(cfg, req) && req.line.command == "GET" ==> r == (st, DoGet(cfg, req.line.path))
    ensures Admitted(cfg, req) && req.line.command == "HEAD" ==> r == (st, DoHead(cfg, req.line.path))
    ensures Admitted(cfg, req) && req.line.command == "PUT" ==> r == DoPut(cfg, st, req, req.line.path)
    ensures Admitted(cfg, req) && req.line.command == "OPTIONS" ==> r == (st, Reply(200, OptionsHeaders, ""))
  {
    AppendOnlyReflexive(st.archives);
    if req.rawLength > MaxRequestLine then (st, ErrorPage(414))
    else if req.rawLength == 0 then (st, Closed)
    else match req.line
      case Unparsable(code) => (st, ErrorPage(code))
      case RequestLine(command, path) =>
        if !HasHandler(command) then (st, ErrorPage(501))
        else if req.remote !in cfg.allowed then (st, ErrorPage(403))
        else if command == "GET" then (st, DoGet(cfg, path))
        else if command == "HEAD" then (st, DoHead(cfg, path))
        else if command == "PUT" then DoPut(cfg, st, req, path)
        else (st, Reply(200, OptionsHeaders, ""))
  }

  /** An allowed OPTIONS request is answered 200 with the capability headers, whose `Allow`
      value names exactly the methods that have a handler, and changes nothing. */
  lemma OptionsAnswer(cfg: PyConfig, st: PyState, req: PyRequest)
    requires 0 < req.rawLength <= MaxRequestLine && req.line.RequestLine? && req.line.command == "OPTIONS"
    requires req.remote in cfg.allowed
    ensures Handle(cfg, st, req) == (st, Reply(200, OptionsHeaders, ""))
    ensures OptionsHeaders[0] == Header("Allow", "GET,HEAD,OPTIONS,PUT")
    ensures forall c :: HasHandler(c) <==> c in ["GET", "HEAD", "OPTIONS", "PUT"]
  {
  }
}

=== FILE: wrap.dfy ===
/** Failure-carrying wrappers shared by every module of the model. */
module Wrap {

  /** A value that may be absent (Python's `None`, Java's `null`). */
  datatype Option<+T> = None | Some(value: T) {
    function GetOr(default: T): T {
      match this
      case Some(v) => v
      case None => default
    }
  }

  /** The outcome of an operation that may raise: `Err` carries the exception's description. */
  datatype Result<+T> = Ok(value: T) | Err(msg: string) {
    predicate IsFailure() {
      Err?
    }

    function PropagateFailure<U>(): Result<U>
      requires Err?
    {
      Err(msg)
    }

    function Extract(): T
      requires Ok?
    {
      value
    }
  }

  /** `f` applied to every element in order; the first failure is the outcome, as a
      Python loop that raises at the first bad element. */
  function MapAll<T, U>(xs: seq<T>, f: T -> Result<U>): (r: Result<seq<U>>)
    ensures r.Ok? <==> forall i :: 0 <= i < |xs| ==> f(xs[i]).Ok?
    ensures r.Ok? ==> |r.value| == |xs| && forall i :: 0 <= i < |xs| ==> Ok(r.value[i]) == f(xs[i])
    ensures r.Err? ==> exists i :: 0 <= i < |xs| && f(xs[i]) == Err(r.msg)
    decreases |xs|
  {
    if |xs| == 0 then Ok([])
    else
      var d := f(xs[0]);
      var rest := MapAll(xs[1..], f);
      assert forall i :: 1 <= i < |xs| ==> xs[i] == xs[1..][i - 1];
      if d.Err? then Err(d.msg)
      else if rest.Err? then Err(rest.msg)
      else Ok([d.value] + rest.value)
  }
}

=== FILE: xls2tw.dfy ===
/** The spreadsheet-to-table renderer (tiddlywiki/xls2tw.py): a worksheet's rows become
    TiddlyWiki 5 or Jira table markup. */
module Xls2Tw {
  import opened Wrap
  import opened Text

  datatype Flavor = Tw5 | Jira

  datatype MergeStatus = TopLeft | Below | ToRight | Outside

  datatype Coord = Coord(col: int, row: int)

  /** A merged range from its first to its last cell, both included. */
  datatype Bounds = Bounds(beg: Coord, end: Coord)

  /** A cell: its position, its value already turned into text, and its alignments
      (absent when the workbook sets none). */
  datatype Cell = Cell(col: int, row: int, value: Option<string>, vertical: Option<string>, horizontal: Option<string>)

  /** The worksheet's rows in order and its merged ranges in the workbook's order. */
  datatype Worksheet = Worksheet(rows: seq<seq<Cell>>, merged: seq<Bounds>)

  // ---------------------------------------------------------------------------
  // Merged cells

  predicate InRange(b: Bounds, c: Coord) {
    b.beg.col <= c.col <= b.end.col && b.beg.row <= c.row <= b.end.row
  }

  /** A range settles a cell's status when the cell is its first cell or lies inside it. */
  predicate Decides(b: Bounds, c: Coord) {
    c == b.beg || InRange(b, c)
  }

  /** The status the deciding range gives: the first cell stays, cells in lower rows are
      covered from above, the rest of the first row from the left. */
  function Classify(b: Bounds, c: Coord): MergeStatus {
    if c == b.beg then TopLeft
    else if c.row > b.beg.row then Below
    else ToRight
  }

  /** `_get_cell_merged_status`: the ranges are scanned in order and the first deciding
      one classifies the cell. */
  function MergedStatus(ranges: seq<Bounds>, c: Coord): (r: MergeStatus)
    ensures r == Outside <==> forall k :: 0 <= k < |ranges| ==> !Decides(ranges[k], c)
    ensures r != Outside ==>
      exists k :: 0 <= k < |ranges| && Decides(ranges[k], c) && r == Classify(ranges[k], c)
        && forall j :: 0 <= j < k ==> !Decides(ranges[j], c)
    decreases |ranges|
  {
    if |ranges| == 0 then Outside
    else if Decides(ranges[0], c) then Classify(ranges[0], c)
    else
      var r := MergedStatus(ranges[1..], c);
      assert forall k :: 1 <= k < |ranges| ==> ranges[k] == ranges[1..][k - 1];
      r
  }

  /** Inside a range, the status depends only on where the cell sits relative to the first
      cell, so in a sheet whose ranges do not overlap the scan order does not matter. */
  lemma MergedStatusInOnlyRange(ranges: seq<Bounds>, k: nat, c: Coord)
    requires k < |ranges| && InRange(ranges[k], c)
    requires forall j :: 0 <= j < |ranges| && j != k ==> !Decides(ranges[j], c)
    ensures MergedStatus(ranges, c) == Classify(ranges[k], c)
    ensures MergedStatus(ranges, c) == Below <==> c.row > ranges[k].beg.row
    ensures MergedStatus(ranges, c) == ToRight <==> c.row == ranges[k].beg.row && c.col > ranges[k].beg.col
  {
  }

  // ---------------------------------------------------------------------------
  // Cell text

  function StripSpaces(s: string): string {
    Strip(s, c => c == ' ')
  }

  /** `_replace_tw5_merge_steering_chars`: a leading `^` or `,` would steer TiddlyWiki's
      cell alignment, so it becomes its character reference. */
  function ReplaceSteering(v: string): (r: string)
    requires |v| > 0
    ensures |r| > 0 && r[0] != '^' && r[0] != ','
    ensures |r| >= |v| && r[|r| - |v| + 1..] == v[1..]
    ensures v[0] != '^' && v[0] != ',' ==> r == v
  {
    if v[0] == '^' then "&#94;" + v[1..]
    else if v[0] == ',' then "&#44;" + v[1..]
    else v
  }

  /** `_get_value`: no value is empty text; otherwise the text without surrounding spaces,
      with steering characters replaced only for TW5 and only when something is left. */
  function CellValue(cell: Cell, tw5: bool): (r: string)
    ensures cell.value.None? ==> r == ""
    ensures cell.value.Some? && !tw5 ==> r == StripSpaces(cell.value.value)
    ensures r == "" <==> cell.value.None? || StripSpaces(cell.value.value) == ""
  {
    match cell.value
    case None => ""
    case Some(s) =>
      var v := StripSpaces(s);
      if v != "" && tw5 then ReplaceSteering(v) else v
  }

  function VerticalPrefix(vertical: Option<string>): string {
    if vertical == Some("top") then "^"
    else if vertical == Some("bottom") then ","
    else ""
  }

  function Aligned(horizontal: Option<string>, value: string): string {
    if horizontal == Some("left") then value + " "
    else if horizontal == Some("center") then " " + value + " "
    else if horizontal == Some("right") then " " + value
    else value
  }

  /** `_get_tw5formated_value`: a covered cell is a merge marker whatever it holds;
      any other cell is its alignment markup around its value, line breaks as `<br/>`. */
  function Tw5Text(ranges: seq<Bounds>, cell: Cell): (r: string)
    ensures MergedStatus(ranges, Coord(cell.col, cell.row)) == Below ==> r == "~"
    ensures MergedStatus(ranges, Coord(cell.col, cell.row)) == ToRight ==> r == "<"
    ensures MergedStatus(ranges, Coord(cell.col, cell.row)) in {TopLeft, Outside} ==>
      r == VerticalPrefix(cell.vertical) + Aligned(cell.horizontal, Replace(CellValue(cell, true), "\n", "<br/>"))
  {
    match MergedStatus(ranges, Coord(cell.col, cell.row))
    case Below => "~"
    case ToRight => "<"
    case _ =>
      VerticalPrefix(cell.vertical) + Aligned(cell.horizontal, Replace(CellValue(cell, true), "\n", "<br/>"))
  }

  /** A cell covered by a merged range, other than its top-left cell, is a one-character
      merge marker whatever it holds: two cells at the same place read alike. */
  lemma CoveredIgnoresContent(ranges: seq<Bounds>, a: Cell, b: Cell)
    requires a.col == b.col && a.row == b.row
    requires MergedStatus(ranges, Coord(a.col, a.row)) in {Below, ToRight}
    ensures Tw5Text(ranges, a) == Tw5Text(ranges, b) && |Tw5Text(ranges, a)| == 1
  {
  }

  /** A cell that is neither merged nor aligned shows just its value. */
  lemma PlainCellText(ranges: seq<Bounds>, cell: Cell)
    requires forall k :: 0 <= k < |ranges| ==> !Decides(ranges[k], Coord(cell.col, cell.row))
    requires cell.vertical.None? && cell.horizontal.None?
    ensures Tw5Text(ranges, cell) == Replace(CellValue(cell, true), "\n", "<br/>")
  {
    assert MergedStatus(ranges, Coord(cell.col, cell.row)) == Outside;
    var v := Replace(CellValue(cell, true), "\n", "<br/>");
    assert VerticalPrefix(cell.vertical) + Aligned(cell.horizontal, v) == v;
  }

  /** Replacing line breaks keeps a leading character other than a line break, and
      turns a leading line break into `<`. */
  lemma ReplaceBreaksFirst(s: string)
    requires |s| > 0
    ensures var t := Replace(s, "\n", "<br/>");
            |t| > 0 && t[0] == (if s[0] == '\n' then '<' else s[0])
  {
    if "\n" <= s {
      assert s[0] == '\n';
    } else {
      assert s[0] != '\n' by {
        assert [s[0]] <= s;
      }
    }
  }

  /** A cell's own `^` or `,` is replaced, so a merge-steering character at the start of
      an unmerged cell's text with a value is always the cell's vertical alignment. */
  lemma SteeringOnlyFromAlignment(ranges: seq<Bounds>, cell: Cell)
    requires MergedStatus(ranges, Coord(cell.col, cell.row)) in {TopLeft, Outside}
    requires CellValue(cell, true) != ""
    ensures var t := Tw5Text(ranges, cell);
            |t| > 0 && (t[0] == '^' <==> cell.vertical == Some("top")) && (t[0] == ',' <==> cell.vertical == Some("bottom"))
  {
    var v := CellValue(cell, true);
    var stripped := StripSpaces(cell.value.value);
    assert v == ReplaceSteering(stripped);
    ReplaceBreaksFirst(v);
    var body := Replace(v, "\n", "<br/>");
    var a := Aligned(cell.horizontal, body);
    assert |a| > 0 && a[0] != '^' && a[0] != ',' by {
      if cell.horizontal == Some("center") || cell.horizontal == Some("right") {
        assert a[0] == ' ';
      } else {
        assert a[0] == body[0];
      }
    }
  }

  // ---------------------------------------------------------------------------
  // Rows and tables

  /** Every cell's TW5 text, in order. */
  function Tw5Texts(ranges: seq<Bounds>, cells: seq<Cell>): (texts: seq<string>)
    ensures |texts| == |cells| && forall i :: 0 <= i < |cells| ==> texts[i] == Tw5Text(ranges, cells[i])
  {
    seq(|cells|, i requires 0 <= i < |cells| => Tw5Text(ranges, cells[i]))
  }

  /** The text kept last, `''` before the first. */
  function LastKept(vals: seq<string>): string {
    if |vals| == 0 then "" else vals[|vals| - 1]
  }

  /** `convert`'s inner loop over a row's cell texts from `idx` on, appending to `vals`:
      a `~` is left out when the previous row's text has `<` at the cell's index and the
      last text kept is `~`; a previous row too short to index is an `IndexError`. */
  function Tw5Values(texts: seq<string>, prev: Option<string>, vals: seq<string>, idx: nat): (r: Result<seq<string>>)
    requires idx <= |texts|
    ensures r.Ok? ==> vals <= r.value && |r.value| <= |vals| + |texts| - idx
    decreases |texts| - idx
  {
    if idx == |texts| then Ok(vals)
    else if prev.Some? && idx >= |prev.value| then Err("IndexError")
    else
      var val := texts[idx];
      if prev.Some? && prev.value[idx] == '<' && LastKept(vals) == "~" && val == "~" then
        Tw5Values(texts, prev, vals, idx + 1)
      else Tw5Values(texts, prev, vals + [val], idx + 1)
  }

  /** Whether the text at index i of a row is left out: it is `~`, the previous row's text
      has `<` at index i, and the text just before it in the row is `~` as well. */
  predicate Dropped(texts: seq<string>, prev: Option<string>, i: nat)
    requires i < |texts|
  {
    texts[i] == "~" && prev.Some? && i < |prev.value| && prev.value[i] == '<' && i > 0 && texts[i - 1] == "~"
  }

  /** The texts of the first n cells that are not left out, in order. */
  function KeptTexts(texts: seq<string>, prev: Option<string>, n: nat): (kept: seq<string>)
    requires n <= |texts|
    ensures |kept| <= n
  {
    if n == 0 then []
    else KeptTexts(texts, prev, n - 1) + (if Dropped(texts, prev, n - 1) then [] else [texts[n - 1]])
  }

  /** The last text kept among the first n is `~` exactly when the n-th text is `~`: a
      left-out text is a `~` that follows a kept `~`. */
  lemma {:induction false} LastKeptTilde(texts: seq<string>, prev: Option<string>, n: nat)
    requires n <= |texts|
    ensures LastKept(KeptTexts(texts, prev, n)) == "~" <==> n > 0 && texts[n - 1] == "~"
  {
    if n > 0 && Dropped(texts, prev, n - 1) {
      LastKeptTilde(texts, prev, n - 1);
    }
  }

  /** The running comparison with the last kept text is the same as the position-only rule
      `Dropped`: from cell `idx` on, the row keeps exactly the texts `Dropped` does not
      remove. */
  lemma {:induction false} Tw5ValuesFrom(texts: seq<string>, prev: Option<string>, idx: nat)
    requires idx <= |texts|
    requires prev.Some? ==> |texts| <= |prev.value|
    ensures Tw5Values(texts, prev, KeptTexts(texts, prev, idx), idx) == Ok(KeptTexts(texts, prev, |texts|))
    decreases |texts| - idx
  {
    if idx < |texts| {
      var vals := KeptTexts(texts, prev, idx);
      LastKeptTilde(texts, prev, idx);
      var omitted := prev.Some? && prev.value[idx] == '<' && LastKept(vals) == "~" && texts[idx] == "~";
      assert omitted == Dropped(texts, prev, idx);
      assert Tw5Values(texts, prev, vals, idx) == Tw5Values(texts, prev, if omitted then vals else vals + [texts[idx]], idx + 1);
      assert KeptTexts(texts, prev, idx + 1) == if omitted then vals else vals + [texts[idx]];
      Tw5ValuesFrom(texts, prev, idx + 1);
    }
  }

  /** A previous row too short for the row fails, whatever was kept so far. */
  lemma {:induction false} Tw5ValuesShortPrev(texts: seq<string>, prev: Option<string>, vals: seq<string>, idx: nat)
    requires prev.Some? && idx <= |prev.value| < |texts|
    ensures Tw5Values(texts, prev, vals, idx) == Err("IndexError")
    decreases |texts| - idx
  {
    if idx < |prev.value| {
      Tw5ValuesShortPrev(texts, prev, vals, idx + 1);
      Tw5ValuesShortPrev(texts, prev, vals + [texts[idx]], idx + 1);
    }
  }

  /** A row's TW5 values are its cells' texts with exactly the `Dropped` ones left out,
      and an `IndexError` exactly when the previous row's text is shorter than the row. */
  lemma Tw5ValuesFilter(texts: seq<string>, prev: Option<string>)
    ensures prev.Some? && |prev.value| < |texts| ==> Tw5Values(texts, prev, [], 0) == Err("IndexError")
    ensures !(prev.Some? && |prev.value| < |texts|) ==> Tw5Values(texts, prev, [], 0) == Ok(KeptTexts(texts, prev, |texts|))
  {
    if prev.Some? && |prev.value| < |texts| {
      Tw5ValuesShortPrev(texts, prev, [], 0);
    } else {
      Tw5ValuesFrom(texts, prev, 0);
    }
  }

  /** Without a previous row, or without any `~`, no text is left out. */
  lemma {:induction false} KeptAll(texts: seq<string>, prev: Option<string>, n: nat)
    requires n <= |texts|
    requires prev.Some? ==> forall i :: 0 <= i < |texts| ==> texts[i] != "~"
    ensures KeptTexts(texts, prev, n) == texts[..n]
  {
    if n > 0 {
      KeptAll(texts, prev, n - 1);
      assert texts[..n] == texts[..n - 1] + [texts[n - 1]];
    }
  }

  /** Only `~` is ever left out: on a first row, or where no text is `~`, every text is
      kept, in order. */
  lemma Tw5ValuesKeepAll(texts: seq<string>, prev: Option<string>)
    requires prev.Some? ==> |texts| <= |prev.value| && forall i :: 0 <= i < |texts| ==> texts[i] != "~"
    ensures Tw5Values(texts, prev, [], 0) == Ok(texts)
  {
    Tw5ValuesFilter(texts, prev);
    KeptAll(texts, prev, |texts|);
    assert texts[..|texts|] == texts;
  }

  function Bar(flavor: Flavor, rowIdx: nat): string {
    if rowIdx == 0 && flavor == Jira then "||" else "|"
  }

  /** A row's markup: the values between bars, with a bar at each end. */
  function RowText(flavor: Flavor, rowIdx: nat, vals: seq<string>): string {
    Join([""] + vals + [""], Bar(flavor, rowIdx))
  }

  function JiraValues(cells: seq<Cell>): (vals: seq<string>)
    ensures |vals| == |cells| && forall i :: 0 <= i < |cells| ==> vals[i] == CellValue(cells[i], false)
  {
    seq(|cells|, i requires 0 <= i < |cells| => CellValue(cells[i], false))
  }

  /** A row's values: for TW5 checked against the previous row's text, when there is one. */
  function RowValues(flavor: Flavor, ranges: seq<Bounds>, row: seq<Cell>, prev: Option<string>): Result<seq<string>> {
    if flavor == Tw5 then Tw5Values(Tw5Texts(ranges, row), prev, [], 0) else Ok(JiraValues(row))
  }

  /** Line `k` of `tb` is row `k` rendered after line `k - 1`. */
  predicate RowRendered(flavor: Flavor, ranges: seq<Bounds>, rows: seq<seq<Cell>>, tb: seq<string>, k: nat)
    requires k < |rows| && k < |tb|
  {
    var vals := RowValues(flavor, ranges, rows[k], if k > 0 then Some(tb[k - 1]) else None);
    vals.Ok? && tb[k] == RowText(flavor, k, vals.value)
  }

  /** The rendered rows `rows[k..]` appended to `tb`; each TW5 row is checked against the
      last row rendered before it. */
  function RenderRows(flavor: Flavor, ranges: seq<Bounds>, rows: seq<seq<Cell>>, tb: seq<string>): (r: Result<seq<string>>)
    requires |tb| <= |rows|
    ensures r.Ok? ==> tb <= r.value && |r.value| == |rows|
    ensures r.Ok? ==> forall k :: |tb| <= k < |rows| ==> RowRendered(flavor, ranges, rows, r.value, k)
    decreases |rows| - |tb|
  {
    if |tb| == |rows| then Ok(tb)
    else
      var k := |tb|;
      var vals :- RowValues(flavor, ranges, rows[k], if k > 0 then Some(tb[k - 1]) else None);
      var r := RenderRows(flavor, ranges, rows, tb + [RowText(flavor, k, vals)]);
      if r.Ok? then
        assert r.value[k] == RowText(flavor, k, vals);
        assert k > 0 ==> r.value[k - 1] == tb[k - 1];
        assert RowRendered(flavor, ranges, rows, r.value, k);
        r
      else r
  }

  /** `convert`: rows joined by CR LF; the TW5 header row is marked with a trailing `h`,
      which fails on a sheet without rows. */
  function Convert(flavor: Flavor, sheet: Worksheet): (r: Result<string>)
    ensures flavor == Tw5 && |sheet.rows| == 0 ==> r.Err?
  {
    var tb :- RenderRows(flavor, sheet.merged, sheet.rows, []);
    if flavor == Jira then Ok(Join(tb, "\r\n"))
    else if |tb| == 0 then Err("IndexError")
    else Ok(Join([tb[0] + "h"] + tb[1..], "\r\n"))
  }

  /** Every row's Jira markup, in order. */
  function JiraRows(rows: seq<seq<Cell>>): (texts: seq<string>)
    ensures |texts| == |rows| && forall i :: 0 <= i < |rows| ==> texts[i] == RowText(Jira, i, JiraValues(rows[i]))
  {
    seq(|rows|, i requires 0 <= i < |rows| => RowText(Jira, i, JiraValues(rows[i])))
  }

  /** Jira rows never fail: the rows still to do are rendered in order after those done. */
  lemma {:induction false} RenderJiraRows(ranges: seq<Bounds>, rows: seq<seq<Cell>>, tb: seq<string>)
    requires |tb| <= |rows| && tb == JiraRows(rows)[..|tb|]
    ensures RenderRows(Jira, ranges, rows, tb) == Ok(JiraRows(rows))
    decreases |rows| - |tb|
  {
    var all := JiraRows(rows);
    if |tb| < |rows| {
      var row := RowText(Jira, |tb|, JiraValues(rows[|tb|]));
      assert all[..|tb| + 1] == tb + [row];
      RenderJiraRows(ranges, rows, tb + [row]);
    } else {
      assert all[..|tb|] == all;
    }
  }

  /** A Jira table is every row's stripped values between bars, the header row between
      double bars, joined by CR LF; no merge markers, alignment or steering replacement. */
  lemma JiraTable(sheet: Worksheet)
    ensures Convert(Jira, sheet) == Ok(Join(JiraRows(sheet.rows), "\r\n"))
  {
    RenderJiraRows(sheet.merged, sheet.rows, []);
  }

  /** A one-row TW5 sheet without merged ranges: the cells' texts between bars, then `h`. */
  lemma Tw5SingleRow(cells: seq<Cell>)
    ensures Convert(Tw5, Worksheet([cells], [])) == Ok(RowText(Tw5, 0, Tw5Texts([], cells)) + "h")
  {
    Tw5ValuesKeepAll(Tw5Texts([], cells), None);
    var tb := [RowText(Tw5, 0, Tw5Texts([], cells))];
    assert [] + [RowText(Tw5, 0, Tw5Texts([], cells))] == tb;
    assert RenderRows(Tw5, [], [cells], tb) == Ok(tb);
    assert RenderRows(Tw5, [], [cells], []) == Ok(tb);
    assert [tb[0] + "h"] + tb[1..] == [tb[0] + "h"];
  }

  /** A TW5 table is its rows' markup, each row rendered against the text of the row
      above, joined by CR LF, with `h` after the first row. */
  lemma Tw5Table(sheet: Worksheet)
    requires Convert(Tw5, sheet).Ok?
    ensures |sheet.rows| > 0 && RenderRows(Tw5, sheet.merged, sheet.rows, []).Ok?
    ensures var tb := RenderRows(Tw5, sheet.merged, sheet.rows, []).value;
            && (forall k :: 0 <= k < |sheet.rows| ==> RowRendered(Tw5, sheet.merged, sheet.rows, tb, k))
            && Convert(Tw5, sheet).value == Join([tb[0] + "h"] + tb[1..], "\r\n")
  {
  }
}
